=== FILE: README.md ===
# Pure core of a script collection, in Dafny

The repository is a loose set of Python scripts. This project models its
deterministic, sequential logic: one Dafny module per component, with
rows as records in sequences, pandas frames and Python dictionaries as
`seq` and `map`, and exceptions as a `Result` failure.

- `ScriptLabels`: `get_char_language` in log.py. It sorts a code point into
  one of 19 labels by an ordered list of range checks.
- `TokenFilter`: `classify_token` and `is_token_allowed` in log.py. These
  give the label count of a token, its primary label and its allow/block
  verdict with a reason.
- `VocabScan`: the id loop of `analyze_tokenizer` in log.py. The tokenizer
  is a value: its vocabulary size, its special ids and strings, and a
  `decode` function that may fail.
- `ChineseDetect`: `has_chinese_characters` in c.py.
- `MetaCatalog`: the first `MetaClassManager` in meta.py. It has
  attribute-tuple → meta id, meta id → class and clf → meta id maps, fresh
  ids and clf histories.
- `MetaTitles`: the last `MetaClassManager` in meta.py. It covers
  `_class_key`, `_title`, `init_active` and `handle_inactive` over a meta
  table of `(uuid, title, nested_classes, available)` rows.
  `handle_inactive` appears twice: once as the class writes it, where
  merging a new key raises, and once with the intended merge of the
  module-level fragment at the end of meta.py (see Findings).
- `BalancedSample`: `get_balanced_sample` in main.py. It is a sampler over
  a pool of row positions, in sort order, with picks tagged by level.
- `BatchPipeline`: the batch slicing, the queue stream with its stop
  markers, per-batch processing and the worker loop of b.py. Several
  workers are sequentialised by a schedule that says which worker takes
  each queue entry.
- `RouteStore`: `RouteStore` and the lookup part of `proxy` in gate.py.
  The YAML document is a small `Yaml` datatype.
- `MarkdownRender`: the `parse_document` dispatch and the line rendering of
  `parse_docx` and `parse_pdf` in pa.py. Documents are given as values.
- `ScoreMean`: `aggregate_scores` in q.py, over `real`.
- `CornerOrder`: the corner ordering at the top of `align_document` in
  con.py.
- Shared helpers:
  - `Wrappers`: `Option` and `Result`.
  - `Text`: Python's `str.strip`, `lower`, `split()[-1]`, `int()`, `str()`,
    code-point string order and `join`.
  - `Seqs`: `unique` in first-seen order.
  - `Sorting`: sorting with distinct keys.

Parameters stand for what the scripts leave to a library or to chance:
- `uuidFor` stands for `uuid5` of a title;
- `decode` stands for the tokenizer;
- `order` stands for Python set iteration order and for the tie order of
  the pandas sort;
- `sched` is a worker schedule;
- `call` is the LLM client.

## Model

| member | source | states |
|---|---|---|
| ScriptLabels.CharLabelByBlocks | log.py:8-179 | the ordered checks agree with an order-free table of blocks per label, in which the fullwidth block leaves out halfwidth katakana: a code point gets a label other than "other" exactly when it lies in one of that label's blocks, and "other" exactly when it lies in none |
| ScriptLabels.BlocksDisjoint | log.py:8-179 | the order-free blocks of two different labels never overlap, so a code point has exactly one label |
| ScriptLabels.CharLabelNeverEmpty | log.py:8-179 | no character is ever labelled "empty"; that label only comes from an empty token |
| ScriptLabels.HalfwidthKatakanaIsJapanese | log.py:112-113 | U+FF65..U+FF9F lies inside the fullwidth block U+FF00..U+FFEF, yet it is labelled "japanese" because its check comes first |
| ScriptLabels.NameInjective | log.py:8-179 | distinct labels have distinct names, so the label strings identify the labels |
| TokenFilter.Labels | log.py:194-195 | one label per character, in token order |
| TokenFilter.Counter | log.py:192-196 | the tally's keys are the labels that occur, each exactly once; each count is the label's number of occurrences; keys appear in first-occurrence order, as a Python dict keeps them |
| TokenFilter.FirstMax | log.py:199-200 | picks an entry whose count no entry exceeds, and no earlier entry has the same count (Python `max` keeps the first maximum) |
| TokenFilter.ClassifyToken | log.py:182-204 | the empty token gives ("empty", {}); otherwise the label set is the set of the characters' labels, the primary label is in it, no label occurs more often than the primary, and on a tie the primary is the tied label that appears first in the token |
| TokenFilter.PrimaryProperties | log.py:192-204 | the tally of a token has the token's label set as keys; its first maximum has maximal count and is seen no later than any label with that count |
| TokenFilter.TieGoesToFirstSeen | log.py:192-200 | among labels with the highest count, the one chosen occurs in the token no later than any other |
| TokenFilter.SortedNames | log.py:240 | the blocked label names come out strictly sorted in code-point order, and they are exactly the names of the given labels |
| TokenFilter.IsTokenAllowed | log.py:207-242 | the empty token is (True, "empty"); a non-empty token is allowed iff its label set is within the allow-list (plus emoji when enabled); an allowed token's reason is "ok"; a blocked one's reason is "contains: " and the sorted blocked names joined by ", " |
| TokenFilter.BlockedReasonNames | log.py:237-240 | a blocked token is non-empty, and its reason lists a non-empty strictly sorted sequence of exactly the blocked label names |
| TokenFilter.AllowEmojiIsMoreLenient | log.py:230-231 | every token allowed without emoji is allowed with emoji |
| TokenFilter.SingleCharAllowed | log.py:237-242 | a one-character token has its character's label as its label set, and is allowed iff that label is in the allow-list |
| TokenFilter.AllowedIffEachCharAllowed | log.py:237-242 | a non-empty token is allowed iff each of its characters is allowed on its own |
| ChineseDetect.HasChinese | c.py:3-5 | true iff some character's code point lies in one of the six ranges of the pattern |
| ChineseDetect.HasChineseConcat | c.py:3-5 | the detector on a concatenation is the "or" of the detector on the parts |
| ChineseDetect.DocumentedExamples | c.py:8-12 | "Hello 你好世界!" is detected and "No Chinese here." is not |
| ChineseDetect.MatchIsLabelledChinese | c.py:4 | every character the pattern matches is labelled "chinese" by the script classifier |
| ChineseDetect.DetectedTokenIsBlocked | c.py:3-5 | a string the detector flags is blocked by the token filter, with or without emoji |
| ChineseDetect.ClassifierIsWider | c.py:4 | U+2CEB0 (CJK Extension F) is labelled "chinese" but not matched by the pattern, so the classifier's Chinese set is strictly wider |
| VocabScan.Judge | log.py:277-305 | an id is Special iff it is a special id or decodes to a special string; a decode error iff it is not special and decoding fails; Allowed iff it decodes to a non-special string the token filter allows; Blocked iff the filter blocks that string, and then it carries the text and its primary label |
| VocabScan.Outcomes | log.py:277 | the verdict of every id below n, in id order |
| VocabScan.KindsPartition | log.py:281-305 | each id is counted in exactly one of the four stats, so the stats sum to the number of ids |
| VocabScan.RecordTurn | log.py:277-310 | recording one more id keeps the summary of the report: the id lists, the stats and the examples are those of the ids seen so far |
| VocabScan.RecordExamples | log.py:307-310 | after one more id, a label has examples iff some id so far is blocked with it as primary; it keeps min(5, that number) examples, and the k-th is the k-th such id with its text |
| VocabScan.SummaryIds | log.py:279-305 | from the summary of the whole vocabulary: an id is allowed iff it is below the vocabulary size and not blocked, it is blocked iff it is below the size and blocked, and special ids are always allowed |
| VocabScan.SummaryExamples | log.py:307-310 | from the summary of the whole vocabulary: each example is a blocked id with that primary label and its text, and the k-th example of a label is the k-th id blocked with it |
| VocabScan.AnalyzeVocab | log.py:277-319 | the allowed and blocked id lists are ascending and partition 0..vocab_size-1 by the verdict; special ids are allowed; the stats count each kind and sum to vocab_size; the examples per label are the first min(5, n) blocked ids with that primary label |
| MetaCatalog.FreshIsValid | meta.py:6-10 | a new manager satisfies the invariant: ids start at 1, every class is stored under its id with a non-empty history whose last element is its current clf, and the clf map points into histories |
| MetaCatalog.CreateClass | meta.py:12-18 | a new class takes the next id, which then increments; it has current clf and history [clf]; the mapping and the clf map point at it; ids stay below the counter and the new id was unused |
| MetaCatalog.CreateClassValid | meta.py:30-37 | creating a class keeps the invariant |
| MetaCatalog.GroupKeys | meta.py:22 | the groups are the distinct attribute tuples of the rows, strictly sorted as pandas `groupby` sorts them |
| MetaCatalog.ClfsOf | meta.py:24-25 | a clf is listed iff some row of the tuple carries it; at most one entry per row; the first row's clf comes first; empty when the tuple is absent |
| MetaCatalog.ClfsOfConcat | meta.py:24-25 | the clfs of two runs of rows are those of the first run followed by those of the second, so the list is in row order with repeats kept |
| MetaCatalog.ConflictIffMultipleClfs | meta.py:25-26 | a tuple has more than one distinct clf iff two of its rows carry different clfs |
| MetaCatalog.InitializeFromCatalog | meta.py:20-37 | the state after initialisation satisfies the invariant, whether or not it stops on an error |
| MetaCatalog.InitGroupsValid | meta.py:24-37 | the group loop keeps the invariant |
| MetaCatalog.InitGroupsError | meta.py:24-27 | initialisation raises the "Multiple clf_id" error iff some tuple has rows with different clfs |
| MetaCatalog.InitGroupsErrorAt | meta.py:24-27 | when it raises, it does so at a group with a conflict; every earlier group is conflict-free and was fully registered, as Python leaves the partial state behind |
| MetaCatalog.InitGroupsNext | meta.py:30-31 | a run that completes advances the id counter by exactly the number of groups |
| MetaCatalog.InitGroupsFrame | meta.py:24-37 | existing classes are untouched, and mappings of tuples outside the groups are kept |
| MetaCatalog.InitGroupsAssigns | meta.py:29-37 | the i-th group gets id next_meta_id + i, a class with that id whose current clf and one-element history are the group's clf, and the mapping points at it |
| MetaCatalog.InitGroupsAssignsFirst | meta.py:29-37 | the first group gets next_meta_id and a class holding its clf |
| MetaCatalog.NewAttributesMap | meta.py:41-42 | the new map has exactly the tuples of the rows, each with the clf of its first row (`iloc[0]`) |
| MetaCatalog.ClearMissing | meta.py:50-52 | tuples missing from the new catalogue keep mapping and class but lose their current clf; present tuples' classes are unchanged; nothing else changes |
| MetaCatalog.ClearMissingValid | meta.py:50-52 | clearing current clfs keeps the invariant |
| MetaCatalog.Step | meta.py:55-76 | one update step keeps ids below the counter and mappings faithful, never lowers the counter, never drops a class, and reports at most one change, about the visited tuple |
| MetaCatalog.StepValid | meta.py:55-76 | one update step keeps the invariant |
| MetaCatalog.StepFrame | meta.py:55-76 | a step leaves every other tuple's mapping and class as it was |
| MetaCatalog.StepEffect | meta.py:58-76 | a changed clf is appended to the history, made current and reported once as replaced; an unchanged clf reports nothing and changes nothing; a new tuple gets a class with a fresh id >= the old counter, history [clf], reported as created |
| MetaCatalog.ApplyAll | meta.py:55-76 | the whole loop keeps ids below the counter and mappings faithful, never lowers the counter and never drops a class |
| MetaCatalog.ApplyAllValid | meta.py:55-76 | the whole loop keeps the invariant |
| MetaCatalog.ApplyAllFrame | meta.py:55-76 | tuples not visited keep their mapping and class |
| MetaCatalog.ApplyAllChanges | meta.py:55-76 | every change names a visited tuple, and no tuple is reported twice |
| MetaCatalog.ApplyAllEffect | meta.py:55-76 | whatever the visiting order, each visited tuple ends with the effect of its own step: replaced, unchanged or created as described above |
| MetaCatalog.UpdateFromNewCatalog | meta.py:39-78 | an update keeps the invariant |
| MetaCatalog.UpdateMissing | meta.py:50-52 | a tuple missing from the new catalogue keeps its meta id and class, with current clf None, and no change names it |
| MetaCatalog.UpdatePresent | meta.py:55-76 | a tuple in the new catalogue is replaced, unchanged or created according to its first row's clf; no tuple is reported twice |
| MetaCatalog.UpdateRegisters | meta.py:55-76 | after an update, every new clf is registered in the clf map |
| MetaCatalog.GetMetaClassByClf | meta.py:95-97 | a found id is a class whose history holds the clf; the result is None iff no class's history holds it |
| MetaTitles.ClassKeyInjective | meta.py:342-344 | the class key "service_id\|comp_id\|view_id" determines the three ids |
| MetaTitles.TitleInjective | meta.py:346-348 | the title determines its three parts when the service and comp titles contain no '\|' |
| MetaTitles.TitlesCanCollide | meta.py:346-348 | without that condition, two rows with different titles and different class keys get the same title |
| MetaTitles.Filter | meta.py:359 | the missing columns are the required ones not present; none are missing iff all are present |
| MetaTitles.KeysWithTitle | meta.py:368-375 | the nested list of a title holds exactly the class keys of available rows with that title, and no more entries than there are rows |
| MetaTitles.KeysWithTitleConcat | meta.py:368-375 | the keys are collected row by row: those of two concatenated row lists are the first list's keys followed by the second's, so each matching row contributes its key once, in row order, repeats kept |
| MetaTitles.ActiveTitles | meta.py:363-375 | the titles of available rows; none when no row is available |
| MetaTitles.Group | meta.py:377-382 | one meta row per title, available, with the uuid of its title and its nested class keys |
| MetaTitles.MissingEmpty | meta.py:359-360 | no column is missing iff every required column is present |
| MetaTitles.SortedTitles | meta.py:371-375 | the grouped titles are the active ones; there are none iff no row is available; every title has at least one nested key |
| MetaTitles.InitActive | meta.py:354-385 | fails iff a required column is missing, naming exactly the missing columns in sorted order; otherwise there is one row per distinct active title in sorted order, available, with uuid of its title and its class keys; no active rows gives an empty table |
| MetaTitles.InitActiveListsEveryRow | meta.py:368-382 | every available row's class key appears in the nested list of its title's meta row |
| MetaTitles.InitActiveUuidByTitle | meta.py:350-382 | rows with the same title get the same uuid, across catalogues |
| MetaTitles.FindTitle | meta.py:404-407 | the first row with the title, or None iff no row has it |
| MetaTitles.Visit | meta.py:455-473 | one pass of the intended merge keeps every existing row's uuid, title and available flag; rows it adds are unavailable and carry the uuid of their title |
| MetaTitles.Relist | meta.py:461-465 | only the first row with the title gets the new nested list; every other row is unchanged |
| MetaTitles.VisitKeepsUnique | meta.py:455-473 | if titles are unique before a visit, they are unique after it and no nested list loses a key |
| MetaTitles.VisitCovers | meta.py:455-473 | after an intended pass for (title, key), the title's first row holds the key |
| MetaTitles.VisitKeepsCovered | meta.py:404-418 | a key already listed under a title stays listed |
| MetaTitles.VisitCoveredIsIdentity | meta.py:408 | visiting a pair already listed changes nothing |
| MetaTitles.InactivePairs | meta.py:393-398 | a pair is listed iff some unavailable row has that title and class key; at most one pair per row |
| MetaTitles.InactivePairsConcat | meta.py:393-398 | the pairs of two runs of rows are those of the first run followed by those of the second, so the list is in row order with repeats kept |
| MetaTitles.VisitAll | meta.py:455-473 | the intended loop keeps existing rows' identity and flags, adds only unavailable rows with their title's uuid, and keeps titles unique without dropping keys |
| MetaTitles.HandleInactive | meta.py:387-473 | the same for `handle_inactive` with the intended merge in its loop |
| MetaTitles.VisitAllCovers | meta.py:455-473 | after the intended loop every visited pair is listed under its title |
| MetaTitles.VisitAllCoveredIsIdentity | meta.py:408 | a loop over pairs that are all listed already changes nothing |
| MetaTitles.HandleInactiveCovers | meta.py:387-473 | with the intended merge, every unavailable row's class key ends up listed under its title |
| MetaTitles.HandleInactiveIdempotent | meta.py:387-473 | with the intended merge, running `handle_inactive` twice gives the same table as once |
| MetaTitles.VisitAddedFrom | meta.py:404-418 | every key in the table after a visit was there before or is the visited pair's key under its title |
| MetaTitles.VisitAllAddedFrom | meta.py:400-418 | every key after the loop was there before or comes from a visited pair with that title |
| MetaTitles.AddedFromCompose | meta.py:400-418 | keys added by one visit and then by the rest of the loop come from the whole sequence of pairs |
| MetaTitles.InitThenHandleUnique | meta.py:354-473 | a table from `init_active` has unique titles, and so does the table after `handle_inactive` with the intended merge |
| MetaTitles.VisitAsWritten | meta.py:404-418 | the class's pass raises exactly when the title has a row whose list lacks the key, leaving the table as it was; otherwise it is the intended pass, which then only appends |
| MetaTitles.VisitAllAsWritten | meta.py:400-418 | when the class's loop returns, its table is the intended loop's; returning or raising, it never rewrites an existing row and only appends |
| MetaTitles.VisitAllAsWrittenSucceeds | meta.py:400-418 | the class's loop returns iff no pass of the intended loop has to merge a new key |
| MetaTitles.VisitAllAsWrittenRaisesAt | meta.py:400-418 | when pass k is the first that has to merge, the class's loop raises and leaves the intended loop's table after k passes |
| MetaTitles.VisitAllAsWrittenRaisesFirst | meta.py:404-410 | when the first pass has to merge, the loop raises with the table unchanged |
| MetaTitles.HandleInactiveAsWritten | meta.py:387-420 | `handle_inactive` as written returns iff no inactive row has to join an existing title with a new key, and then gives the intended table; it never rewrites an existing row |
| MetaTitles.InitActiveNeedsMerge | meta.py:354-410 | on the table of `init_active`, a pass has to merge iff its title is that of an available row and no available row with the title has its class key |
| MetaTitles.DemoRaises | meta.py:426-451 | on the demo catalogue, `handle_inactive` as written raises at its second row before appending anything, while the intended merge lists that row's key under its title |
| MetaTitles.DemoSecondRow | meta.py:434-439 | the demo's second row has title "Skype\|Base\|Default" and class key "13\|10\|100" |
| BalancedSample.Priority | main.py:21 | priority is 0 exactly for rows of the priority system and 1 otherwise |
| BalancedSample.Keep | main.py:32-50 | a filtered pool holds exactly the pool's rows that pass the test, and is no longer than the pool |
| BalancedSample.KeepConcat | main.py:32-50 | filtering two runs of the pool gives the filtered first run followed by the filtered second, so the mask keeps pool order |
| BalancedSample.KeepSorted | main.py:22-41 | filtering keeps the pool distinct and in (priority, newest date first) order |
| BalancedSample.KeepSplits | main.py:44-50 | the rows taken and the rows kept make up the pool |
| Seqs.DistinctCard | main.py:50 | a sequence without repeats has as many elements as the set they form |
| BalancedSample.Head | main.py:44 | `head(n)`: the first n rows, or all of them when n is larger; a negative n drops that many from the end |
| BalancedSample.Step | main.py:30-50 | a (level, value) step keeps the earlier picks and appends `min(limit, group size)` new ones for a non-negative limit; the k-th new pick is the k-th row of the group in pool order, at this level, a pooled row with that value whose parent value is already picked; the pool keeps exactly the rows not taken |
| BalancedSample.StepTakesFirst | main.py:22-44 | a taken row sorts no later than a row of the same group left behind: the priority system first, then newer dates |
| BalancedSample.TakenFacts | main.py:44-50 | the taken rows are distinct rows of the pool, and removing them removes exactly that many |
| BalancedSample.StepPool | main.py:50 | the pool stays sorted and distinct, and pool plus picks still count every input row |
| BalancedSample.StepPicksDistinct | main.py:47-50 | no row is picked twice, because a picked row leaves the pool |
| BalancedSample.StepDisjoint | main.py:50 | picks are input rows, and no picked row is left in the pool |
| BalancedSample.StepInv | main.py:30-50 | a step keeps the pool/picks invariant |
| BalancedSample.TakenHasParent | main.py:37-41 | at clf_2 and clf_3 a taken row's parent-level value occurs among the rows picked before |
| BalancedSample.ParentsOkAppend | main.py:37-47 | appending picks whose parents are already picked keeps "every lower-level pick has an earlier parent" |
| BalancedSample.StepParents | main.py:37-47 | every pick at clf_2 or clf_3 has an earlier pick with the same parent-level value |
| BalancedSample.StepLevels | main.py:25-27 | picks stay grouped by level in ascending order, and only levels present in `limits` are picked |
| BalancedSample.LevelPassOk | main.py:30-50 | a level's pass over its values keeps all of the invariants |
| BalancedSample.ValuesOf | main.py:30 | `unique()` of the level's column over the pool: no value twice, exactly the values some pooled row has, ordered by first occurrence in pool order |
| Seqs.UniqueOrder | main.py:30 | the distinct values come in the order of their first occurrences |
| BalancedSample.LevelStepOk | main.py:25-50 | processing one level keeps the invariants and picks no higher level |
| BalancedSample.AllLevelsOk | main.py:25-50 | processing clf_1, clf_2, clf_3 in turn keeps all the invariants |
| BalancedSample.Output | main.py:21-47 | each output row is the picked input row with its priority column |
| BalancedSample.Run | main.py:17-50 | the whole run ends in a state with the pool/picks, parent and level invariants |
| BalancedSample.BalancedSample | main.py:4-55 | at most as many rows as the input, no duplicates, and every output row is an input row with its priority |
| BalancedSample.OutputIsPickedRows | main.py:47-55 | every picked row is in the output; when no two input rows are equal, `drop_duplicates` removes nothing and the output has one row per pick |
| BalancedSample.NoLimitsEmpty | main.py:25-27 | with no level in `limits` the sample is empty |
| BatchPipeline.Slices | b.py:21 | for batch size B the batches concatenate to the input in order; all have B rows but the last, which has 1..B; there are ceil(L/B) of them |
| BatchPipeline.Stops | b.py:25-26 | `num_workers` stop markers (none for a negative count, as `range` gives) |
| BatchPipeline.AsItems | b.py:22-23 | each batch is put on the queue once, in order |
| BatchPipeline.Stream | b.py:19-26 | B = 0 fails as `range` does; B < 0 puts only the markers; B > 0 puts all batches in order followed by exactly `num_workers` markers |
| BatchPipeline.StreamCoversRows | b.py:19-26 | the stream's batches hold L rows, and the stream holds exactly `num_workers` markers |
| BatchPipeline.ProcessBatch | b.py:28-35 | one result per row in row order, each the call on the row's "text" (or "") and the URL |
| BatchPipeline.ProcessBatchAppend | b.py:30-35 | processing two batches back to back equals processing them joined |
| BatchPipeline.ProcessBatchChecked | b.py:28-35 | with a client that may raise: succeeds iff every call on the batch succeeds, giving one result per row in row order; otherwise the exception is that of the first failing call |
| BatchPipeline.ProcessBatchCheckedTotal | b.py:28-35 | with a client that never raises, the checked processing is the plain one |
| BatchPipeline.WorkerRun | b.py:37-45 | the worker stops at its first marker and pulls nothing after it; without a marker it pulls everything; it emits one list per batch pulled |
| BatchPipeline.WorkerRunChecked | b.py:37-45 | a worker whose client raises ends without taking a marker; it has emitted one list per batch before the failing one and nothing for that batch |
| BatchPipeline.WorkerRunCheckedTotal | b.py:37-45 | with a client that never raises, the checked worker is the plain one |
| BatchPipeline.WorkerEmitsPerBatch | b.py:39-44 | the k-th list a worker emits is the processing of the k-th batch it pulled, with its URL |
| BatchPipeline.AtMostOneStop | b.py:39-42 | a worker that pulls nothing after a marker holds at most one marker |
| BatchPipeline.WorkerResultCount | b.py:39-44 | such a worker emits as many results as its batches hold rows |
| BatchPipeline.PulledBy | b.py:40 | a worker pulls a subsequence of the stream |
| BatchPipeline.WorkersPartitionStream | b.py:22-40 | under any schedule over n workers, each entry goes to exactly one worker |
| BatchPipeline.WorkersCoverItems | b.py:22-40 | the workers' batches together hold every row of the stream |
| BatchPipeline.MarkersAtMost | b.py:39-42 | m workers that each stop at their marker hold at most m markers |
| BatchPipeline.EmittedIsPooledItems | b.py:39-44 | the results emitted by all workers number the rows of the batches they pulled |
| BatchPipeline.EmittedStep | b.py:39-44 | adding one more such worker adds its batches' rows to the results |
| BatchPipeline.ProtocolDelivers | b.py:22-71 | with one worker per URL and any complete schedule, each worker gets exactly one marker and stops on it, each entry goes to one worker, and the results total L items |
| BatchPipeline.SomeRunCompletes | b.py:22-71 | a complete schedule exists for every batch size > 0 and worker count > 0 |
| BatchPipeline.NoWorkerNoRun | b.py:25-71 | with no URLs and a non-empty frame there is no complete run: nobody takes the batches |
| RouteStore.Load | gate.py:19-23 | no file, an empty document or no "routes" key gives no routes; a non-mapping document or routes section fails; with a routes mapping, loading succeeds iff every entry is a mapping with a textual "url"; a success has exactly the entry names as keys and maps each to its "url" text |
| RouteStore.Save | gate.py:25-26 | the saved document is {"routes": {name: {"url": url}}} with exactly the route names |
| RouteStore.LoadSave | gate.py:23-26 | loading what was saved gives back the routes |
| RouteStore.SaveLoad | gate.py:23-26 | a document of exactly that shape is saved back unchanged after loading |
| RouteStore.Open | gate.py:15-17 | opening succeeds iff loading does, and the store then agrees with its file |
| RouteStore.Get | gate.py:30-31 | a route is found iff the name is stored, and then it is the stored URL |
| RouteStore.All | gate.py:42-43 | all routes: a name is present iff `get` finds it, with the same URL |
| RouteStore.Set | gate.py:33-35 | the names become the old ones plus `name`, and the file is rewritten from the new routes |
| RouteStore.Delete | gate.py:37-40 | only `name` is removed; an absent name leaves the store and the file unchanged; a present one rewrites the file |
| RouteStore.GetAfterSet | gate.py:30-35 | after `set(name, url)`, `get(name)` is url and every other name's route is unchanged |
| RouteStore.GetAfterDelete | gate.py:30-40 | after `delete(name)` the name is gone and every other route is unchanged |
| RouteStore.SetKeepsSynced | gate.py:33-35 | after `set`, the file holds exactly the routes |
| RouteStore.DeleteKeepsSynced | gate.py:37-40 | after `delete`, a store that agreed with its file still does |
| RouteStore.Proxy | gate.py:88-94 | no route or an empty URL gives 404 "Unknown service: <service>"; otherwise the target is the route, "/" and the path |
| RouteStore.ProxyAfterUpdate | gate.py:33-94 | after setting a non-empty URL the proxy forwards to it; after deleting the service it answers 404 |
| RouteStore.ForwardInjective | gate.py:94 | different paths of one service go to different target URLs |
| MarkdownRender.Extension | pa.py:5 | the extension is the lower-cased text after the last '.', or the whole lower-cased name when there is none |
| MarkdownRender.ExtensionIgnoresCase | pa.py:5 | a path and its lower-cased form have the same extension |
| MarkdownRender.ExtensionOfDotless | pa.py:5 | a dot-less path's extension is its whole lower-cased name |
| MarkdownRender.ExtensionOfName | pa.py:5 | "stem.ext" has extension lower(ext), whatever dots the stem holds |
| MarkdownRender.ChooseParser | pa.py:5-11 | DOCX iff the extension is "docx", PDF iff it is "pdf", otherwise the "Unsupported file type" error |
| MarkdownRender.UpperCaseDocx | pa.py:5-7 | "X.DOCX" goes to the DOCX parser |
| MarkdownRender.DottedStemPdf | pa.py:5-9 | "X.pdf" goes to the PDF parser, whatever dots X holds |
| MarkdownRender.OtherExtensionRejected | pa.py:10-11 | "X.txt" raises "Unsupported file type" |
| MarkdownRender.HeadingLevel | pa.py:31 | the level is the `int()` of the style's last word whenever that word parses, none when it does not, and none for an all-whitespace style |
| MarkdownRender.ParagraphLine | pa.py:24-34 | a blank paragraph gives no line; a heading style whose last word is not a number raises; a non-heading style gives the stripped text |
| MarkdownRender.HeadingRendering | pa.py:30-32 | style "Heading N" renders as N '#', a space and the stripped text |
| MarkdownRender.BareHeadingRaises | pa.py:30-31 | the style "Heading" on a non-blank paragraph raises, as `int("Heading")` does |
| MarkdownRender.BareHeadingLevel | pa.py:31 | the style "Heading" has no level |
| MarkdownRender.HeadingIsOneWord | pa.py:31 | the last word of "Heading" is "Heading" |
| MarkdownRender.HeadingIsNotNumber | pa.py:31 | "Heading" does not parse as an integer |
| MarkdownRender.TableLines | pa.py:43-47 | a table with no rows raises; otherwise a "\n"-prefixed header line, a separator with one "---" per header cell, then one line per remaining row |
| MarkdownRender.BodyLines | pa.py:46-47 | one "\| … \|" line per row, in order |
| MarkdownRender.ParagraphLines | pa.py:24-34 | the paragraphs render iff each one does |
| MarkdownRender.ParagraphLinesContents | pa.py:24-34 | a rendered paragraph list has one line per non-blank paragraph, and the k-th line is the line of the k-th non-blank paragraph |
| MarkdownRender.NonBlank | pa.py:25-27 | the paragraphs left are input paragraphs that are not blank |
| MarkdownRender.TablesLines | pa.py:43-47 | tables render iff each has a row; then one line per row plus one separator per table |
| MarkdownRender.TablesLinesConcat | pa.py:43-47 | the lines of two lists of tables are those of the first list followed by those of the second |
| MarkdownRender.TablesLinesAt | pa.py:43-47 | table i renders, and its lines sit at position i + (rows of the tables before it) among all table lines |
| MarkdownRender.RenderDocx | pa.py:19-49 | a DOCX renders iff every paragraph and every table does; the text is then the paragraph lines followed by the table lines, joined by "\n\n" |
| MarkdownRender.DocxLines | pa.py:19-49 | the rendered DOCX is these lines joined by "\n\n" |
| MarkdownRender.DocxTableAt | pa.py:24-49 | each table's lines sit after all paragraph lines, at the table's place among the table lines |
| MarkdownRender.RenderDocxLines | pa.py:19-49 | a rendered DOCX has one line per non-blank paragraph, row and table; the first lines are the non-blank paragraphs' lines in order, then each table's lines in table order |
| MarkdownRender.DocxLineCount | pa.py:24-49 | a rendered DOCX has one line per non-blank paragraph, per table row and per table separator |
| MarkdownRender.PageLines | pa.py:63-82 | a page gives its text, then one "\n![Image](./<name>)\n" line per image, named page_p_img_i.ext in the image directory |
| MarkdownRender.PagesLines | pa.py:59-82 | the pages give one line per page and one per image |
| MarkdownRender.PagesLinesConcat | pa.py:59-82 | the lines of two runs of pages are those of the first run followed by those of the second, numbered on from where the first stops |
| MarkdownRender.PagesLinesAt | pa.py:59-82 | page p's text and image lines, numbered first + p, sit at position p + (images of the pages before it) |
| MarkdownRender.ImageNamesDistinct | pa.py:79 | two images get the same file name only if page, index and extension agree |
| MarkdownRender.RenderPdf | pa.py:54-84 | the text is the page lines joined by "\n\n": one line per page and per image, each page's text and then its image references at the page's place, in page order, numbered from 0; no pages give the empty string |
| MarkdownRender.ParseDocument | pa.py:1-11 | an unsupported extension raises "Unsupported file type"; ".docx" renders the DOCX; ".pdf" renders the PDF into "./images" |
| ScoreMean.Zip | q.py:8 | pairs up to the shorter length, in order |
| ScoreMean.CountPositive | q.py:9-10 | a title has a non-zero count iff it occurs among the pairs |
| ScoreMean.TallyTurn | q.py:8-10 | one more pair keeps the running keys (first-seen order) and the sums and counts of the prefix |
| ScoreMean.Tally | q.py:8-10 | after the loop, keys are the distinct titles in first-seen order and the sums and counts are those of all pairs |
| ScoreMean.AggregateScores | q.py:3-18 | the keys are the distinct titles among the zipped pairs, and each value is the mean of that title's scores, with a non-zero count |
| ScoreMean.AggregateKeys | q.py:8-16 | a title has a mean iff it occurs at a position below both lengths; empty input gives no keys |
| ScoreMean.MeanOfSingle | q.py:14 | a title occurring once maps to its own score |
| ScoreMean.SumOfSingle | q.py:9 | the sum of a title occurring once is its score |
| ScoreMean.SumOfAbsent | q.py:9 | an absent title sums to zero |
| ScoreMean.MinScore | q.py:14 | the least score of a title is one of its scores, below all of them |
| ScoreMean.MaxScore | q.py:14 | the greatest score of a title is one of its scores, above all of them |
| ScoreMean.SumBounds | q.py:9-10 | scores between lo and hi give a sum between count·lo and count·hi |
| ScoreMean.MeanBetween | q.py:14 | each mean lies between the least and greatest score of its title |
| CornerOrder.ArgMin | con.py:7-11 | `argmin`: a position of the least value, before every other position with that value |
| CornerOrder.ArgMax | con.py:8-12 | `argmax`: a position of the greatest value, before every other position with that value |
| CornerOrder.FirstMinUnique | con.py:7-11 | there is only one first minimum |
| CornerOrder.FirstMaxUnique | con.py:8-12 | there is only one first maximum |
| CornerOrder.ArgMaxIsArgMinOfNegation | con.py:7-12 | the first maximum is the first minimum of the negated values |
| CornerOrder.OrderCorners | con.py:3-12 | fails iff the contour does not have four points; otherwise top-left and bottom-right are the first points of least and greatest x+y, and top-right and bottom-left those of least and greatest y−x |
| CornerOrder.CornersAreInputPoints | con.py:3-12 | each corner is one of the contour's points |
| CornerOrder.RectangleTopLeft | con.py:6-7 | for an upright rectangle the least x+y is its top-left corner |
| CornerOrder.RectangleTopRight | con.py:10-11 | for an upright rectangle the least y−x is its top-right corner |
| CornerOrder.RectangleBottomRight | con.py:6-8 | for an upright rectangle the greatest x+y is its bottom-right corner |
| CornerOrder.RectangleBottomLeft | con.py:10-12 | for an upright rectangle the greatest y−x is its bottom-left corner |
| CornerOrder.UprightRectangle | con.py:3-12 | an upright rectangle's four corners, in any order, come out as top-left, top-right, bottom-right, bottom-left |
| CornerOrder.TurnedSquareRepeatsCorner | con.py:6-11 | for a square turned by 45°, the top-left and top-right outputs are the same point: ties go to the first point |
| Text.Strip | pa.py:25 | `str.strip()`: the input without its leading and trailing whitespace; empty iff the input is all whitespace |
| Text.Lower | pa.py:5 | `lower()` character by character, same length |
| Text.Trimmed | pa.py:31 | the input without its trailing whitespace: a prefix followed only by whitespace, ending in a non-whitespace character unless empty |
| Text.LastWord | pa.py:31 | `split()[-1]`: none iff the input is all whitespace; otherwise a non-empty word without whitespace that ends the input once trailing whitespace is removed and starts at its beginning or after a whitespace character |
| Text.ParseIntOfIntToString | pa.py:31 | `int(str(n)) == n` for every integer |
| Text.NatToStringRoundTrip | pa.py:79 | the decimal digits of `str(n)` denote n |
| Text.SortedStrings | log.py:240 | `sorted` on distinct strings: strictly ascending in code-point order, with the same elements |
| Text.StrLessIsStrictTotalOrder | log.py:240 | Python's string comparison is a strict total order |
| Seqs.Unique | main.py:30 | `unique()`: the distinct elements in first-seen order |
| Seqs.UniqueFirstOrder | main.py:30 | `unique()` lists elements in the order of their first occurrences |

## Left out

- Real concurrency in b.py: asyncio tasks, the bounded queue's backpressure
  (b.py:58), task creation and joining, and the timeout-polling collector
  (b.py:73-81, 84-86). Workers are sequentialised by a schedule parameter.
  The OpenAI client (b.py:6-17) is the `call` parameter.
- BatchPipeline.ProcessBatch: the client never raises here. A client that
  may raise is modelled separately by ProcessBatchChecked and
  WorkerRunChecked.
- BatchPipeline.ProtocolDelivers: all L results are delivered only because
  the client never raises. In b.py an exception from the client ends that
  worker without its marker, as WorkerRunChecked shows, and its batch's
  results are lost. `await w` (b.py:85-86) then re-raises, and if every
  worker has died while the bounded queue is full, `await batch_gen_task`
  (b.py:84) never returns. These task-level effects are not modelled.
- BatchPipeline.ProcessBatchAppend: the client is a function of prompt and
  URL, so equal prompts get equal replies. The real client samples at
  temperature 0.7 (b.py:15), so its replies may differ from call to call.
- Tokenizer loading and decoding (log.py:248-265, 285) is the `Tokenizer`
  value. The report printing, argparse and JSON output (log.py:322-397) are
  I/O.
- VocabScan.AnalyzeVocab: examples keep the decoded text rather than its
  `repr()` (log.py:310). Python's repr escaping is not modelled.
- `uuid5` (meta.py:350-352) is the `uuidFor` parameter, a deterministic
  function of the title.
- The other `MetaClassManager` versions in meta.py (lines 100-322) are not
  modelled: one depends on `uuid4` and the clock. Nor is
  `get_meta_class_info` (meta.py:80-93), which only builds a DataFrame.
- The `__main__` demo blocks of meta.py and main.py, the print lines of c.py
  and the demo calls in con.py are not modelled.
- pandas' missing values (`NaN`, `pd.NA`) are not modelled. The columns the
  models use are always present.
- YAML file reading and writing, the FastAPI routers (gate.py:45-77) and the
  httpx request forwarding (gate.py:95-107) are left out. The file is an
  `Option<Yaml>` value.
- RouteStore.Load: an entry whose "url" is not a string fails to load. Python
  would keep that value as is. Routes are modelled as strings only.
- python-docx and PyMuPDF access, `os.makedirs` and image byte writes in pa.py
  are left out. Documents are given as values.
- The run/blip loop at pa.py:37-40 has only comments as its body, which
  Python rejects as an indentation error. It is modelled as doing nothing.
- Strings are Dafny strings of Unicode scalar values. Python strings may also
  hold lone surrogate code points, which the model cannot represent.
- Text.Lower: only ASCII letters are folded. Python's full Unicode case
  mapping is not modelled. File extensions are compared after this folding.
- Text.ParseInt: accepts an optional sign and decimal digits. Python's `int()`
  also takes surrounding whitespace, underscores and non-ASCII digits.
- The perspective transform and warp in con.py (lines 14-28) are
  floating-point OpenCV work. Coordinates are modelled as integers.
- The other files of the repository (metric.py, 2.py, Logo2.py, dslogo.py,
  pdf2img.py, ocr.py, docx.py, rep.py, reg.py, res.py, p.py, dt.py) are
  not modelled. They are image processing, floating-point statistics, thin
  library wrappers, prompt text or schemas.
- VocabScan.AnalyzeVocab: `dict(stats)` and `dict(blocked_examples)`
  (log.py:316-317) omit the keys never counted and keep insertion order.
  The model's four-field stats record always has every field, and its map of
  examples has no order.
- MetaTitles.Visit: models the intended merge of the `.at` fragment at
  meta.py:455-473. The class's own line meta.py:410 raises instead; that is
  VisitAsWritten (see Findings).
- MetaTitles.Relist: the `.at` write of meta.py:465. The class's
  `loc[mask, ...]` assignment at meta.py:410 writes nothing: it raises.
- MetaTitles.VisitCovers: holds for the intended merge only. The class raises
  at meta.py:410 instead of listing a new key under an existing title.
- MetaTitles.VisitAll: the intended loop. The class's loop stops with a
  `ValueError` at the first pass that merges a new key; that is
  VisitAllAsWritten.
- MetaTitles.VisitAllCovers: holds for the intended loop only. The class's
  loop raises instead of listing a new key under an existing title.
- MetaTitles.HandleInactive: the intended `handle_inactive`. The class's
  method is HandleInactiveAsWritten, which raises whenever an inactive row
  must join an existing title with a new key.
- MetaTitles.HandleInactiveCovers: holds for the intended merge only. On the
  demo catalogue the class raises before listing the key (DemoRaises).
- MetaTitles.HandleInactiveIdempotent: holds for the intended merge only. A
  first run of the class's method raises whenever a merge is needed.
- MetaTitles.VisitAsWritten: a title whose list is empty raises here too.
  pandas would accept the one-key list there and store the bare key string,
  which a list-valued cell cannot hold. Neither `init_active` nor
  `handle_inactive` makes an empty list.
- MetaTitles.HandleInactiveAsWritten: the append at meta.py:413 assumes the
  table's default index, so that `loc[len]` adds a row instead of
  overwriting one.
- BalancedSample.Step: rows are identified by position. The source drops
  taken rows by index label (main.py:50), which matches only when the
  frame's index is unique.
- ScoreMean.MeanBetween: float rounding is not modelled; the bound holds for
  exact reals only.
- Working on a copy of the input frame (main.py:16-18) is implicit: every
  model is a pure function of its inputs.

## Findings

| source | as written | input that shows it | evidently intended | confidence | as-written member | corrected member |
|---|---|---|---|---|---|---|
| meta.py:410 | the new list is assigned through `loc[mask, 'nested_classes']` wrapped in a one-element list, a value one row high and at least two keys wide for a single column; pandas rejects it with a `ValueError`, so `handle_inactive` raises and keeps the rows it already appended | the demo catalogue at meta.py:427-451: `init_active` lists "1\|10\|100" under "Skype\|Base\|Default", then `handle_inactive` meets the inactive row with that title and the new key "13\|10\|100" | append the key to the title's list, as the docstring of `handle_inactive` says and the `.at` version at meta.py:455-473 does | medium: read from pandas' indexing code; not executed | MetaTitles.HandleInactiveAsWritten, MetaTitles.DemoRaises | MetaTitles.HandleInactive, MetaTitles.HandleInactiveCovers |

=== FILE: balanced_sample.dfy ===
/** `get_balanced_sample` of main.py: a hierarchical sample that takes, for
    each classification level in turn and each value of that level, up to
    the level's limit of rows from a pool sorted by priority and date, and
    removes what it takes from the pool.

    The data frame is a sequence of rows and rows are named by their
    position in it. The order left among rows with equal priority and date
    is a parameter: any sequence of all positions sorted by the sort key.
    This includes the stable order pandas gives for a sort on two columns. */
module BalancedSample {
  import Sorting
  import Seqs

  datatype Row = Row(
    system: string,
    creationDate: int,
    clf1: string, clf2: string, clf3: string,
    content: string)

  /** A row of the result: the input row with its added `priority` column. */
  datatype OutRow = OutRow(row: Row, priority: nat)

  /** The classification levels `clf_1`, `clf_2` and `clf_3`. */
  type Level = l: nat | 1 <= l <= 3 witness 1

  function Clf(r: Row, level: Level): string {
    if level == 1 then r.clf1 else if level == 2 then r.clf2 else r.clf3
  }

  /** 0 for the priority system, 1 for every other one. */
  function Priority(r: Row, prioritySystem: string): (p: nat)
    ensures p <= 1 && (p == 0 <==> r.system == prioritySystem)
  {
    if r.system == prioritySystem then 0 else 1
  }

  /** The sort key: priority ascending, then creation date descending. */
  predicate KeyLe(a: Row, b: Row, ps: string) {
    || Priority(a, ps) < Priority(b, ps)
    || (Priority(a, ps) == Priority(b, ps) && a.creationDate >= b.creationDate)
  }

  predicate Distinct(xs: seq<nat>) {
    forall i, j | 0 <= i < j < |xs| :: xs[i] != xs[j]
  }

  /** A pool of row positions, each used once, in sort-key order. */
  ghost predicate PoolOk(df: seq<Row>, pool: seq<nat>, ps: string) {
    && (forall k | 0 <= k < |pool| :: pool[k] < |df|)
    && Distinct(pool)
    && (forall i, j | 0 <= i < j < |pool| :: KeyLe(df[pool[i]], df[pool[j]], ps))
  }

  /** What `sort_values(['priority', 'creation_date'], ascending=[True, False])`
      may return: every position once, in sort-key order. */
  ghost predicate IsSortOrder(df: seq<Row>, order: seq<nat>, ps: string) {
    |order| == |df| && PoolOk(df, order, ps)
  }

  // ---------------------------------------------------------------------------
  // Filtering the pool
  // ---------------------------------------------------------------------------

  /** The row tests the sampler filters the pool with. */
  datatype Criterion =
    | Match(level: Level, value: string, parents: set<string>)
    | In(taken: set<nat>)
    | NotIn(taken: set<nat>)

  /** `Match`: the row has `value` at `level` and, below the top level, a
      parent-level value already in the result. */
  predicate Holds(df: seq<Row>, c: Criterion, x: nat) {
    match c
    case Match(level, v, parents) =>
      x < |df| && Clf(df[x], level) == v && (level == 1 || Clf(df[x], (level - 1) as Level) in parents)
    case In(taken) => x in taken
    case NotIn(taken) => x !in taken
  }

  /** A boolean mask applied to the pool: the positions passing `c`, in
      pool order. */
  function Keep(df: seq<Row>, xs: seq<nat>, c: Criterion): (r: seq<nat>)
    ensures forall x :: x in r <==> x in xs && Holds(df, c, x)
    ensures |r| <= |xs|
  {
    if |xs| == 0 then []
    else
      var rest := Keep(df, xs[1..], c);
      assert forall x :: x in xs <==> x == xs[0] || x in xs[1..];
      if Holds(df, c, xs[0]) then [xs[0]] + rest else rest
  }

  /** Filtering two runs of positions filters each in turn. With the
      membership and length clauses of `Keep` this fixes the result: the
      passing positions, in pool order, repeats kept. */
  lemma {:induction false} KeepConcat(df: seq<Row>, xs: seq<nat>, ys: seq<nat>, c: Criterion)
    ensures Keep(df, xs + ys, c) == Keep(df, xs, c) + Keep(df, ys, c)
    decreases |xs|
  {
    if |xs| == 0 {
      assert xs + ys == ys;
    } else {
      assert (xs + ys)[1..] == xs[1..] + ys;
      KeepConcat(df, xs[1..], ys, c);
    }
  }

  /** Filtering keeps the pool's order... */
  lemma {:induction false} KeepSorted(df: seq<Row>, xs: seq<nat>, c: Criterion, ps: string)
    requires PoolOk(df, xs, ps)
    ensures PoolOk(df, Keep(df, xs, c), ps)
    decreases |xs|
  {
    if |xs| > 0 {
      PoolOkTail(df, xs, ps);
      KeepSorted(df, xs[1..], c, ps);
      if Holds(df, c, xs[0]) {
        HeadBeforeTail(df, xs, ps);
        PoolOkCons(df, xs[0], Keep(df, xs[1..], c), ps);
      }
    }
  }

  lemma {:induction false} PoolOkTail(df: seq<Row>, xs: seq<nat>, ps: string)
    requires |xs| > 0 && PoolOk(df, xs, ps)
    ensures PoolOk(df, xs[1..], ps)
  {
    assert forall k | 0 <= k < |xs| - 1 :: xs[1..][k] == xs[k + 1];
  }

  /** The first position of a pool precedes, and differs from, every other. */
  lemma {:induction false} HeadBeforeTail(df: seq<Row>, xs: seq<nat>, ps: string)
    requires |xs| > 0 && PoolOk(df, xs, ps)
    ensures forall y | y in xs[1..] :: KeyLe(df[xs[0]], df[y], ps) && xs[0] != y
  {
    forall y | y in xs[1..] ensures KeyLe(df[xs[0]], df[y], ps) && xs[0] != y {
      var k :| 0 <= k < |xs[1..]| && xs[1..][k] == y;
      assert y == xs[k + 1];
    }
  }

  lemma {:induction false} PoolOkCons(df: seq<Row>, x: nat, rest: seq<nat>, ps: string)
    requires x < |df| && PoolOk(df, rest, ps)
    requires forall y | y in rest :: KeyLe(df[x], df[y], ps) && x != y
    ensures PoolOk(df, [x] + rest, ps)
  {
    var r := [x] + rest;
    assert forall j | 1 <= j < |r| :: r[j] == rest[j - 1];
    forall j | 1 <= j < |r| ensures KeyLe(df[x], df[r[j]], ps) && x != r[j] {
      assert r[j] in rest;
    }
  }


  /** ... and splits it in two complementary parts. */
  lemma {:induction false} KeepSplits(df: seq<Row>, xs: seq<nat>, s: set<nat>)
    ensures |Keep(df, xs, In(s))| + |Keep(df, xs, NotIn(s))| == |xs|
    decreases |xs|
  {
    if |xs| > 0 {
      KeepSplits(df, xs[1..], s);
    }
  }

  /** `DataFrame.head(n)`: the first `n` rows, or for negative `n` all but the
      last `-n`. */
  function Head<T>(s: seq<T>, n: int): (r: seq<T>)
    ensures |r| <= |s| && r == s[..|r|]
    ensures n >= 0 ==> |r| == if n <= |s| then n else |s|
    ensures n < 0 ==> |r| == if |s| + n >= 0 then |s| + n else 0
  {
    if n >= 0 then (if n <= |s| then s[..n] else s)
    else if |s| + n >= 0 then s[..|s| + n]
    else []
  }

  // ---------------------------------------------------------------------------
  // One (level, value) step
  // ---------------------------------------------------------------------------

  /** A selected row and the level that selected it. */
  datatype Pick = Pick(index: nat, level: Level)

  /** `temp_df` (the pool) and `result_sample` (the picks, before dropping
      duplicates). */
  datatype Sampler = Sampler(pool: seq<nat>, picks: seq<Pick>)

  /** `result_sample[parent_level].unique()`, as a set. */
  function ParentValues(df: seq<Row>, picks: seq<Pick>, level: Level): set<string> {
    var parent: Level := if level == 1 then 1 else (level - 1) as Level;
    set k | 0 <= k < |picks| && picks[k].index < |df| :: Clf(df[picks[k].index], parent)
  }

  /** `current_group`: the pool rows with `v` at `level` whose parent value
      is already in the result. */
  function Group(df: seq<Row>, st: Sampler, level: Level, v: string): seq<nat> {
    Keep(df, st.pool, Match(level, v, ParentValues(df, st.picks, level)))
  }

  function PicksOf(taken: seq<nat>, level: Level): (r: seq<Pick>)
    ensures |r| == |taken|
    ensures forall k | 0 <= k < |r| :: r[k] == Pick(taken[k], level)
  {
    seq(|taken|, k requires 0 <= k < |taken| => Pick(taken[k], level))
  }

  /** One pass of the inner loop: the first `limit` rows of the group, in
      pool order, become picks of this level and leave the pool. */
  function Step(df: seq<Row>, st: Sampler, level: Level, v: string, limit: int): (r: Sampler)
    ensures |st.picks| <= |r.picks| && r.picks[..|st.picks|] == st.picks
    ensures |r.picks| - |st.picks| <= |Group(df, st, level, v)|
    ensures limit >= 0 ==> |r.picks| - |st.picks| == if limit <= |Group(df, st, level, v)| then limit else |Group(df, st, level, v)|
    ensures forall k | |st.picks| <= k < |r.picks| ::
      && r.picks[k] == Pick(Group(df, st, level, v)[k - |st.picks|], level)
      && r.picks[k].index in st.pool
      && r.picks[k].index < |df|
      && Clf(df[r.picks[k].index], level) == v
      && (level > 1 ==> Clf(df[r.picks[k].index], (level - 1) as Level) in ParentValues(df, st.picks, level))
    ensures forall x :: x in r.pool <==>
      x in st.pool && forall k | |st.picks| <= k < |r.picks| :: r.picks[k].index != x
  {
    var group := Group(df, st, level, v);
    var taken := Head(group, limit);
    StepFacts(df, st, level, v, group, taken);
    Sampler(Keep(df, st.pool, NotIn(Sorting.Elems(taken))), st.picks + PicksOf(taken, level))
  }

  /** The head of a group is made of rows of the pool that meet the group's
      criterion. */
  lemma {:induction false} StepFacts(df: seq<Row>, st: Sampler, level: Level, v: string, group: seq<nat>, taken: seq<nat>)
    requires group == Group(df, st, level, v)
    requires |taken| <= |group| && taken == group[..|taken|]
    ensures forall k | 0 <= k < |taken| ::
      && taken[k] == group[k]
      && taken[k] in st.pool
      && Holds(df, Match(level, v, ParentValues(df, st.picks, level)), taken[k])
  {
    forall k | 0 <= k < |taken|
      ensures taken[k] == group[k] && taken[k] in group
    {
      assert taken[k] == group[..|taken|][k];
    }
  }

  /** Rows are taken in pool order: with a sorted pool, every row a step
      takes comes before, in sort-key order, every row of its group that it
      leaves behind. */
  lemma {:induction false} StepTakesFirst(df: seq<Row>, st: Sampler, level: Level, v: string, limit: int, ps: string, t: nat, u: nat)
    requires PoolOk(df, st.pool, ps)
    requires t in Head(Group(df, st, level, v), limit)
    requires u in Group(df, st, level, v) && u !in Head(Group(df, st, level, v), limit)
    ensures t < |df| && u < |df| && KeyLe(df[t], df[u], ps)
  {
    var group := Group(df, st, level, v);
    var taken := Head(group, limit);
    KeepSorted(df, st.pool, Match(level, v, ParentValues(df, st.picks, level)), ps);
    var i :| 0 <= i < |taken| && taken[i] == t;
    var j :| 0 <= j < |group| && group[j] == u;
    assert group[i] == t;
    assert j >= |taken| by {
      assert forall k | 0 <= k < |taken| :: group[k] == taken[k];
    }
  }

  // ---------------------------------------------------------------------------
  // The invariant of the loops
  // ---------------------------------------------------------------------------

  function Indices(picks: seq<Pick>): (r: seq<nat>)
    ensures |r| == |picks| && forall k | 0 <= k < |r| :: r[k] == picks[k].index
  {
    seq(|picks|, k requires 0 <= k < |picks| => picks[k].index)
  }

  /** Pool and picks: positions of `df`, each in exactly one of them once,
      the pool sorted. */
  ghost predicate Inv(df: seq<Row>, st: Sampler, ps: string) {
    && PoolOk(df, st.pool, ps)
    && (forall k | 0 <= k < |st.picks| :: st.picks[k].index < |df|)
    && Distinct(Indices(st.picks))
    && (forall k, k' | 0 <= k < |st.pool| && 0 <= k' < |st.picks| :: st.pool[k] != st.picks[k'].index)
    && |st.pool| + |st.picks| == |df|
  }

  /** The rows a step takes are distinct rows of the pool. */
  lemma {:induction false} TakenFacts(df: seq<Row>, st: Sampler, level: Level, v: string, limit: int, ps: string)
    requires PoolOk(df, st.pool, ps)
    ensures var taken := Head(Group(df, st, level, v), limit);
      && Distinct(taken)
      && (forall x | x in taken :: x in st.pool)
      && |Keep(df, st.pool, In(Sorting.Elems(taken)))| == |taken|
  {
    var c := Match(level, v, ParentValues(df, st.picks, level));
    var group := Group(df, st, level, v);
    var taken := Head(group, limit);
    var s := Sorting.Elems(taken);
    KeepSorted(df, st.pool, c, ps);
    KeepSorted(df, st.pool, In(s), ps);
    assert Distinct(taken) by {
      forall i, j | 0 <= i < j < |taken| ensures taken[i] != taken[j] {
        assert taken[i] == group[i] && taken[j] == group[j];
      }
    }
    forall x | x in taken ensures x in st.pool {
      var i :| 0 <= i < |taken| && taken[i] == x;
      assert group[i] == x;
    }
    var kept := Keep(df, st.pool, In(s));
    assert Sorting.Elems(kept) == s;
    Seqs.DistinctCard(kept);
    Seqs.DistinctCard(taken);
  }

  /** A step keeps the pool a sorted set of unused positions and the count
      of pool and picks. */
  lemma {:induction false} StepPool(df: seq<Row>, st: Sampler, level: Level, v: string, limit: int, ps: string)
    requires PoolOk(df, st.pool, ps) && |st.pool| + |st.picks| == |df|
    ensures var r := Step(df, st, level, v, limit);
      PoolOk(df, r.pool, ps) && |r.pool| + |r.picks| == |df|
  {
    var taken := Head(Group(df, st, level, v), limit);
    TakenFacts(df, st, level, v, limit, ps);
    KeepSorted(df, st.pool, NotIn(Sorting.Elems(taken)), ps);
    KeepSplits(df, st.pool, Sorting.Elems(taken));
  }

  /** Two sequences without repetitions and without common elements
      concatenate to one without repetitions. */
  lemma {:induction false} DistinctAppend(a: seq<nat>, b: seq<nat>)
    requires Distinct(a) && Distinct(b)
    requires forall x | x in b :: x !in a
    ensures Distinct(a + b)
  {
    var c := a + b;
    forall i, j | 0 <= i < j < |c| ensures c[i] != c[j] {
      if i < |a| <= j {
        assert c[i] == a[i] && c[j] == b[j - |a|];
        assert c[j] in b;
      } else if j < |a| {
        assert c[i] == a[i] && c[j] == a[j];
      } else {
        assert c[i] == b[i - |a|] && c[j] == b[j - |a|];
      }
    }
  }

  /** No position is picked twice. */
  lemma {:induction false} StepPicksDistinct(df: seq<Row>, st: Sampler, level: Level, v: string, limit: int, ps: string)
    requires Inv(df, st, ps)
    ensures Distinct(Indices(Step(df, st, level, v, limit).picks))
  {
    var taken := Head(Group(df, st, level, v), limit);
    var r := Step(df, st, level, v, limit);
    TakenFacts(df, st, level, v, limit, ps);
    var before := Indices(st.picks);
    forall x | x in taken ensures x !in before {
      assert x in st.pool;
      var m :| 0 <= m < |st.pool| && st.pool[m] == x;
    }
    DistinctAppend(before, taken);
    assert Indices(r.picks) == before + taken;
  }

  /** No position is both picked and pooled. */
  lemma {:induction false} StepDisjoint(df: seq<Row>, st: Sampler, level: Level, v: string, limit: int, ps: string)
    requires Inv(df, st, ps)
    ensures var r := Step(df, st, level, v, limit);
      && (forall k | 0 <= k < |r.picks| :: r.picks[k].index < |df|)
      && (forall k, k' | 0 <= k < |r.pool| && 0 <= k' < |r.picks| :: r.pool[k] != r.picks[k'].index)
  {
    var taken := Head(Group(df, st, level, v), limit);
    var s := Sorting.Elems(taken);
    var r := Step(df, st, level, v, limit);
    var n := |st.picks|;
    forall k, k' | 0 <= k < |r.pool| && 0 <= k' < |r.picks| ensures r.pool[k] != r.picks[k'].index {
      assert r.pool[k] in st.pool && r.pool[k] !in s;
      if k' >= n {
        assert r.picks[k'].index == taken[k' - n];
      } else {
        assert r.picks[k'] == st.picks[k'];
        var m :| 0 <= m < |st.pool| && st.pool[m] == r.pool[k];
      }
    }
  }

  lemma {:induction false} StepInv(df: seq<Row>, st: Sampler, level: Level, v: string, limit: int, ps: string)
    requires Inv(df, st, ps)
    ensures Inv(df, Step(df, st, level, v, limit), ps)
  {
    StepPool(df, st, level, v, limit, ps);
    StepPicksDistinct(df, st, level, v, limit, ps);
    StepDisjoint(df, st, level, v, limit, ps);
  }

  /** Every pick at a lower level shares its parent-level value with an
      earlier pick: `isin(parent_values)`. */
  ghost predicate ParentsOk(df: seq<Row>, picks: seq<Pick>) {
    forall k | 0 <= k < |picks| && picks[k].level > 1 && picks[k].index < |df| ::
      exists k' | 0 <= k' < k ::
        picks[k'].index < |df|
        && Clf(df[picks[k'].index], (picks[k].level - 1) as Level)
           == Clf(df[picks[k].index], (picks[k].level - 1) as Level)
  }

  /** A row a step takes has its parent-level value in the result so far. */
  lemma {:induction false} TakenHasParent(df: seq<Row>, st: Sampler, level: Level, v: string, limit: int, t: nat)
    requires level > 1
    requires t in Head(Group(df, st, level, v), limit)
    ensures t < |df|
    ensures exists k' | 0 <= k' < |st.picks| ::
      st.picks[k'].index < |df| && Clf(df[st.picks[k'].index], (level - 1) as Level) == Clf(df[t], (level - 1) as Level)
  {
    var group := Group(df, st, level, v);
    var taken := Head(group, limit);
    var parents := ParentValues(df, st.picks, level);
    var i :| 0 <= i < |taken| && taken[i] == t;
    assert group[i] == t;
    assert t in group;
    assert Holds(df, Match(level, v, parents), t);
    var p := (level - 1) as Level;
    assert Clf(df[t], p) in parents;
    var k' :| 0 <= k' < |st.picks| && st.picks[k'].index < |df| && Clf(df[st.picks[k'].index], p) == Clf(df[t], p);
  }

  /** A pick at a lower level has its parent-level value among `picks`. */
  ghost predicate HasParentIn(df: seq<Row>, picks: seq<Pick>, p: Pick) {
    p.level > 1 && p.index < |df| ==>
      exists k' | 0 <= k' < |picks| ::
        picks[k'].index < |df|
        && Clf(df[picks[k'].index], (p.level - 1) as Level) == Clf(df[p.index], (p.level - 1) as Level)
  }

  /** Appending picks whose parents are already present keeps `ParentsOk`. */
  lemma {:induction false} ParentsOkAppend(df: seq<Row>, picks: seq<Pick>, extra: seq<Pick>)
    requires ParentsOk(df, picks)
    requires forall j | 0 <= j < |extra| :: HasParentIn(df, picks, extra[j])
    ensures ParentsOk(df, picks + extra)
  {
    var r := picks + extra;
    forall k | 0 <= k < |r| && r[k].level > 1 && r[k].index < |df|
      ensures exists k' | 0 <= k' < k ::
        r[k'].index < |df|
        && Clf(df[r[k'].index], (r[k].level - 1) as Level) == Clf(df[r[k].index], (r[k].level - 1) as Level)
    {
      var p := (r[k].level - 1) as Level;
      if k < |picks| {
        assert r[k] == picks[k];
        var k' :| 0 <= k' < k && picks[k'].index < |df| && Clf(df[picks[k'].index], p) == Clf(df[picks[k].index], p);
        assert r[k'] == picks[k'];
      } else {
        assert r[k] == extra[k - |picks|];
        assert HasParentIn(df, picks, extra[k - |picks|]);
        var k' :| 0 <= k' < |picks| && picks[k'].index < |df| && Clf(df[picks[k'].index], p) == Clf(df[r[k].index], p);
        assert r[k'] == picks[k'];
      }
    }
  }

  lemma {:induction false} StepParents(df: seq<Row>, st: Sampler, level: Level, v: string, limit: int)
    requires ParentsOk(df, st.picks)
    ensures ParentsOk(df, Step(df, st, level, v, limit).picks)
  {
    var taken := Head(Group(df, st, level, v), limit);
    var extra := PicksOf(taken, level);
    forall j | 0 <= j < |extra| ensures HasParentIn(df, st.picks, extra[j]) {
      assert taken[j] in taken;
      if level > 1 {
        TakenHasParent(df, st, level, v, limit, taken[j]);
      }
    }
    ParentsOkAppend(df, st.picks, extra);
  }

  /** Levels never go down along the result, and only levels with a limit
      occur. */
  ghost predicate LevelsOk(picks: seq<Pick>, limits: map<Level, int>) {
    && (forall k | 0 <= k < |picks| :: picks[k].level in limits)
    && (forall i, j | 0 <= i < j < |picks| :: picks[i].level <= picks[j].level)
  }

  lemma {:induction false} StepLevels(df: seq<Row>, st: Sampler, level: Level, v: string, limits: map<Level, int>)
    requires level in limits && LevelsOk(st.picks, limits)
    requires forall k | 0 <= k < |st.picks| :: st.picks[k].level <= level
    ensures LevelsOk(Step(df, st, level, v, limits[level]).picks, limits)
    ensures forall k | 0 <= k < |Step(df, st, level, v, limits[level]).picks| ::
      Step(df, st, level, v, limits[level]).picks[k].level <= level
  {
  }

  // ---------------------------------------------------------------------------
  // The loops
  // ---------------------------------------------------------------------------

  /** The inner loop over the level's values. */
  function LevelPass(df: seq<Row>, st: Sampler, level: Level, values: seq<string>, limit: int): Sampler
    decreases |values|
  {
    if |values| == 0 then st
    else LevelPass(df, Step(df, st, level, values[0], limit), level, values[1..], limit)
  }

  /** The whole invariant, for one level. */
  ghost predicate AllOk(df: seq<Row>, st: Sampler, ps: string, limits: map<Level, int>) {
    Inv(df, st, ps) && ParentsOk(df, st.picks) && LevelsOk(st.picks, limits)
  }

  lemma {:induction false} LevelPassOk(df: seq<Row>, st: Sampler, level: Level, values: seq<string>,
                                       ps: string, limits: map<Level, int>)
    requires level in limits && AllOk(df, st, ps, limits)
    requires forall k | 0 <= k < |st.picks| :: st.picks[k].level <= level
    ensures var r := LevelPass(df, st, level, values, limits[level]);
      && AllOk(df, r, ps, limits)
      && forall k | 0 <= k < |r.picks| :: r.picks[k].level <= level
    decreases |values|
  {
    if |values| > 0 {
      var mid := Step(df, st, level, values[0], limits[level]);
      StepInv(df, st, level, values[0], limits[level], ps);
      StepParents(df, st, level, values[0], limits[level]);
      StepLevels(df, st, level, values[0], limits);
      LevelPassOk(df, mid, level, values[1..], ps, limits);
    }
  }

    /** The level's column over the pool, in pool order. */
  function Column(df: seq<Row>, pool: seq<nat>, level: Level): (c: seq<string>)
    ensures |c| == |pool|
  {
    seq(|pool|, k requires 0 <= k < |pool| => if pool[k] < |df| then Clf(df[pool[k]], level) else "")
  }

  /** Over a pool of positions of `df`, the column holds exactly the level's
      values of the pooled rows. */
  lemma {:induction false} ColumnValues(df: seq<Row>, pool: seq<nat>, level: Level)
    ensures (forall k | 0 <= k < |pool| :: pool[k] < |df|) ==>
      forall v :: v in Column(df, pool, level) <==> exists k | 0 <= k < |pool| :: Clf(df[pool[k]], level) == v
  {
    var column := Column(df, pool, level);
    if forall k | 0 <= k < |pool| :: pool[k] < |df| {
      forall v ensures v in column <==> exists k | 0 <= k < |pool| :: Clf(df[pool[k]], level) == v {
        if v in column {
          var k :| 0 <= k < |column| && column[k] == v;
          assert Clf(df[pool[k]], level) == v;
        }
        if exists k | 0 <= k < |pool| :: Clf(df[pool[k]], level) == v {
          var k :| 0 <= k < |pool| && Clf(df[pool[k]], level) == v;
          assert column[k] == v;
        }
      }
    }
  }

  /** `df[clf].unique()` over the pool: every value of the level's column
      once, in the order of its first occurrence. */
  function ValuesOf(df: seq<Row>, pool: seq<nat>, level: Level): (r: seq<string>)
    ensures forall i, j | 0 <= i < j < |r| :: r[i] != r[j]
    ensures (forall k | 0 <= k < |pool| :: pool[k] < |df|) ==>
      forall v :: v in r <==> exists k | 0 <= k < |pool| :: Clf(df[pool[k]], level) == v
    ensures forall i, j | 0 <= i < j < |r| ::
      && r[i] in Column(df, pool, level) && r[j] in Column(df, pool, level)
      && Seqs.FirstIndex(Column(df, pool, level), r[i]) < Seqs.FirstIndex(Column(df, pool, level), r[j])
  {
    var column := Column(df, pool, level);
    Seqs.UniqueOrder(column);
    ColumnValues(df, pool, level);
    var u := Seqs.Unique(column);
    assert forall v :: v in u <==> v in Sorting.Elems(u);
    assert forall v :: v in column <==> v in Sorting.Elems(column);
    u
  }

  /** One pass of the outer loop: a level without a limit is skipped. */
  function LevelStep(df: seq<Row>, st: Sampler, level: Level, limits: map<Level, int>): Sampler {
    if level in limits then LevelPass(df, st, level, ValuesOf(df, st.pool, level), limits[level])
    else st
  }

  /** Every pick so far comes from `level` or an earlier one. */
  ghost predicate LevelsAtMost(picks: seq<Pick>, level: Level) {
    forall k | 0 <= k < |picks| :: picks[k].level <= level
  }

  lemma {:induction false} LevelStepOk(df: seq<Row>, st: Sampler, level: Level, ps: string, limits: map<Level, int>)
    requires AllOk(df, st, ps, limits)
    requires LevelsAtMost(st.picks, level)
    ensures AllOk(df, LevelStep(df, st, level, limits), ps, limits)
    ensures LevelsAtMost(LevelStep(df, st, level, limits).picks, level)
  {
    if level in limits {
      LevelPassOk(df, st, level, ValuesOf(df, st.pool, level), ps, limits);
    }
  }

  /** The outer loop, over `clf_1`, `clf_2` and `clf_3` in turn. */
  function AllLevels(df: seq<Row>, st: Sampler, limits: map<Level, int>): Sampler {
    LevelStep(df, LevelStep(df, LevelStep(df, st, 1, limits), 2, limits), 3, limits)
  }

  lemma LevelsAtMostGrows(picks: seq<Pick>, lo: Level, hi: Level)
    requires LevelsAtMost(picks, lo) && lo <= hi
    ensures LevelsAtMost(picks, hi)
  {
  }

  lemma {:induction false} AllLevelsOk(df: seq<Row>, st: Sampler, ps: string, limits: map<Level, int>)
    requires AllOk(df, st, ps, limits) && |st.picks| == 0
    ensures AllOk(df, AllLevels(df, st, limits), ps, limits)
  {
    var s1 := LevelStep(df, st, 1, limits);
    assert AllOk(df, s1, ps, limits) && LevelsAtMost(s1.picks, 2) by {
      LevelStepOk(df, st, 1, ps, limits);
      LevelsAtMostGrows(s1.picks, 1, 2);
    }
    var s2 := LevelStep(df, s1, 2, limits);
    assert AllOk(df, s2, ps, limits) && LevelsAtMost(s2.picks, 3) by {
      LevelStepOk(df, s1, 2, ps, limits);
      LevelsAtMostGrows(s2.picks, 2, 3);
    }
    LevelStepOk(df, s2, 3, ps, limits);
  }

  // ---------------------------------------------------------------------------
  // get_balanced_sample
  // ---------------------------------------------------------------------------

  function Output(df: seq<Row>, picks: seq<Pick>, ps: string): (r: seq<OutRow>)
    requires forall k | 0 <= k < |picks| :: picks[k].index < |df|
    ensures |r| == |picks|
    ensures forall k | 0 <= k < |r| :: r[k] == OutRow(df[picks[k].index], Priority(df[picks[k].index], ps))
  {
    seq(|picks|, k requires 0 <= k < |picks| => OutRow(df[picks[k].index], Priority(df[picks[k].index], ps)))
  }

  /** The picks of the whole run, before duplicates are dropped. */
  function Run(df: seq<Row>, limits: map<Level, int>, ps: string, order: seq<nat>): (r: Sampler)
    requires IsSortOrder(df, order, ps)
    ensures AllOk(df, r, ps, limits)
  {
    var start := Sampler(order, []);
    AllLevelsOk(df, start, ps, limits);
    AllLevels(df, start, limits)
  }

  /** `get_balanced_sample(df, limits, priority_system)`, where `order` is
      the order `sort_values` produced. The result is the picked rows with
      their priority, repeated values dropped (`drop_duplicates`). */
  function BalancedSample(df: seq<Row>, limits: map<Level, int>, ps: string, order: seq<nat>): (r: seq<OutRow>)
    requires IsSortOrder(df, order, ps)
    ensures |r| <= |df|
    ensures forall i, j | 0 <= i < j < |r| :: r[i] != r[j]
    ensures forall o | o in r :: exists i | 0 <= i < |df| :: o == OutRow(df[i], Priority(df[i], ps))
  {
    var st := Run(df, limits, ps, order);
    var out := Output(df, st.picks, ps);
    var r := Seqs.Unique(out);
    assert forall o | o in r :: o in Sorting.Elems(out);
    r
  }

  /** Every picked row is in the output, and when no two input rows are
      equal, `drop_duplicates` removes nothing: the output has one row per
      pick. */
  lemma {:induction false} OutputIsPickedRows(df: seq<Row>, limits: map<Level, int>, ps: string, order: seq<nat>)
    requires IsSortOrder(df, order, ps)
    ensures var st := Run(df, limits, ps, order);
      forall k | 0 <= k < |st.picks| ::
        OutRow(df[st.picks[k].index], Priority(df[st.picks[k].index], ps)) in BalancedSample(df, limits, ps, order)
    ensures (forall i, j | 0 <= i < j < |df| :: df[i] != df[j]) ==>
      |BalancedSample(df, limits, ps, order)| == |Run(df, limits, ps, order).picks|
  {
    var st := Run(df, limits, ps, order);
    var out := Output(df, st.picks, ps);
    var r := BalancedSample(df, limits, ps, order);
    assert r == Seqs.Unique(out);
    forall k | 0 <= k < |st.picks|
      ensures OutRow(df[st.picks[k].index], Priority(df[st.picks[k].index], ps)) in r
    {
      assert out[k] in Sorting.Elems(out);
      assert out[k] in Sorting.Elems(r);
    }
    if forall i, j | 0 <= i < j < |df| :: df[i] != df[j] {
      var ix := Indices(st.picks);
      assert Distinct(ix);
      forall i, j | 0 <= i < j < |out| ensures out[i] != out[j] {
        assert ix[i] != ix[j];
        // The hypothesis orders the two positions; take them either way.
        if ix[i] > ix[j] {
          assert df[ix[j]] != df[ix[i]];
        }
      }
      Seqs.DistinctCard(out);
      Seqs.DistinctCard(r);
    }
  }

  /** Without limits the sample is empty. */
  lemma {:induction false} NoLimitsEmpty(df: seq<Row>, ps: string, order: seq<nat>)
    requires IsSortOrder(df, order, ps)
    ensures BalancedSample(df, map[], ps, order) == []
  {
  }
}

=== FILE: batch_pipeline.dfy ===
/** The sequential part of the batch pipeline of b.py: slicing the rows into
    batches, the stream the dispatcher puts on the queue (the batches, then
    one stop marker per worker), the per-batch processing, and the worker
    loop that stops at its first marker. The interleaving of the workers is
    a schedule: the k-th pull from the FIFO queue is made by worker
    `sched[k]`. */
module BatchPipeline {
  import opened Wrappers

  /** One row of the frame: column name to value. */
  type Row = map<string, string>

  /** A queue entry: a batch of rows, or the `None` that stops one worker. */
  datatype Item = Batch(rows: seq<Row>) | Stop

  function Flatten<T>(xss: seq<seq<T>>): seq<T> {
    if |xss| == 0 then [] else xss[0] + Flatten(xss[1..])
  }

  lemma {:induction false} FlattenAppend<T>(xss: seq<seq<T>>, yss: seq<seq<T>>)
    ensures Flatten(xss + yss) == Flatten(xss) + Flatten(yss)
    decreases |xss|
  {
    if |xss| > 0 {
      assert (xss + yss)[1..] == xss[1..] + yss;
      FlattenAppend(xss[1..], yss);
    } else {
      assert xss + yss == yss;
    }
  }

  // ---------------------------------------------------------------------
  // Slicing

  /** The batches `rows[i:i + b]` for `i` in `range(0, len(rows), b)`: there
      are ceil(|rows| / b) of them, all full except perhaps the last. */
  function Slices<T>(rows: seq<T>, b: nat): (bs: seq<seq<T>>)
    requires b > 0
    ensures (|bs| - 1) * b < |rows| <= |bs| * b
    ensures Flatten(bs) == rows
    ensures forall k | 0 <= k < |bs| :: 1 <= |bs[k]| <= b
    ensures forall k | 0 <= k < |bs| - 1 :: |bs[k]| == b
    decreases |rows|
  {
    if |rows| == 0 then []
    else if |rows| <= b then
      assert Flatten([rows]) == rows + Flatten([rows][1..]);
      [rows]
    else
      var rest := Slices(rows[b..], b);
      var bs := [rows[..b]] + rest;
      assert (|rest| + 1) * b == |rest| * b + b;
      assert |rest| * b == (|rest| - 1) * b + b;
      assert bs[1..] == rest;
      assert rows == rows[..b] + rows[b..];
      bs
  }

  // ---------------------------------------------------------------------
  // The stream put on the queue

  /** `range(n)` for a worker count: a negative count puts no marker. */
  function Stops(n: int): (s: seq<Item>)
    ensures |s| == if n < 0 then 0 else n
    ensures forall k | 0 <= k < |s| :: s[k] == Stop
  {
    if n <= 0 then [] else Stops(n - 1) + [Stop]
  }

  function AsItems(bs: seq<seq<Row>>): (s: seq<Item>)
    ensures |s| == |bs|
    ensures forall k | 0 <= k < |s| :: s[k] == Batch(bs[k])
  {
    if |bs| == 0 then [] else [Batch(bs[0])] + AsItems(bs[1..])
  }

  /** What `batch_generator` puts on the queue. A zero batch size makes
      `range` raise before anything is put; a negative one gives an empty
      range, so only the markers are put. */
  function Stream(rows: seq<Row>, b: int, workers: int): (r: Result<seq<Item>, string>)
    ensures r.Failure? <==> b == 0
    ensures r.Failure? ==> r.error == "range() arg 3 must not be zero"
    ensures b < 0 ==> r == Success(Stops(workers))
    ensures b > 0 ==>
              && r.Success?
              && |r.value| == |Slices(rows, b)| + (if workers < 0 then 0 else workers)
              && (forall k | 0 <= k < |Slices(rows, b)| :: r.value[k] == Batch(Slices(rows, b)[k]))
              && (forall k | |Slices(rows, b)| <= k < |r.value| :: r.value[k] == Stop)
  {
    if b == 0 then Failure("range() arg 3 must not be zero")
    else if b < 0 then Success(Stops(workers))
    else Success(AsItems(Slices(rows, b)) + Stops(workers))
  }

  /** The number of rows carried by the batches of a stream. */
  function ItemCount(s: seq<Item>): nat {
    if |s| == 0 then 0
    else (if s[0].Batch? then |s[0].rows| else 0) + ItemCount(s[1..])
  }

  lemma {:induction false} ItemCountAppend(s: seq<Item>, t: seq<Item>)
    ensures ItemCount(s + t) == ItemCount(s) + ItemCount(t)
    decreases |s|
  {
    if |s| > 0 {
      assert (s + t)[1..] == s[1..] + t;
      ItemCountAppend(s[1..], t);
    } else {
      assert s + t == t;
    }
  }

  lemma {:induction false} ItemCountOfBatches(bs: seq<seq<Row>>)
    ensures ItemCount(AsItems(bs)) == |Flatten(bs)|
    decreases |bs|
  {
    if |bs| > 0 {
      assert AsItems(bs)[1..] == AsItems(bs[1..]);
      ItemCountOfBatches(bs[1..]);
    }
  }

  lemma {:induction false} ItemCountOfStops(n: int)
    ensures ItemCount(Stops(n)) == 0
    decreases if n < 0 then 0 else n
  {
    if n > 0 {
      ItemCountAppend(Stops(n - 1), [Stop]);
      ItemCountOfStops(n - 1);
    }
  }

  /** How many times `x` occurs in `s`. */
  function Occurrences(s: seq<Item>, x: Item): nat {
    if |s| == 0 then 0 else (if s[0] == x then 1 else 0) + Occurrences(s[1..], x)
  }

  lemma {:induction false} OccurrencesAppend(s: seq<Item>, t: seq<Item>, x: Item)
    ensures Occurrences(s + t, x) == Occurrences(s, x) + Occurrences(t, x)
    decreases |s|
  {
    if |s| > 0 {
      assert (s + t)[1..] == s[1..] + t;
      OccurrencesAppend(s[1..], t, x);
    } else {
      assert s + t == t;
    }
  }

  lemma {:induction false} MarkersOfStops(n: int)
    ensures Occurrences(Stops(n), Stop) == if n < 0 then 0 else n
    decreases if n < 0 then 0 else n
  {
    if n > 0 {
      OccurrencesAppend(Stops(n - 1), [Stop], Stop);
      MarkersOfStops(n - 1);
    }
  }

  lemma {:induction false} MarkersOfBatches(bs: seq<seq<Row>>)
    ensures Occurrences(AsItems(bs), Stop) == 0
    decreases |bs|
  {
    if |bs| > 0 {
      assert AsItems(bs)[1..] == AsItems(bs[1..]);
      MarkersOfBatches(bs[1..]);
    }
  }

  /** The batches of the stream carry every row exactly once, and exactly
      one marker per worker follows them. */
  lemma {:induction false} StreamCoversRows(rows: seq<Row>, b: int, workers: int)
    requires b > 0
    ensures ItemCount(Stream(rows, b, workers).value) == |rows|
    ensures Occurrences(Stream(rows, b, workers).value, Stop) == if workers < 0 then 0 else workers
  {
    var bs := Slices(rows, b);
    ItemCountAppend(AsItems(bs), Stops(workers));
    ItemCountOfBatches(bs);
    ItemCountOfStops(workers);
    OccurrencesAppend(AsItems(bs), Stops(workers), Stop);
    MarkersOfBatches(bs);
    MarkersOfStops(workers);
  }

  // ---------------------------------------------------------------------
  // Processing one batch

  /** `row.get("text", "")`. */
  function Prompt(row: Row): string {
    if "text" in row then row["text"] else ""
  }

  /** One call of the client per row, in row order, against this worker's
      endpoint. */
  function ProcessBatch<R>(batch: seq<Row>, url: string, call: (string, string) -> R): (r: seq<R>)
    ensures |r| == |batch|
    ensures forall i | 0 <= i < |batch| :: r[i] == call(Prompt(batch[i]), url)
  {
    if |batch| == 0 then [] else [call(Prompt(batch[0]), url)] + ProcessBatch(batch[1..], url, call)
  }

  /** Processing is batch-independent: a batch split in two gives the two
      result lists one after the other. */
  lemma {:induction false} ProcessBatchAppend<R>(a: seq<Row>, b: seq<Row>, url: string, call: (string, string) -> R)
    ensures ProcessBatch(a + b, url, call) == ProcessBatch(a, url, call) + ProcessBatch(b, url, call)
  {
    var lhs := ProcessBatch(a + b, url, call);
    var rhs := ProcessBatch(a, url, call) + ProcessBatch(b, url, call);
    assert |lhs| == |rhs|;
    forall i | 0 <= i < |lhs| ensures lhs[i] == rhs[i] {
      if i < |a| {
        assert (a + b)[i] == a[i];
      } else {
        assert (a + b)[i] == b[i - |a|];
      }
    }
  }

  /** `process_batch_and_add_result` with a client that may raise (an HTTP
      error, a timeout): the first failing call ends the batch, and its
      exception is what escapes. */
  function ProcessBatchChecked<R, E>(batch: seq<Row>, url: string, call: (string, string) -> Result<R, E>): (r: Result<seq<R>, E>)
    ensures r.Success? <==> forall i | 0 <= i < |batch| :: call(Prompt(batch[i]), url).Success?
    ensures r.Success? ==>
      && |r.value| == |batch|
      && forall i | 0 <= i < |batch| :: r.value[i] == call(Prompt(batch[i]), url).value
    ensures r.Failure? ==> exists i | 0 <= i < |batch| ::
      && call(Prompt(batch[i]), url) == Failure(r.error)
      && forall j | 0 <= j < i :: call(Prompt(batch[j]), url).Success?
  {
    if |batch| == 0 then Success([])
    else
      var first :- call(Prompt(batch[0]), url);
      var rest :- ProcessBatchChecked(batch[1..], url, call);
      assert forall i | 1 <= i < |batch| :: batch[i] == batch[1..][i - 1];
      Success([first] + rest)
  }

  /** A client that always answers. */
  function Infallible<R, E>(f: (string, string) -> R): (string, string) -> Result<R, E> {
    (p: string, u: string) => Success(f(p, u))
  }

  /** A client that never raises makes the checked processing the plain one. */
  lemma {:induction false} ProcessBatchCheckedTotal<R, E>(batch: seq<Row>, url: string, f: (string, string) -> R)
    ensures ProcessBatchChecked(batch, url, Infallible<R, E>(f))
         == Success(ProcessBatch(batch, url, f))
  {
    var call := Infallible<R, E>(f);
    var r := ProcessBatchChecked(batch, url, call);
    assert r.Success?;
    assert r.value == ProcessBatch(batch, url, f);
  }

  // ---------------------------------------------------------------------
  // The worker loop

  /** What a worker did with the entries it pulled: one result list per
      batch, whether it met its marker, and how many entries it took. */
  datatype Outcome<R> = Outcome(results: seq<seq<R>>, stopped: bool, pulls: nat)

  /** `worker`: pull, stop at a marker, otherwise process and emit. Without
      a marker the worker is still waiting when the entries run out. */
  function WorkerRun<R>(pulled: seq<Item>, url: string, call: (string, string) -> R): (o: Outcome<R>)
    ensures o.pulls <= |pulled|
    ensures o.stopped <==> Stop in pulled
    ensures o.stopped ==> 0 < o.pulls && pulled[o.pulls - 1] == Stop && Stop !in pulled[..o.pulls - 1]
    ensures !o.stopped ==> o.pulls == |pulled|
    ensures |o.results| == if o.stopped then o.pulls - 1 else o.pulls
  {
    if |pulled| == 0 then Outcome([], false, 0)
    else
      match pulled[0]
      case Stop => Outcome([], true, 1)
      case Batch(rows) =>
        var o := WorkerRun(pulled[1..], url, call);
        assert pulled == [pulled[0]] + pulled[1..];
        assert o.stopped ==> pulled[..o.pulls + 1] == [pulled[0]] + pulled[1..][..o.pulls];
        Outcome([ProcessBatch(rows, url, call)] + o.results, o.stopped, o.pulls + 1)
  }

  /** What a worker did when its client may raise: as `Outcome`, and the
      exception that ended it, if one did. */
  datatype Checked<R, E> = Checked(results: seq<seq<R>>, stopped: bool, pulls: nat, raised: Option<E>)

  /** `worker` with a client that may raise. An exception escapes the loop:
      the worker ends without taking its marker, and the batch it was
      processing emits nothing. */
  function WorkerRunChecked<R, E>(pulled: seq<Item>, url: string, call: (string, string) -> Result<R, E>): (o: Checked<R, E>)
    ensures o.pulls <= |pulled|
    ensures o.raised.Some? ==>
      && !o.stopped && 0 < o.pulls && |o.results| == o.pulls - 1
      && Stop !in pulled[..o.pulls]
      && pulled[o.pulls - 1].Batch?
      && ProcessBatchChecked(pulled[o.pulls - 1].rows, url, call) == Failure(o.raised.value)
    ensures o.raised.None? ==> (o.stopped <==> Stop in pulled)
    ensures o.raised.None? && !o.stopped ==> o.pulls == |pulled|
  {
    if |pulled| == 0 then Checked([], false, 0, None)
    else
      match pulled[0]
      case Stop => Checked([], true, 1, None)
      case Batch(rows) =>
        match ProcessBatchChecked(rows, url, call)
        case Failure(e) =>
          assert pulled[..1] == [pulled[0]];
          Checked([], false, 1, Some(e))
        case Success(res) =>
          var o := WorkerRunChecked(pulled[1..], url, call);
          assert pulled == [pulled[0]] + pulled[1..];
          assert pulled[..o.pulls + 1] == [pulled[0]] + pulled[1..][..o.pulls];
          Checked([res] + o.results, o.stopped, o.pulls + 1, o.raised)
  }

  /** A client that never raises makes the checked worker the plain one. */
  lemma {:induction false} WorkerRunCheckedTotal<R, E>(pulled: seq<Item>, url: string, f: (string, string) -> R)
    ensures var o := WorkerRun(pulled, url, f);
      WorkerRunChecked(pulled, url, Infallible<R, E>(f))
        == Checked(o.results, o.stopped, o.pulls, None)
    decreases |pulled|
  {
    if |pulled| > 0 && pulled[0].Batch? {
      ProcessBatchCheckedTotal<R, E>(pulled[0].rows, url, f);
      WorkerRunCheckedTotal<R, E>(pulled[1..], url, f);
    }
  }

  /** The `k`-th result list a worker emits is the processed `k`-th batch it
      pulled. */
  lemma {:induction false} WorkerEmitsPerBatch<R>(pulled: seq<Item>, url: string, call: (string, string) -> R)
    ensures var o := WorkerRun(pulled, url, call);
      forall k | 0 <= k < |o.results| ::
        pulled[k].Batch? && o.results[k] == ProcessBatch(pulled[k].rows, url, call)
    decreases |pulled|
  {
    if |pulled| > 0 && pulled[0].Batch? {
      var tail := pulled[1..];
      WorkerEmitsPerBatch(tail, url, call);
      var o, o' := WorkerRun(pulled, url, call), WorkerRun(tail, url, call);
      assert o.results == [ProcessBatch(pulled[0].rows, url, call)] + o'.results;
      forall k | 1 <= k < |o.results|
        ensures pulled[k].Batch? && o.results[k] == ProcessBatch(pulled[k].rows, url, call)
      {
        assert pulled[k] == tail[k - 1] && o.results[k] == o'.results[k - 1];
      }
    }
  }

  /** A worker pulls nothing after its marker: a stop can only be the last
      entry it pulled. */
  ghost predicate StopOnlyLast(pulled: seq<Item>) {
    forall k | 0 <= k < |pulled| - 1 :: pulled[k].Batch?
  }

  /** Such a worker holds at most one marker. */
  lemma {:induction false} AtMostOneStop(pulled: seq<Item>)
    requires StopOnlyLast(pulled)
    ensures Occurrences(pulled, Stop) <= 1
    decreases |pulled|
  {
    if |pulled| > 1 {
      var tail := pulled[1..];
      assert StopOnlyLast(tail) by {
        assert forall k | 0 <= k < |tail| - 1 :: tail[k] == pulled[k + 1];
      }
      AtMostOneStop(tail);
    }
  }

  /** A worker that met its marker emitted a result for every row it was
      handed. */
  lemma {:induction false} WorkerResultCount<R>(pulled: seq<Item>, url: string, call: (string, string) -> R)
    requires StopOnlyLast(pulled)
    ensures ResultRows(pulled, url, call) == ItemCount(pulled)
    decreases |pulled|
  {
    if |pulled| > 0 && pulled[0].Batch? {
      var tail := pulled[1..];
      assert StopOnlyLast(tail) by {
        assert forall k | 0 <= k < |tail| - 1 :: tail[k] == pulled[k + 1];
      }
      WorkerResultCount(tail, url, call);
      var o := WorkerRun(pulled, url, call);
      assert o.results[1..] == WorkerRun(tail, url, call).results;
    }
  }

  // ---------------------------------------------------------------------
  // Sharing the queue among the workers

  /** The entries worker `w` pulled, in the order it pulled them. */
  function PulledBy(stream: seq<Item>, sched: seq<nat>, w: nat): (p: seq<Item>)
    requires |sched| == |stream|
    ensures |p| <= |stream|
  {
    if |stream| == 0 then []
    else (if sched[0] == w then [stream[0]] else []) + PulledBy(stream[1..], sched[1..], w)
  }

  /** A complete run: every entry is pulled by one of the `n` workers (one
      per endpoint) and no worker pulls after its marker. */
  ghost predicate ValidSchedule(stream: seq<Item>, sched: seq<nat>, n: nat) {
    && |sched| == |stream|
    && (forall k | 0 <= k < |sched| :: sched[k] < n)
    && (forall w | 0 <= w < n :: StopOnlyLast(PulledBy(stream, sched, w)))
  }

  /** How often `x` occurs among the entries of the first `m` workers. */
  function Pooled(stream: seq<Item>, sched: seq<nat>, m: nat, x: Item): nat
    requires |sched| == |stream|
  {
    if m == 0 then 0 else Pooled(stream, sched, m - 1, x) + Occurrences(PulledBy(stream, sched, m - 1), x)
  }

  /** Rows handled by the first `m` workers. */
  function PooledItems(stream: seq<Item>, sched: seq<nat>, m: nat): nat
    requires |sched| == |stream|
  {
    if m == 0 then 0 else PooledItems(stream, sched, m - 1) + ItemCount(PulledBy(stream, sched, m - 1))
  }

  /** The results a worker emitted, counted row by row. */
  function ResultRows<R>(pulled: seq<Item>, url: string, call: (string, string) -> R): nat {
    |Flatten(WorkerRun(pulled, url, call).results)|
  }

  /** Results emitted by the first `m` workers. */
  function Emitted<R>(stream: seq<Item>, sched: seq<nat>, urls: seq<string>, call: (string, string) -> R, m: nat): nat
    requires |sched| == |stream| && m <= |urls|
  {
    if m == 0 then 0
    else Emitted(stream, sched, urls, call, m - 1) + ResultRows(PulledBy(stream, sched, m - 1), urls[m - 1], call)
  }

  lemma {:induction false} PooledCons(stream: seq<Item>, sched: seq<nat>, m: nat, x: Item)
    requires |sched| == |stream| > 0
    ensures Pooled(stream, sched, m, x)
      == (if sched[0] < m && stream[0] == x then 1 else 0) + Pooled(stream[1..], sched[1..], m, x)
    decreases m
  {
    if m > 0 {
      PooledCons(stream, sched, m - 1, x);
      var head := if sched[0] == m - 1 then [stream[0]] else [];
      OccurrencesAppend(head, PulledBy(stream[1..], sched[1..], m - 1), x);
    }
  }

  lemma {:induction false} PooledItemsCons(stream: seq<Item>, sched: seq<nat>, m: nat)
    requires |sched| == |stream| > 0
    ensures PooledItems(stream, sched, m)
      == (if sched[0] < m then ItemCount([stream[0]]) else 0) + PooledItems(stream[1..], sched[1..], m)
    decreases m
  {
    if m > 0 {
      PooledItemsCons(stream, sched, m - 1);
      var head := if sched[0] == m - 1 then [stream[0]] else [];
      ItemCountAppend(head, PulledBy(stream[1..], sched[1..], m - 1));
    }
  }

  lemma {:induction false} PooledOfEmpty(stream: seq<Item>, sched: seq<nat>, m: nat, x: Item)
    requires |sched| == |stream| == 0
    ensures Pooled(stream, sched, m, x) == 0
    ensures PooledItems(stream, sched, m) == 0
    decreases m
  {
    if m > 0 {
      PooledOfEmpty(stream, sched, m - 1, x);
    }
  }

  /** Each entry goes to exactly one worker: counted over all the workers,
      every entry occurs as often as it does in the stream. */
  lemma {:induction false} WorkersPartitionStream(stream: seq<Item>, sched: seq<nat>, n: nat, x: Item)
    requires |sched| == |stream|
    requires forall k | 0 <= k < |sched| :: sched[k] < n
    ensures Pooled(stream, sched, n, x) == Occurrences(stream, x)
    decreases |stream|
  {
    if |stream| > 0 {
      PooledCons(stream, sched, n, x);
      assert sched[0] < n;
      assert forall k | 0 <= k < |sched| - 1 :: sched[1..][k] == sched[k + 1];
      WorkersPartitionStream(stream[1..], sched[1..], n, x);
    } else {
      PooledOfEmpty(stream, sched, n, x);
    }
  }

  /** So together they handled every row of the stream. */
  lemma {:induction false} WorkersCoverItems(stream: seq<Item>, sched: seq<nat>, n: nat)
    requires |sched| == |stream|
    requires forall k | 0 <= k < |sched| :: sched[k] < n
    ensures PooledItems(stream, sched, n) == ItemCount(stream)
    decreases |stream|
  {
    if |stream| > 0 {
      PooledItemsCons(stream, sched, n);
      assert sched[0] < n;
      assert forall k | 0 <= k < |sched| - 1 :: sched[1..][k] == sched[k + 1];
      WorkersCoverItems(stream[1..], sched[1..], n);
      assert ItemCount(stream) == ItemCount([stream[0]]) + ItemCount(stream[1..]) by {
        assert stream == [stream[0]] + stream[1..];
        ItemCountAppend([stream[0]], stream[1..]);
      }
    } else {
      PooledOfEmpty(stream, sched, n, Stop);
    }
  }

  /** With at most one marker each, `m` workers hold at most `m` markers,
      and one fewer if worker `w` holds none. */
  lemma {:induction false} MarkersBound(stream: seq<Item>, sched: seq<nat>, m: nat, w: nat)
    requires |sched| == |stream|
    requires forall v | 0 <= v < m :: Occurrences(PulledBy(stream, sched, v), Stop) <= 1
    requires w < m
    ensures Pooled(stream, sched, m, Stop)
      + (if Occurrences(PulledBy(stream, sched, w), Stop) == 0 then 1 else 0) <= m
    decreases m
  {
    if w < m - 1 {
      MarkersBound(stream, sched, m - 1, w);
    } else {
      MarkersAtMost(stream, sched, m - 1);
    }
  }

  lemma {:induction false} MarkersAtMost(stream: seq<Item>, sched: seq<nat>, m: nat)
    requires |sched| == |stream|
    requires forall v | 0 <= v < m :: Occurrences(PulledBy(stream, sched, v), Stop) <= 1
    ensures Pooled(stream, sched, m, Stop) <= m
    decreases m
  {
    if m > 0 {
      MarkersAtMost(stream, sched, m - 1);
    }
  }

  lemma {:induction false} EmittedIsPooledItems<R>(stream: seq<Item>, sched: seq<nat>, urls: seq<string>,
                                                   call: (string, string) -> R, m: nat)
    requires |sched| == |stream|
    requires m <= |urls|
    requires forall v | 0 <= v < m :: StopOnlyLast(PulledBy(stream, sched, v))
    ensures Emitted(stream, sched, urls, call, m) == PooledItems(stream, sched, m)
    decreases m
  {
    if m > 0 {
      EmittedIsPooledItems(stream, sched, urls, call, m - 1);
      EmittedStep(stream, sched, urls, call, m);
    }
  }

  /** The `m`-th worker adds as many results as it was handed rows, so the
      count of results keeps up with the count of rows. */
  lemma {:induction false} EmittedStep<R>(stream: seq<Item>, sched: seq<nat>, urls: seq<string>,
                                          call: (string, string) -> R, m: nat)
    requires |sched| == |stream|
    requires 0 < m <= |urls|
    requires forall v | 0 <= v < m :: StopOnlyLast(PulledBy(stream, sched, v))
    requires Emitted(stream, sched, urls, call, m - 1) == PooledItems(stream, sched, m - 1)
    ensures Emitted(stream, sched, urls, call, m) == PooledItems(stream, sched, m)
  {
    WorkerResultCount(PulledBy(stream, sched, m - 1), urls[m - 1], call);
  }

  /** The protocol of `process_dataframe_async_streaming` with one worker per
      endpoint, under any complete interleaving of their pulls: every worker
      pulls exactly one marker and stops at it, having taken every entry it
      was handed; each entry goes to exactly one worker; and the result
      lists emitted total one result per input row. */
  lemma {:induction false} ProtocolDelivers<R>(rows: seq<Row>, b: int, urls: seq<string>,
                                               call: (string, string) -> R, sched: seq<nat>)
    requires b > 0
    requires ValidSchedule(Stream(rows, b, |urls|).value, sched, |urls|)
    ensures forall w | 0 <= w < |urls| ::
      Occurrences(PulledBy(Stream(rows, b, |urls|).value, sched, w), Stop) == 1
    ensures forall w | 0 <= w < |urls| ::
      var o := WorkerRun(PulledBy(Stream(rows, b, |urls|).value, sched, w), urls[w], call);
      o.stopped && o.pulls == |PulledBy(Stream(rows, b, |urls|).value, sched, w)|
    ensures forall x :: Pooled(Stream(rows, b, |urls|).value, sched, |urls|, x)
                        == Occurrences(Stream(rows, b, |urls|).value, x)
    ensures Emitted(Stream(rows, b, |urls|).value, sched, urls, call, |urls|) == |rows|
  {
    var stream := Stream(rows, b, |urls|).value;
    var n := |urls|;
    forall x ensures Pooled(stream, sched, n, x) == Occurrences(stream, x) {
      WorkersPartitionStream(stream, sched, n, x);
    }
    assert Emitted(stream, sched, urls, call, n) == |rows| by {
      WorkersCoverItems(stream, sched, n);
      StreamCoversRows(rows, b, n);
      EmittedIsPooledItems(stream, sched, urls, call, n);
    }
    forall v | 0 <= v < n
      ensures Occurrences(PulledBy(stream, sched, v), Stop) <= 1
    {
      AtMostOneStop(PulledBy(stream, sched, v));
    }
    assert Pooled(stream, sched, n, Stop) == n by {
      StreamCoversRows(rows, b, n);
    }
    forall w | 0 <= w < n
      ensures Occurrences(PulledBy(stream, sched, w), Stop) == 1
    {
      MarkersBound(stream, sched, n, w);
    }
    forall w | 0 <= w < n
      ensures WorkerRun(PulledBy(stream, sched, w), urls[w], call).stopped
      ensures WorkerRun(PulledBy(stream, sched, w), urls[w], call).pulls == |PulledBy(stream, sched, w)|
    {
      var p := PulledBy(stream, sched, w);
      MarkerIsIn(p);
      var o := WorkerRun(p, urls[w], call);
      assert p[o.pulls - 1] == Stop;
    }
  }

  lemma {:induction false} MarkerIsIn(s: seq<Item>)
    requires Occurrences(s, Stop) > 0
    ensures Stop in s
    decreases |s|
  {
    if s[0] != Stop {
      MarkerIsIn(s[1..]);
    }
  }

  // ---------------------------------------------------------------------
  // Such runs exist, unless there is no worker

  lemma {:induction false} PulledByAppend(s1: seq<Item>, t1: seq<nat>, s2: seq<Item>, t2: seq<nat>, w: nat)
    requires |t1| == |s1| && |t2| == |s2|
    ensures PulledBy(s1 + s2, t1 + t2, w) == PulledBy(s1, t1, w) + PulledBy(s2, t2, w)
    decreases |s1|
  {
    if |s1| > 0 {
      assert (s1 + s2)[1..] == s1[1..] + s2;
      assert (t1 + t2)[1..] == t1[1..] + t2;
      PulledByAppend(s1[1..], t1[1..], s2, t2, w);
    } else {
      assert s1 + s2 == s2 && t1 + t2 == t2;
    }
  }

  /** The schedule in which worker 0 takes every batch and then each worker
      takes one marker in turn. */
  function FirstTakesAll(batches: nat, n: nat): (sched: seq<nat>)
    ensures |sched| == batches + n
  {
    seq(batches, _ => 0) + seq(n, w => w)
  }

  lemma {:induction false} PulledFromZeros(s: seq<Item>, w: nat)
    ensures PulledBy(s, seq(|s|, _ => 0), w) == if w == 0 then s else []
    decreases |s|
  {
    if |s| > 0 {
      assert seq(|s|, _ => 0)[1..] == seq(|s| - 1, _ => 0);
      PulledFromZeros(s[1..], w);
    }
  }

  lemma {:induction false} PulledFromTurns(n: nat, w: nat)
    ensures PulledBy(Stops(n), seq(n, v => v), w) == if w < n then [Stop] else []
    decreases n
  {
    if n > 0 {
      assert seq(n, v => v) == seq(n - 1, v => v) + [n - 1];
      PulledByAppend(Stops(n - 1), seq(n - 1, v => v), [Stop], [n - 1], w);
      PulledFromTurns(n - 1, w);
    }
  }

  /** With at least one worker the protocol can run to completion. */
  lemma {:induction false} SomeRunCompletes(rows: seq<Row>, b: int, n: nat)
    requires b > 0 && n > 0
    ensures ValidSchedule(Stream(rows, b, n).value, FirstTakesAll(|Slices(rows, b)|, n), n)
  {
    var bs := AsItems(Slices(rows, b));
    var stream := Stream(rows, b, n).value;
    var sched := FirstTakesAll(|bs|, n);
    assert stream == bs + Stops(n);
    forall w | 0 <= w < n ensures StopOnlyLast(PulledBy(stream, sched, w)) {
      PulledByAppend(bs, seq(|bs|, _ => 0), Stops(n), seq(n, v => v), w);
      PulledFromZeros(bs, w);
      PulledFromTurns(n, w);
    }
  }

  /** With no endpoint there is no worker, so no batch is ever pulled: the
      dispatcher has nobody to hand its batches to. */
  lemma {:induction false} NoWorkerNoRun(rows: seq<Row>, b: int, sched: seq<nat>)
    requires b > 0 && |rows| > 0
    ensures !ValidSchedule(Stream(rows, b, 0).value, sched, 0)
  {
    var stream := Stream(rows, b, 0).value;
    if |sched| == |stream| {
      assert sched[0] >= 0;
    }
  }
}

=== FILE: chinese_detect.dfy ===
/** The CJK detector of c.py (`has_chinese_characters`): a regular
    expression search for one character in six code-point ranges, cross-
    checked against the script classifier of log.py. */
module ChineseDetect {
  import opened ScriptLabels
  import TokenFilter

  /** The character class of the search: CJK Unified Ideographs and the
      extensions A to E. */
  predicate InChineseRanges(code: int) {
    || Within(code, 0x4E00, 0x9FFF)
    || Within(code, 0x3400, 0x4DBF)
    || Within(code, 0x20000, 0x2A6DF)
    || Within(code, 0x2A700, 0x2B73F)
    || Within(code, 0x2B740, 0x2B81F)
    || Within(code, 0x2B820, 0x2CEAF)
  }

  /** `bool(pattern.search(text))`: the scan stops at the first match. */
  function HasChinese(text: string): (b: bool)
    ensures b <==> exists i | 0 <= i < |text| :: InChineseRanges(text[i] as int)
  {
    if |text| == 0 then false
    else if InChineseRanges(text[0] as int) then true
    else
      var rest := HasChinese(text[1..]);
      assert forall i | 1 <= i < |text| :: text[i] == text[1..][i - 1];
      assert rest ==> exists i | 1 <= i < |text| :: InChineseRanges(text[i] as int) by {
        if rest {
          var j :| 0 <= j < |text[1..]| && InChineseRanges(text[1..][j] as int);
          assert text[j + 1] == text[1..][j];
        }
      }
      rest
  }

  /** A search over a concatenation finds a match exactly when it finds one
      in either part. */
  lemma {:induction false} HasChineseConcat(a: string, b: string)
    ensures HasChinese(a + b) == (HasChinese(a) || HasChinese(b))
  {
    var ab := a + b;
    if HasChinese(ab) {
      var i :| 0 <= i < |ab| && InChineseRanges(ab[i] as int);
      if i < |a| {
        assert ab[i] == a[i];
      } else {
        assert ab[i] == b[i - |a|];
      }
    }
    if HasChinese(a) {
      var i :| 0 <= i < |a| && InChineseRanges(a[i] as int);
      assert ab[i] == a[i];
    }
    if HasChinese(b) {
      var i :| 0 <= i < |b| && InChineseRanges(b[i] as int);
      assert ab[|a| + i] == b[i];
    }
  }

  /** The two examples of the script: a greeting with four ideographs is
      detected, plain English is not. */
  lemma {:induction false} DocumentedExamples()
    ensures HasChinese("Hello \U{4F60}\U{597D}\U{4E16}\U{754C}!")
    ensures !HasChinese("No Chinese here.")
  {
    var yes := "Hello \U{4F60}\U{597D}\U{4E16}\U{754C}!";
    assert InChineseRanges(yes[6] as int);
    var no := "No Chinese here.";
    forall i | 0 <= i < |no| ensures !InChineseRanges(no[i] as int) {
      assert no[i] as int < 0x80;
    }
  }

  /** Every character the search matches is labelled Chinese by the script
      classifier. */
  lemma {:induction false} MatchIsLabelledChinese(c: char)
    requires InChineseRanges(c as int)
    ensures LabelOf(c) == Chinese
  {
    CharLabelByBlocks(c as int, Chinese);
  }

  /** So a token the detector flags is blocked by the vocabulary filter,
      whether or not emoji are allowed. */
  lemma {:induction false} DetectedTokenIsBlocked(text: string, allowEmoji: bool)
    requires HasChinese(text)
    ensures !TokenFilter.IsTokenAllowed(text, allowEmoji).allowed
  {
    var i :| 0 <= i < |text| && InChineseRanges(text[i] as int);
    MatchIsLabelledChinese(text[i]);
    assert Chinese in TokenFilter.LabelSet(text);
    assert Chinese !in TokenFilter.AllowedLabels(allowEmoji);
  }

  /** The converse fails: the classifier also calls CJK Extension F Chinese,
      which the detector's six ranges leave out. */
  lemma {:induction false} ClassifierIsWider()
    ensures LabelOf('\U{2CEB0}') == Chinese
    ensures !HasChinese("\U{2CEB0}")
  {
    var s := "\U{2CEB0}";
    assert !InChineseRanges(s[0] as int);
  }
}

=== FILE: corner_order.dfy ===
/** The corner ordering at the start of `align_document` in con.py: the
    four points of a document contour become top-left, top-right,
    bottom-right and bottom-left by the extremes of x + y and y - x, the
    first extreme winning a tie as numpy's `argmin` and `argmax` do. Image
    coordinates grow rightwards (x) and downwards (y). */
module CornerOrder {
  import opened Wrappers

  datatype Point = Point(x: int, y: int)

  /** `points.sum(axis=1)`. */
  function Sums(ps: seq<Point>): (s: seq<int>)
    ensures |s| == |ps| && forall i | 0 <= i < |ps| :: s[i] == ps[i].x + ps[i].y
  {
    seq(|ps|, i requires 0 <= i < |ps| => ps[i].x + ps[i].y)
  }

  /** `np.diff(points, axis=1)`: y minus x for every point. */
  function Diffs(ps: seq<Point>): (d: seq<int>)
    ensures |d| == |ps| && forall i | 0 <= i < |ps| :: d[i] == ps[i].y - ps[i].x
  {
    seq(|ps|, i requires 0 <= i < |ps| => ps[i].y - ps[i].x)
  }

  /** `k` is where the smallest value first occurs. */
  predicate IsFirstMin(v: seq<int>, k: int) {
    && 0 <= k < |v|
    && (forall j | 0 <= j < |v| :: v[k] <= v[j])
    && (forall j | 0 <= j < k :: v[k] < v[j])
  }

  /** `k` is where the largest value first occurs. */
  predicate IsFirstMax(v: seq<int>, k: int) {
    && 0 <= k < |v|
    && (forall j | 0 <= j < |v| :: v[j] <= v[k])
    && (forall j | 0 <= j < k :: v[j] < v[k])
  }

  /** `np.argmin`. */
  function ArgMin(v: seq<int>): (k: nat)
    requires |v| > 0
    ensures IsFirstMin(v, k)
  {
    if |v| == 1 then 0
    else
      var rest := ArgMin(v[1..]) + 1;
      assert forall j | 1 <= j < |v| :: v[j] == v[1..][j - 1];
      if v[0] <= v[rest] then 0 else rest
  }

  /** `np.argmax`. */
  function ArgMax(v: seq<int>): (k: nat)
    requires |v| > 0
    ensures IsFirstMax(v, k)
  {
    if |v| == 1 then 0
    else
      var rest := ArgMax(v[1..]) + 1;
      assert forall j | 1 <= j < |v| :: v[j] == v[1..][j - 1];
      if v[0] >= v[rest] then 0 else rest
  }

  /** There is only one first minimum ... */
  lemma {:induction false} FirstMinUnique(v: seq<int>, k: int, m: int)
    requires IsFirstMin(v, k) && IsFirstMin(v, m)
    ensures k == m
  {
    assert v[k] == v[m];
  }

  /** ... and only one first maximum. */
  lemma {:induction false} FirstMaxUnique(v: seq<int>, k: int, m: int)
    requires IsFirstMax(v, k) && IsFirstMax(v, m)
    ensures k == m
  {
    assert v[k] == v[m];
  }

  /** The first maximum is the first minimum of the negated values. */
  lemma {:induction false} ArgMaxIsArgMinOfNegation(v: seq<int>)
    requires |v| > 0
    ensures ArgMax(v) == ArgMin(seq(|v|, i requires 0 <= i < |v| => -v[i]))
  {
    var w := seq(|v|, i requires 0 <= i < |v| => -v[i]);
    assert IsFirstMin(w, ArgMax(v));
    FirstMinUnique(w, ArgMax(v), ArgMin(w));
  }

  /** The ordered corners. */
  datatype Quad = Quad(topLeft: Point, topRight: Point, bottomRight: Point, bottomLeft: Point)

  /** The corner ordering of `align_document`. `reshape(4, 2)` raises unless
      the contour has exactly four points. */
  function OrderCorners(contour: seq<Point>): (r: Result<Quad, string>)
    ensures r.Failure? <==> |contour| != 4
    ensures r.Success? ==>
              && (exists k | IsFirstMin(Sums(contour), k) :: r.value.topLeft == contour[k])
              && (exists k | IsFirstMax(Sums(contour), k) :: r.value.bottomRight == contour[k])
              && (exists k | IsFirstMin(Diffs(contour), k) :: r.value.topRight == contour[k])
              && (exists k | IsFirstMax(Diffs(contour), k) :: r.value.bottomLeft == contour[k])
  {
    if |contour| != 4 then Failure("cannot reshape array into shape (4,2)")
    else
      var s, d := Sums(contour), Diffs(contour);
      Success(Quad(contour[ArgMin(s)], contour[ArgMin(d)], contour[ArgMax(s)], contour[ArgMax(d)]))
  }

  /** Every corner is one of the contour's points. */
  lemma {:induction false} CornersAreInputPoints(contour: seq<Point>)
    requires OrderCorners(contour).Success?
    ensures var q := OrderCorners(contour).value;
            q.topLeft in contour && q.topRight in contour
            && q.bottomRight in contour && q.bottomLeft in contour
  {
    var q := OrderCorners(contour).value;
    var a :| IsFirstMin(Sums(contour), a) && q.topLeft == contour[a];
    var b :| IsFirstMin(Diffs(contour), b) && q.topRight == contour[b];
    var c :| IsFirstMax(Sums(contour), c) && q.bottomRight == contour[c];
    var e :| IsFirstMax(Diffs(contour), e) && q.bottomLeft == contour[e];
  }

  /** The contour is the four corners of the upright rectangle with opposite
      corners (x0, y0) and (x1, y1), in some order. */
  predicate IsRectangle(contour: seq<Point>, x0: int, y0: int, x1: int, y1: int) {
    && x0 < x1 && y0 < y1
    && |contour| == 4
    && (forall k | 0 <= k < 4 :: contour[k] in {Point(x0, y0), Point(x1, y0), Point(x1, y1), Point(x0, y1)})
    && Point(x0, y0) in contour && Point(x1, y0) in contour
    && Point(x1, y1) in contour && Point(x0, y1) in contour
  }

  lemma {:induction false} RectangleTopLeft(contour: seq<Point>, x0: int, y0: int, x1: int, y1: int)
    requires IsRectangle(contour, x0, y0, x1, y1)
    ensures contour[ArgMin(Sums(contour))] == Point(x0, y0)
  {
    var k :| 0 <= k < 4 && contour[k] == Point(x0, y0);
    assert Sums(contour)[ArgMin(Sums(contour))] <= Sums(contour)[k];
  }

  lemma {:induction false} RectangleTopRight(contour: seq<Point>, x0: int, y0: int, x1: int, y1: int)
    requires IsRectangle(contour, x0, y0, x1, y1)
    ensures contour[ArgMin(Diffs(contour))] == Point(x1, y0)
  {
    var k :| 0 <= k < 4 && contour[k] == Point(x1, y0);
    assert Diffs(contour)[ArgMin(Diffs(contour))] <= Diffs(contour)[k];
  }

  lemma {:induction false} RectangleBottomRight(contour: seq<Point>, x0: int, y0: int, x1: int, y1: int)
    requires IsRectangle(contour, x0, y0, x1, y1)
    ensures contour[ArgMax(Sums(contour))] == Point(x1, y1)
  {
    var k :| 0 <= k < 4 && contour[k] == Point(x1, y1);
    assert Sums(contour)[ArgMax(Sums(contour))] >= Sums(contour)[k];
  }

  lemma {:induction false} RectangleBottomLeft(contour: seq<Point>, x0: int, y0: int, x1: int, y1: int)
    requires IsRectangle(contour, x0, y0, x1, y1)
    ensures contour[ArgMax(Diffs(contour))] == Point(x0, y1)
  {
    var k :| 0 <= k < 4 && contour[k] == Point(x0, y1);
    assert Diffs(contour)[ArgMax(Diffs(contour))] >= Diffs(contour)[k];
  }

  /** Whatever order the four corners of an upright rectangle come in, they
      are put in the order top-left, top-right, bottom-right, bottom-left. */
  lemma {:induction false} UprightRectangle(contour: seq<Point>, x0: int, y0: int, x1: int, y1: int)
    requires IsRectangle(contour, x0, y0, x1, y1)
    ensures OrderCorners(contour)
            == Success(Quad(Point(x0, y0), Point(x1, y0), Point(x1, y1), Point(x0, y1)))
  {
    RectangleTopLeft(contour, x0, y0, x1, y1);
    RectangleTopRight(contour, x0, y0, x1, y1);
    RectangleBottomRight(contour, x0, y0, x1, y1);
    RectangleBottomLeft(contour, x0, y0, x1, y1);
  }

  /** A square turned by 45 degrees has two points of least x + y; the first
      of them is also the point of least y - x, so the top-left and the
      top-right corner are the same point. */
  lemma {:induction false} TurnedSquareRepeatsCorner()
    ensures var q := OrderCorners([Point(1, 0), Point(0, 1), Point(2, 1), Point(1, 2)]).value;
            q.topLeft == q.topRight == Point(1, 0)
  {
    var c := [Point(1, 0), Point(0, 1), Point(2, 1), Point(1, 2)];
    var s, d := Sums(c), Diffs(c);
    assert IsFirstMin(s, 0) && IsFirstMin(d, 0);
    FirstMinUnique(s, 0, ArgMin(s));
    FirstMinUnique(d, 0, ArgMin(d));
  }
}

=== FILE: markdown_render.dfy ===
/** The document-to-Markdown converter of pa.py: choosing the parser from
    the file extension, and the pure line rendering of the DOCX parser
    (paragraphs, headings, tables) and of the PDF parser (page text and
    image references). Opening the files and writing the images are left
    out: the parsed document is an input. */
module MarkdownRender {
  import opened Wrappers
  import opened Text
  import Seqs

  // ---------------------------------------------------------------------
  // Dispatch on the extension

  /** `filepath.lower().split('.')[-1]`. */
  function Extension(path: string): (e: string)
    ensures '.' !in e
    ensures |e| <= |path| && e == Lower(path)[|path| - |e|..]
    ensures e == Lower(path) || Lower(path)[|path| - |e| - 1] == '.'
  {
    AfterLast(Lower(path), '.')
  }

  lemma {:induction false} LowerIdempotent(s: string)
    ensures Lower(Lower(s)) == Lower(s)
  {
  }

  /** The extension test ignores case: a path and its lower-cased form have the same
      extension. */
  lemma {:induction false} ExtensionIgnoresCase(path: string)
    ensures Extension(Lower(path)) == Extension(path)
  {
    LowerIdempotent(path);
  }

  /** A path without a dot is its own extension, lower-cased. */
  lemma {:induction false} ExtensionOfDotless(path: string)
    requires '.' !in path
    ensures Extension(path) == Lower(path)
  {
    var l := Lower(path);
    assert '.' !in l by {
      assert forall i | 0 <= i < |l| :: l[i] == LowerChar(path[i]) && path[i] != '.';
    }
    assert forall k | 0 <= k < |l| :: l[k] != '.';
  }

  lemma {:induction false} LowerAppend(a: string, b: string)
    ensures Lower(a + b) == Lower(a) + Lower(b)
  {
  }

  /** The text after the last separator is what follows it when no
      separator comes later. */
  lemma {:induction false} AfterLastOf(s: string, sep: char, t: string)
    requires sep !in t
    ensures AfterLast(s + [sep] + t, sep) == t
    decreases |t|
  {
    var whole := s + [sep] + t;
    if |t| > 0 {
      var init := t[..|t| - 1];
      assert whole[..|whole| - 1] == s + [sep] + init;
      AfterLastOf(s, sep, init);
      assert t == init + [t[|t| - 1]];
    }
  }

  /** The text after the last dot is the extension, whatever the stem. */
  lemma {:induction false} ExtensionOfName(stem: string, ext: string)
    requires '.' !in ext
    ensures Extension(stem + "." + ext) == Lower(ext)
  {
    var le := Lower(ext);
    LowerAppend(stem + ".", ext);
    LowerAppend(stem, ".");
    assert Lower(".") == ".";
    assert '.' !in le by {
      assert forall i | 0 <= i < |le| :: le[i] == LowerChar(ext[i]) && ext[i] != '.';
    }
    AfterLastOf(Lower(stem), '.', le);
    assert Lower(stem + "." + ext) == Lower(stem) + ['.'] + le;
  }

  /** The two parsers `parse_document` can choose. */
  datatype Parser = DocxParser | PdfParser

  /** `parse_document`'s choice: "docx" and "pdf", in any case, select their
      parser; anything else raises "Unsupported file type". */
  function ChooseParser(path: string): (r: Result<Parser, string>)
    ensures r == Success(DocxParser) <==> Extension(path) == "docx"
    ensures r == Success(PdfParser) <==> Extension(path) == "pdf"
    ensures r.Failure? <==> Extension(path) !in {"docx", "pdf"}
    ensures r.Failure? ==> r.error == "Unsupported file type"
  {
    var ext := Extension(path);
    if ext == "docx" then Success(DocxParser)
    else if ext == "pdf" then Success(PdfParser)
    else Failure("Unsupported file type")
  }

  /** The usual spellings dispatch as expected, in any case. */
  lemma {:induction false} UpperCaseDocx(stem: string)
    ensures ChooseParser(stem + ".DOCX") == Success(DocxParser)
  {
    ExtensionOfName(stem, "DOCX");
    assert stem + "." + "DOCX" == stem + ".DOCX";
    assert Lower("DOCX") == "docx";
  }

  lemma {:induction false} DottedStemPdf(stem: string)
    ensures ChooseParser(stem + ".pdf") == Success(PdfParser)
  {
    ExtensionOfName(stem, "pdf");
    assert stem + "." + "pdf" == stem + ".pdf";
    assert Lower("pdf") == "pdf";
  }

  lemma {:induction false} OtherExtensionRejected(stem: string)
    ensures ChooseParser(stem + ".txt") == Failure("Unsupported file type")
  {
    ExtensionOfName(stem, "txt");
    assert stem + "." + "txt" == stem + ".txt";
    assert Lower("txt") == "txt";
  }

  // ---------------------------------------------------------------------
  // DOCX

  /** A paragraph as python-docx reports it: its text and style name. */
  datatype Paragraph = Paragraph(text: string, style: string)

  /** A table as the text of each cell, row by row. */
  datatype Table = Table(rows: seq<seq<string>>)

  datatype Docx = Docx(paragraphs: seq<Paragraph>, tables: seq<Table>)

  /** `int(style.split()[-1])`; `None` where Python raises. */
  function HeadingLevel(style: string): (r: Option<int>)
    ensures r.Some? ==> LastWord(style).Some? && ParseInt(LastWord(style).value) == r
    ensures LastWord(style).Some? && ParseInt(LastWord(style).value).Some? ==> r == ParseInt(LastWord(style).value)
    ensures (forall k | 0 <= k < |style| :: IsSpace(style[k])) ==> r.None?
  {
    match LastWord(style)
    case None => None
    case Some(w) => ParseInt(w)
  }

  /** The line a paragraph contributes: none for a blank paragraph, `level`
      hashes, a space and the stripped text for a heading, the stripped
      text otherwise. A heading style whose last word is not a number
      raises. */
  function ParagraphLine(p: Paragraph): (r: Result<Option<string>, string>)
    ensures r == Success(None) <==> Strip(p.text) == ""
    ensures r.Success? && r.value.Some? ==> Strip(p.text) != ""
    ensures r.Failure? <==> Strip(p.text) != "" && StartsWith(p.style, "Heading") && HeadingLevel(p.style).None?
    ensures Strip(p.text) != "" && !StartsWith(p.style, "Heading") ==> r == Success(Some(Strip(p.text)))
  {
    var text := Strip(p.text);
    if text == "" then Success(None)
    else if StartsWith(p.style, "Heading") then
      match HeadingLevel(p.style)
      case None => Failure("invalid literal for int()")
      case Some(level) => Success(Some(Repeat('#', level) + " " + text))
    else Success(Some(text))
  }

  /** A non-empty word after a space (or at the start) is the last word. */
  lemma {:induction false} LastWordAfterSpace(a: string, w: string)
    requires |a| == 0 || IsSpace(a[|a| - 1])
    requires |w| > 0 && forall k | 0 <= k < |w| :: !IsSpace(w[k])
    ensures LastWord(a + w) == Some(w)
  {
    var s := a + w;
    assert !IsSpace(s[|s| - 1]) by {
      assert s[|s| - 1] == w[|w| - 1];
    }
    assert Trimmed(s) == s;
    var r := LastWord(s);
    assert r.Some?;
    WordAfterSpace(a, w, r.value);
  }

  /** A suffix of `a + w` that has no space and is preceded by one (or by
      nothing) is `w`: it cannot reach into `a`, whose last character is a
      space, nor stop inside `w`, which has none. */
  lemma {:induction false} WordAfterSpace(a: string, w: string, r: string)
    requires |a| == 0 || IsSpace(a[|a| - 1])
    requires forall k | 0 <= k < |w| :: !IsSpace(w[k])
    requires |r| <= |a + w| && r == (a + w)[|a + w| - |r|..]
    requires forall k | 0 <= k < |r| :: !IsSpace(r[k])
    requires |r| == |a + w| || IsSpace((a + w)[|a + w| - |r| - 1])
    ensures r == w
  {
    var s := a + w;
    assert forall k | |s| - |r| <= k < |s| :: !IsSpace(s[k]) by {
      assert forall k | |s| - |r| <= k < |s| :: s[k] == r[k - (|s| - |r|)];
    }
    assert |a| > 0 ==> IsSpace(s[|a| - 1]);
    assert forall k | |a| <= k < |s| :: !IsSpace(s[k]) by {
      assert forall k | |a| <= k < |s| :: s[k] == w[k - |a|];
    }
    assert |r| == |w|;
    assert s[|a|..] == w;
  }

  /** "Heading N" renders as N hashes, a space and the stripped text. */
  lemma {:induction false} HeadingRendering(text: string, n: nat)
    requires Strip(text) != ""
    ensures ParagraphLine(Paragraph(text, "Heading " + NatToString(n)))
            == Success(Some(Repeat('#', n) + " " + Strip(text)))
  {
    var style := "Heading " + NatToString(n);
    assert StartsWith(style, "Heading");
    var digits := NatToString(n);
    assert forall k | 0 <= k < |digits| :: !IsSpace(digits[k]) by {
      assert forall k | 0 <= k < |digits| :: IsDigit(digits[k]);
    }
    LastWordAfterSpace("Heading ", digits);
    ParseIntOfNatToString(n);
  }

  /** A paragraph styled "Heading" with no number raises. */
  lemma {:induction false} BareHeadingRaises(text: string)
    requires Strip(text) != ""
    ensures ParagraphLine(Paragraph(text, "Heading")).Failure?
  {
    assert StartsWith("Heading", "Heading");
    BareHeadingLevel();
  }

  /** "Heading" alone is its own last word, which is not a number. */
  lemma {:induction false} BareHeadingLevel()
    ensures HeadingLevel("Heading").None?
  {
    HeadingIsOneWord();
    HeadingIsNotNumber();
  }

  lemma {:induction false} HeadingIsOneWord()
    ensures LastWord("Heading") == Some("Heading")
  {
    var w := "Heading";
    assert forall k | 0 <= k < |w| :: !IsSpace(w[k]);
    LastWordAfterSpace("", w);
    assert "" + w == w;
  }

  lemma {:induction false} HeadingIsNotNumber()
    ensures ParseInt("Heading").None?
  {
    var w := "Heading";
    assert w[0] == 'H';
    ParseIntNeedsDigit(w);
  }

  /** `"| " + " | ".join(cells) + " |"`. */
  function RowLine(cells: seq<string>): string {
    "| " + Join(" | ", cells) + " |"
  }

  /** The lines of one table: the header row (after a blank line), one
      "---" per header cell, then every other row. A table without rows
      raises on `rows[0]`. */
  function TableLines(t: Table): (r: Result<seq<string>, string>)
    ensures r.Failure? <==> |t.rows| == 0
    ensures r.Success? ==>
              && |r.value| == |t.rows| + 1
              && r.value[0] == "\n" + RowLine(t.rows[0])
              && r.value[1] == RowLine(seq(|t.rows[0]|, _ => "---"))
              && (forall k | 1 <= k < |t.rows| :: r.value[k + 1] == RowLine(t.rows[k]))
  {
    if |t.rows| == 0 then Failure("list index out of range")
    else
      var header := t.rows[0];
      Success(["\n" + RowLine(header), RowLine(seq(|header|, _ => "---"))] + BodyLines(t.rows[1..]))
  }

  function BodyLines(rows: seq<seq<string>>): (r: seq<string>)
    ensures |r| == |rows|
    ensures forall k | 0 <= k < |rows| :: r[k] == RowLine(rows[k])
  {
    if |rows| == 0 then [] else [RowLine(rows[0])] + BodyLines(rows[1..])
  }

  /** The lines of the paragraphs, in order, stopping at the first error. */
  function ParagraphLines(ps: seq<Paragraph>): (r: Result<seq<string>, string>)
    ensures r.Success? <==> forall i | 0 <= i < |ps| :: ParagraphLine(ps[i]).Success?
  {
    if |ps| == 0 then Success([])
    else
      var first :- ParagraphLine(ps[0]);
      var rest :- ParagraphLines(ps[1..]);
      assert forall i | 1 <= i < |ps| :: ps[i] == ps[1..][i - 1];
      Success((if first.Some? then [first.value] else []) + rest)
  }

  /** The k-th line is the line of the k-th non-blank paragraph. */
  lemma {:induction false} ParagraphLinesContents(ps: seq<Paragraph>)
    requires ParagraphLines(ps).Success?
    ensures |ParagraphLines(ps).value| == |NonBlank(ps)|
    ensures forall k | 0 <= k < |NonBlank(ps)| ::
      ParagraphLine(NonBlank(ps)[k]) == Success(Some(ParagraphLines(ps).value[k]))
    decreases |ps|
  {
    if |ps| > 0 {
      ParagraphLinesContents(ps[1..]);
      var first := ParagraphLine(ps[0]).value;
      var rest := ParagraphLines(ps[1..]).value;
      var nb := NonBlank(ps[1..]);
      assert ParagraphLines(ps).value == (if first.Some? then [first.value] else []) + rest;
      assert NonBlank(ps) == (if first.Some? then [ps[0]] else []) + nb;
      if first.Some? {
        Seqs.ConsPointwise((p, l) => ParagraphLine(p) == Success(Some(l)), ps[0], nb, first.value, rest);
      }
    }
  }

  /** The paragraphs that are not blank once stripped. */
  function NonBlank(ps: seq<Paragraph>): (r: seq<Paragraph>)
    ensures |r| <= |ps|
    ensures forall p | p in r :: p in ps && Strip(p.text) != ""
  {
    if |ps| == 0 then []
    else (if Strip(ps[0].text) != "" then [ps[0]] else []) + NonBlank(ps[1..])
  }

  /** The lines of the tables, one table after another. */
  function TablesLines(ts: seq<Table>): (r: Result<seq<string>, string>)
    ensures r.Success? <==> forall i | 0 <= i < |ts| :: |ts[i].rows| > 0
    ensures r.Success? ==> |r.value| == RowCount(ts) + |ts|
  {
    if |ts| == 0 then Success([])
    else
      var first :- TableLines(ts[0]);
      var rest :- TablesLines(ts[1..]);
      assert forall i | 1 <= i < |ts| :: ts[i] == ts[1..][i - 1];
      Success(first + rest)
  }

  function RowCount(ts: seq<Table>): nat {
    if |ts| == 0 then 0 else |ts[0].rows| + RowCount(ts[1..])
  }

  /** `TablesLines` is a `Collect` of `TableLines`. */
  lemma {:induction false} TablesLinesUnfold()
    ensures IsCollect(ts => TablesLines(ts), t => TableLines(t))
  {
  }

  /** The lines of two lists of tables are those of the first list followed
      by those of the second. */
  lemma {:induction false} TablesLinesConcat(a: seq<Table>, b: seq<Table>)
    requires TablesLines(a + b).Success?
    ensures TablesLines(a).Success? && TablesLines(b).Success?
    ensures TablesLines(a + b).value == TablesLines(a).value + TablesLines(b).value
  {
    TablesLinesUnfold();
    CollectConcat(ts => TablesLines(ts), t => TableLines(t), a, b);
  }

  /** Where the lines of table `i` start among the lines of `ts`. */
  function TableStart(ts: seq<Table>, i: nat): nat
    requires i <= |ts|
  {
    i + RowCount(ts[..i])
  }

  /** Table `i` renders, and its lines sit at its place in `lines`, after
      `offset` lines of something else. */
  predicate TableAt(lines: seq<string>, offset: nat, ts: seq<Table>, i: nat)
    requires i < |ts|
  {
    var start := offset + TableStart(ts, i);
    && TableLines(ts[i]).Success?
    && start + |ts[i].rows| + 1 <= |lines|
    && lines[start..start + |ts[i].rows| + 1] == TableLines(ts[i]).value
  }

  /** Each table's lines appear, in table order, at its place among the
      lines of all tables. */
  lemma {:induction false} TablesLinesAt(ts: seq<Table>, i: nat)
    requires TablesLines(ts).Success? && i < |ts|
    ensures TableAt(TablesLines(ts).value, 0, ts, i)
  {
    var F := (ts: seq<Table>) => TablesLines(ts);
    var f := (t: Table) => TableLines(t);
    TablesLinesUnfold();
    CollectAt(F, f, ts, i);
    assert |TablesLines(ts[..i]).value| == TableStart(ts, i);
  }

  /** `parse_docx` without the file: the paragraph lines, then the table
      lines, joined by blank lines. */
  function RenderDocx(d: Docx): (r: Result<string, string>)
    ensures r.Success? <==> ParagraphLines(d.paragraphs).Success? && TablesLines(d.tables).Success?
    ensures r.Success? ==> r.value == Join("\n\n", ParagraphLines(d.paragraphs).value + TablesLines(d.tables).value)
  {
    var paras :- ParagraphLines(d.paragraphs);
    var tables :- TablesLines(d.tables);
    Success(Join("\n\n", paras + tables))
  }

  /** How many lines a rendered DOCX has: one per non-blank paragraph, and
      one per table row plus a separator per table. */
  lemma {:induction false} DocxLineCount(d: Docx)
    requires ParagraphLines(d.paragraphs).Success? && TablesLines(d.tables).Success?
    ensures |ParagraphLines(d.paragraphs).value + TablesLines(d.tables).value|
            == |NonBlank(d.paragraphs)| + RowCount(d.tables) + |d.tables|
  {
    ParagraphLinesContents(d.paragraphs);
  }

  /** The lines a rendered DOCX joins: the paragraph lines, then the table
      lines. */
  function DocxLines(d: Docx): (r: seq<string>)
    requires RenderDocx(d).Success?
    ensures RenderDocx(d).value == Join("\n\n", r)
  {
    ParagraphLines(d.paragraphs).value + TablesLines(d.tables).value
  }

  /** Table `i` of a rendered DOCX sits after the paragraph lines, at its
      place among the table lines. */
  lemma {:induction false} DocxTableAt(d: Docx, i: nat)
    requires RenderDocx(d).Success? && i < |d.tables|
    ensures TableAt(DocxLines(d), |ParagraphLines(d.paragraphs).value|, d.tables, i)
  {
    var paras, tables := ParagraphLines(d.paragraphs).value, TablesLines(d.tables).value;
    TablesLinesAt(d.tables, i);
    TableAtShift(paras, tables, d.tables, i);
    assert DocxLines(d) == paras + tables;
  }

  /** Lines put in front of a table's lines move it by their count. */
  lemma {:induction false} TableAtShift(pre: seq<string>, lines: seq<string>, ts: seq<Table>, i: nat)
    requires i < |ts| && TableAt(lines, 0, ts, i)
    ensures TableAt(pre + lines, |pre|, ts, i)
  {
  }

  /** What a rendered DOCX says: the lines of the non-blank paragraphs in
      order, then each table's lines in table order, joined by blank lines. */
  lemma {:induction false} RenderDocxLines(d: Docx)
    requires RenderDocx(d).Success?
    ensures var n := |NonBlank(d.paragraphs)|;
      var lines := DocxLines(d);
      && |lines| == n + RowCount(d.tables) + |d.tables|
      && (forall k | 0 <= k < n :: ParagraphLine(NonBlank(d.paragraphs)[k]) == Success(Some(lines[k])))
      && (forall i | 0 <= i < |d.tables| :: TableAt(lines, n, d.tables, i))
  {
    ParagraphLinesContents(d.paragraphs);
    forall i | 0 <= i < |d.tables| {
      DocxTableAt(d, i);
    }
  }

  // ---------------------------------------------------------------------
  // PDF

  /** A page as PyMuPDF reports it: its text and the file extension of
      each embedded image. */
  datatype Page = Page(text: string, images: seq<string>)

  /** `parse_pdf`'s default image directory. */
  const DefaultImageDir: string := "./images"

  /** `f"{image_dir}/page_{page_num}_img_{img_index}.{image_ext}"`. */
  function ImageName(dir: string, page: nat, index: nat, ext: string): string {
    dir + "/page_" + NatToString(page) + "_img_" + NatToString(index) + "." + ext
  }

  /** `f"\n![Image](./{image_filename})\n"`. */
  function ImageLine(name: string): string {
    "\n![Image](./" + name + ")\n"
  }

  /** The lines of one page: its text, then one reference per image. */
  function PageLines(pg: Page, page: nat, dir: string): (r: seq<string>)
    ensures |r| == 1 + |pg.images|
    ensures r[0] == pg.text
    ensures forall i | 0 <= i < |pg.images| :: r[i + 1] == ImageLine(ImageName(dir, page, i, pg.images[i]))
  {
    [pg.text] + seq(|pg.images|, i requires 0 <= i < |pg.images| => ImageLine(ImageName(dir, page, i, pg.images[i])))
  }

  /** The lines of the pages from number `first` on. */
  function PagesLines(pages: seq<Page>, first: nat, dir: string): (r: seq<string>)
    ensures |r| == |pages| + ImageCount(pages)
    decreases |pages|
  {
    if |pages| == 0 then [] else PageLines(pages[0], first, dir) + PagesLines(pages[1..], first + 1, dir)
  }

  function ImageCount(pages: seq<Page>): nat {
    if |pages| == 0 then 0 else |pages[0].images| + ImageCount(pages[1..])
  }

  /** `PagesLines` is a `Flatten` of `PageLines`. */
  lemma {:induction false} PagesLinesUnfold(dir: string)
    ensures IsFlatten((pages, n) => PagesLines(pages, n, dir), (pg, n) => PageLines(pg, n, dir))
  {
  }

  /** The lines of two runs of pages are those of the first followed by
      those of the second, numbered on from where the first stops. */
  lemma {:induction false} PagesLinesConcat(a: seq<Page>, b: seq<Page>, first: nat, dir: string)
    ensures PagesLines(a + b, first, dir) == PagesLines(a, first, dir) + PagesLines(b, first + |a|, dir)
  {
    PagesLinesUnfold(dir);
    FlattenConcat((pages, n) => PagesLines(pages, n, dir), (pg, n) => PageLines(pg, n, dir), a, b, first);
  }

  /** Where the lines of page `p` start among the lines of `pages`. */
  function PageStart(pages: seq<Page>, p: nat): nat
    requires p <= |pages|
  {
    p + ImageCount(pages[..p])
  }

  /** Page `p`'s lines, its text and then its image references, numbered
      `first + p`, sit at its place in `lines`. */
  predicate PageAt(lines: seq<string>, pages: seq<Page>, first: nat, p: nat, dir: string)
    requires p < |pages|
  {
    && PageStart(pages, p) + 1 + |pages[p].images| <= |lines|
    && lines[PageStart(pages, p)..PageStart(pages, p) + 1 + |pages[p].images|] == PageLines(pages[p], first + p, dir)
  }

  /** Each page's lines appear, in page order, at its place among the lines
      of all pages. */
  lemma {:induction false} PagesLinesAt(pages: seq<Page>, first: nat, dir: string, p: nat)
    requires p < |pages|
    ensures PageAt(PagesLines(pages, first, dir), pages, first, p, dir)
  {
    var F := (pages: seq<Page>, n: nat) => PagesLines(pages, n, dir);
    var f := (pg: Page, n: nat) => PageLines(pg, n, dir);
    PagesLinesUnfold(dir);
    FlattenAt(F, f, pages, first, p);
    assert |PagesLines(pages[..p], first, dir)| == PageStart(pages, p);
  }

  /** `parse_pdf` without the file: every page's lines, joined by blank
      lines. Page `p`'s text and image references sit at its place, in page
      order, numbered from 0. */
  function RenderPdf(pages: seq<Page>, dir: string): (r: string)
    ensures |pages| == 0 ==> r == ""
    ensures var lines := PagesLines(pages, 0, dir);
      && r == Join("\n\n", lines)
      && |lines| == |pages| + ImageCount(pages)
      && forall p | 0 <= p < |pages| :: PageAt(lines, pages, 0, p, dir)
  {
    PagesLinesEveryPage(pages, dir);
    Join("\n\n", PagesLines(pages, 0, dir))
  }

  /** `PagesLinesAt` for every page of a document at once. */
  lemma {:induction false} PagesLinesEveryPage(pages: seq<Page>, dir: string)
    ensures forall p | 0 <= p < |pages| :: PageAt(PagesLines(pages, 0, dir), pages, 0, p, dir)
  {
    forall p | 0 <= p < |pages| {
      PagesLinesAt(pages, 0, dir, p);
    }
  }

  /** A digit string followed by a non-digit splits uniquely. */
  lemma {:induction false} DigitsThenRest(a: string, x: string, b: string, y: string)
    requires forall k | 0 <= k < |a| :: IsDigit(a[k])
    requires forall k | 0 <= k < |b| :: IsDigit(b[k])
    requires |x| > 0 && !IsDigit(x[0]) && |y| > 0 && !IsDigit(y[0])
    requires a + x == b + y
    ensures a == b && x == y
  {
    var s := a + x;
    assert s[|a|] == x[0];
    assert (b + y)[|b|] == y[0];
    assert forall k | 0 <= k < |b| :: (b + y)[k] == b[k];
    assert forall k | 0 <= k < |a| :: s[k] == a[k];
    assert |a| == |b|;
    assert a == s[..|a|] == b;
    assert x == s[|a|..] == y;
  }

  lemma {:induction false} ImageNameParts(dir: string, p: nat, i: nat, e: string)
    ensures ImageName(dir, p, i, e)
            == (dir + "/page_") + (NatToString(p) + ("_img_" + (NatToString(i) + ("." + e))))
  {
  }

  lemma {:induction false} DropPrefix(pre: string, u: string, v: string)
    requires pre + u == pre + v
    ensures u == v
  {
    assert u == (pre + u)[|pre|..];
    assert v == (pre + v)[|pre|..];
  }

  /** Different images never get the same file name, so no image overwrites
      another. */
  lemma {:induction false} ImageNamesDistinct(dir: string, p: nat, i: nat, e: string, q: nat, j: nat, f: string)
    requires ImageName(dir, p, i, e) == ImageName(dir, q, j, f)
    ensures p == q && i == j && e == f
  {
    ImageNameParts(dir, p, i, e);
    ImageNameParts(dir, q, j, f);
    var a := NatToString(p);
    var b := NatToString(q);
    var x := "_img_" + (NatToString(i) + ("." + e));
    var y := "_img_" + (NatToString(j) + ("." + f));
    DropPrefix(dir + "/page_", a + x, b + y);
    DigitsThenRest(a, x, b, y);
    NatToStringInjective(p, q);
    var c := NatToString(i);
    var d := NatToString(j);
    DropPrefix("_img_", c + ("." + e), d + ("." + f));
    DigitsThenRest(c, "." + e, d, "." + f);
    NatToStringInjective(i, j);
    DropPrefix(".", e, f);
  }

  // ---------------------------------------------------------------------
  // The whole conversion

  /** `parse_document` given what the two libraries would read from the
      file. */
  function ParseDocument(path: string, docx: Docx, pages: seq<Page>): (r: Result<string, string>)
    ensures ChooseParser(path).Failure? ==> r == Failure("Unsupported file type")
    ensures ChooseParser(path) == Success(DocxParser) ==> r == RenderDocx(docx)
    ensures ChooseParser(path) == Success(PdfParser) ==> r == Success(RenderPdf(pages, DefaultImageDir))
  {
    var parser :- ChooseParser(path);
    match parser
    case DocxParser => RenderDocx(docx)
    case PdfParser => Success(RenderPdf(pages, DefaultImageDir))
  }

  // ---------------------------------------------------------------------
  // Line lists built part by part

  /** `x` put in front of `xs`; quantifiers below hang on this term. */
  function Cons<T>(x: T, xs: seq<T>): seq<T> {
    [x] + xs
  }

  /** `F` concatenates the lines `f` gives each element, stopping at the
      first failure. */
  ghost predicate IsCollect<T(!new)>(F: seq<T> -> Result<seq<string>, string>, f: T -> Result<seq<string>, string>) {
    && F([]) == Success([])
    && forall x: T, xs: seq<T> :: F(Cons(x, xs)) ==
         if f(x).Failure? then Failure(f(x).error)
         else if F(xs).Failure? then Failure(F(xs).error)
         else Success(f(x).value + F(xs).value)
  }

  lemma {:induction false} CollectConcat<T(!new)>(F: seq<T> -> Result<seq<string>, string>, f: T -> Result<seq<string>, string>, a: seq<T>, b: seq<T>)
    requires IsCollect(F, f)
    requires F(a + b).Success?
    ensures F(a).Success? && F(b).Success? && F(a + b).value == F(a).value + F(b).value
    decreases |a|
  {
    if |a| == 0 {
      assert a + b == b;
    } else {
      var x, t := a[0], a[1..];
      assert a == Cons(x, t);
      assert a + b == Cons(x, t + b);
      CollectConcat(F, f, t, b);
    }
  }

  lemma {:induction false} CollectAt<T(!new)>(F: seq<T> -> Result<seq<string>, string>, f: T -> Result<seq<string>, string>, xs: seq<T>, i: nat)
    requires IsCollect(F, f)
    requires F(xs).Success? && i < |xs|
    ensures F(xs[..i]).Success? && f(xs[i]).Success?
    ensures |F(xs[..i]).value| + |f(xs[i]).value| <= |F(xs).value|
    ensures F(xs).value[|F(xs[..i]).value|..|F(xs[..i]).value| + |f(xs[i]).value|] == f(xs[i]).value
  {
    var rest := [xs[i]] + xs[i + 1..];
    assert xs == xs[..i] + rest;
    CollectConcat(F, f, xs[..i], rest);
    CollectConcat(F, f, [xs[i]], xs[i + 1..]);
    assert [xs[i]] == Cons(xs[i], []);
    var pre := F(xs[..i]).value;
    var mine := f(xs[i]).value;
    assert F([xs[i]]).value == mine;
    assert F(xs).value == pre + (mine + F(xs[i + 1..]).value);
    assert F(xs).value[|pre|..|pre| + |mine|] == mine;
  }

  /** `F` concatenates the lines `f` gives each element, numbering the
      elements on from `n`. */
  ghost predicate IsFlatten<T(!new)>(F: (seq<T>, nat) -> seq<string>, f: (T, nat) -> seq<string>) {
    && (forall n: nat :: F([], n) == [])
    && forall x: T, xs: seq<T>, n: nat :: F(Cons(x, xs), n) == f(x, n) + F(xs, n + 1)
  }

  lemma {:induction false} FlattenConcat<T(!new)>(F: (seq<T>, nat) -> seq<string>, f: (T, nat) -> seq<string>, a: seq<T>, b: seq<T>, first: nat)
    requires IsFlatten(F, f)
    ensures F(a + b, first) == F(a, first) + F(b, first + |a|)
    decreases |a|
  {
    if |a| == 0 {
      assert a + b == b;
    } else {
      assert a == Cons(a[0], a[1..]);
      assert a + b == Cons(a[0], a[1..] + b);
      FlattenConcat(F, f, a[1..], b, first + 1);
    }
  }

  lemma {:induction false} FlattenAt<T(!new)>(F: (seq<T>, nat) -> seq<string>, f: (T, nat) -> seq<string>, xs: seq<T>, first: nat, p: nat)
    requires IsFlatten(F, f)
    requires p < |xs|
    ensures |F(xs[..p], first)| + |f(xs[p], first + p)| <= |F(xs, first)|
    ensures F(xs, first)[|F(xs[..p], first)|..|F(xs[..p], first)| + |f(xs[p], first + p)|] == f(xs[p], first + p)
  {
    var rest := [xs[p]] + xs[p + 1..];
    assert xs == xs[..p] + rest;
    FlattenConcat(F, f, xs[..p], rest, first);
    FlattenConcat(F, f, [xs[p]], xs[p + 1..], first + p);
    assert [xs[p]] == Cons(xs[p], []);
    var pre := F(xs[..p], first);
    var mine := f(xs[p], first + p);
    assert F([xs[p]], first + p) == mine;
    assert F(xs, first) == pre + (mine + F(xs[p + 1..], first + p + 1));
    assert F(xs, first)[|pre|..|pre| + |mine|] == mine;
  }
}

=== FILE: meta_catalog.dfy ===
/** The first `MetaClassManager` of meta.py: stable meta-class ids for the
    attribute tuples (group, service, component, view) of a classifier
    catalogue, with the history of classifier ids each tuple has had.
    The catalogue is a sequence of rows; pandas' `groupby` becomes the
    sorted distinct attribute tuples, and the iteration order of the Python
    set in `update_from_new_catalog` is a parameter. */
module MetaCatalog {
  import opened Wrappers
  import Sorting
  import Text
  import Seqs

  /** The grouping key of a catalogue row. */
  datatype Attrs = Attrs(group: string, service: string, comp: string, view: string)

  datatype Row = Row(attrs: Attrs, clf: int)

  datatype MetaClass = MetaClass(metaId: nat, currentClf: Option<int>, history: seq<int>, attrs: Attrs)

  datatype State = State(
    nextMetaId: nat,
    metaClasses: map<nat, MetaClass>,
    currentMapping: map<Attrs, nat>,
    clfToMeta: map<int, nat>)

  /** The manager as `__init__` leaves it. */
  const Fresh: State := State(1, map[], map[], map[])

  // ---------------------------------------------------------------------------
  // The invariant
  // ---------------------------------------------------------------------------

  /** A meta class stored under `id`: it knows its id, its history is never
      empty, and a current classifier is always the latest one. */
  predicate ClassOk(id: nat, m: MetaClass) {
    && m.metaId == id
    && |m.history| > 0
    && (m.currentClf.Some? ==> m.currentClf.value == m.history[|m.history| - 1])
  }

  /** The manager's invariant: ids are issued below `nextMetaId`, every
      mapping points at an existing class (with the right attributes), and a
      classifier id is in `clfToMeta` exactly when it is in some history. */
  ghost predicate Valid(s: State) {
    && s.nextMetaId >= 1
    && (forall id | id in s.metaClasses :: 1 <= id < s.nextMetaId && ClassOk(id, s.metaClasses[id]))
    && Faithful(s)
    && (forall c | c in s.clfToMeta ::
          s.clfToMeta[c] in s.metaClasses && c in s.metaClasses[s.clfToMeta[c]].history)
    && (forall id, k | id in s.metaClasses && 0 <= k < |s.metaClasses[id].history| ::
          s.metaClasses[id].history[k] in s.clfToMeta)
  }

  lemma FreshIsValid()
    ensures Valid(Fresh)
  {
  }

  /** Every issued id is below `nextMetaId`. */
  ghost predicate IdsBelow(s: State) {
    forall id | id in s.metaClasses :: id < s.nextMetaId
  }

  /** Every tuple's mapping names a stored class with that tuple. */
  ghost predicate Faithful(s: State) {
    forall a | a in s.currentMapping ::
      s.currentMapping[a] in s.metaClasses && s.metaClasses[s.currentMapping[a]].attrs == a
  }

  lemma ValidFacts(s: State)
    requires Valid(s)
    ensures IdsBelow(s) && Faithful(s)
  {
  }

  /** A new class for `attrs` with classifier `clf`, under the next id. */
  function CreateClass(s: State, attrs: Attrs, clf: int): (r: State)
    ensures r.nextMetaId == s.nextMetaId + 1
    ensures r.metaClasses == s.metaClasses[s.nextMetaId := MetaClass(s.nextMetaId, Some(clf), [clf], attrs)]
    ensures r.currentMapping == s.currentMapping[attrs := s.nextMetaId]
    ensures r.clfToMeta == s.clfToMeta[clf := s.nextMetaId]
    ensures IdsBelow(s) ==> IdsBelow(r) && s.nextMetaId !in s.metaClasses
    ensures Faithful(s) && IdsBelow(s) ==> Faithful(r)
  {
    var id := s.nextMetaId;
    State(
      id + 1,
      s.metaClasses[id := MetaClass(id, Some(clf), [clf], attrs)],
      s.currentMapping[attrs := id],
      s.clfToMeta[clf := id])
  }

  lemma {:induction false} CreateClassValid(s: State, attrs: Attrs, clf: int)
    requires Valid(s)
    ensures Valid(CreateClass(s, attrs, clf))
  {
    var id := s.nextMetaId;
    var r := CreateClass(s, attrs, clf);
    forall id', k | id' in r.metaClasses && 0 <= k < |r.metaClasses[id'].history|
      ensures r.metaClasses[id'].history[k] in r.clfToMeta
    {
      if id' != id {
        assert r.metaClasses[id'] == s.metaClasses[id'];
      }
    }
  }

  // ---------------------------------------------------------------------------
  // Grouping the catalogue
  // ---------------------------------------------------------------------------

  /** Lexicographic order of attribute tuples, component by component in
      Python's string order: the order in which `groupby` yields groups. */
  predicate AttrsLess(a: Attrs, b: Attrs) {
    || Text.StrLess(a.group, b.group)
    || (a.group == b.group && Text.StrLess(a.service, b.service))
    || (a.group == b.group && a.service == b.service && Text.StrLess(a.comp, b.comp))
    || (a.group == b.group && a.service == b.service && a.comp == b.comp && Text.StrLess(a.view, b.view))
  }

  lemma AttrsLessIsStrictTotalOrder()
    ensures Sorting.StrictTotalOrder(AttrsLess)
  {
    Text.StrLessIsStrictTotalOrder();
  }

  function AttrsOf(rows: seq<Row>): set<Attrs> {
    set i | 0 <= i < |rows| :: rows[i].attrs
  }

  function AttrsSeq(rows: seq<Row>): (r: seq<Attrs>)
    ensures Sorting.Elems(r) == AttrsOf(rows)
  {
    var r := seq(|rows|, i requires 0 <= i < |rows| => rows[i].attrs);
    assert forall a | a in AttrsOf(rows) :: a in Sorting.Elems(r) by {
      forall a | a in AttrsOf(rows) ensures a in Sorting.Elems(r) {
        var i :| 0 <= i < |rows| && rows[i].attrs == a;
        assert r[i] == a;
      }
    }
    r
  }

  /** The group keys of the catalogue, each once, in increasing order. */
  function GroupKeys(rows: seq<Row>): (keys: seq<Attrs>)
    ensures Sorting.StrictlySorted(keys, AttrsLess)
    ensures Sorting.Elems(keys) == AttrsOf(rows)
  {
    AttrsLessIsStrictTotalOrder();
    Sorting.SortDistinct(AttrsSeq(rows), AttrsLess)
  }

  /** The position of the first row of group `a`. */
  function FirstIndex(rows: seq<Row>, a: Attrs): (i: nat)
    requires a in AttrsOf(rows)
    ensures i < |rows| && rows[i].attrs == a
    ensures forall j | 0 <= j < i :: rows[j].attrs != a
  {
    if rows[0].attrs == a then 0
    else
      assert a in AttrsOf(rows[1..]) by {
        var k :| 0 <= k < |rows| && rows[k].attrs == a;
        assert rows[1..][k - 1] == rows[k];
      }
      1 + FirstIndex(rows[1..], a)
  }

  /** `group['clf_id'].iloc[0]`: the classifier of the first row of group `a`. */
  function FirstClf(rows: seq<Row>, a: Attrs): int
    requires a in AttrsOf(rows)
  {
    rows[FirstIndex(rows, a)].clf
  }

  /** `group['clf_id']`: the classifiers of the rows of group `a`, in row order. */
  function ClfsOf(rows: seq<Row>, a: Attrs): (r: seq<int>)
    ensures forall c :: c in r <==> exists i | 0 <= i < |rows| :: rows[i].attrs == a && rows[i].clf == c
    ensures a in AttrsOf(rows) ==> |r| > 0 && r[0] == FirstClf(rows, a)
    ensures a !in AttrsOf(rows) ==> r == []
    ensures |r| <= |rows|
  {
    if |rows| == 0 then []
    else
      var rest := ClfsOf(rows[1..], a);
      assert forall i | 1 <= i < |rows| :: rows[i] == rows[1..][i - 1];
      assert AttrsOf(rows) == {rows[0].attrs} + AttrsOf(rows[1..]) by {
        forall b | b in AttrsOf(rows) ensures b in {rows[0].attrs} + AttrsOf(rows[1..]) {
          var i :| 0 <= i < |rows| && rows[i].attrs == b;
          if i > 0 {
            assert rows[1..][i - 1].attrs == b;
          }
        }
      }
      if rows[0].attrs == a then [rows[0].clf] + rest else rest
  }

  /** The classifiers of two runs of rows are those of the first run
      followed by those of the second. With the membership and length
      clauses of `ClfsOf` this fixes the result: one classifier per row of
      the group, in row order, repeats kept. */
  lemma {:induction false} ClfsOfConcat(a: seq<Row>, b: seq<Row>, g: Attrs)
    ensures ClfsOf(a + b, g) == ClfsOf(a, g) + ClfsOf(b, g)
    decreases |a|
  {
    if |a| == 0 {
      assert a + b == b;
    } else {
      assert (a + b)[1..] == a[1..] + b;
      ClfsOfConcat(a[1..], b, g);
    }
  }

  /** Two rows of group `a` name different classifiers. */
  ghost predicate Conflict(rows: seq<Row>, a: Attrs) {
    exists i, j | 0 <= i < |rows| && 0 <= j < |rows| ::
      rows[i].attrs == a && rows[j].attrs == a && rows[i].clf != rows[j].clf
  }

  /** The `len(clf_ids) > 1` test of `initialize_from_catalog` detects
      exactly a conflict. */
  lemma {:induction false} ConflictIffMultipleClfs(rows: seq<Row>, a: Attrs)
    requires a in AttrsOf(rows)
    ensures |Seqs.Unique(ClfsOf(rows, a))| > 1 <==> Conflict(rows, a)
  {
    var clfs := ClfsOf(rows, a);
    Seqs.UniqueMoreThanOne(clfs);
    var f := FirstIndex(rows, a);
    if Conflict(rows, a) {
      var i, j :| 0 <= i < |rows| && 0 <= j < |rows| &&
        rows[i].attrs == a && rows[j].attrs == a && rows[i].clf != rows[j].clf;
      var x := if rows[i].clf != clfs[0] then i else j;
      assert rows[x].clf in clfs;
      var k :| 0 <= k < |clfs| && clfs[k] == rows[x].clf;
    }
    if exists k | 0 <= k < |clfs| :: clfs[k] != clfs[0] {
      var k :| 0 <= k < |clfs| && clfs[k] != clfs[0];
      assert clfs[k] in clfs;
      var i :| 0 <= i < |rows| && rows[i].attrs == a && rows[i].clf == clfs[k];
      assert rows[f].clf == clfs[0];
    }
  }

  // ---------------------------------------------------------------------------
  // initialize_from_catalog
  // ---------------------------------------------------------------------------

  /** The manager after initialising, or the `ValueError` for a group with
      more than one classifier, together with the state the groups before it
      left behind. */
  datatype InitOutcome =
    | Initialized(state: State)
    | MultipleClf(state: State, attrs: Attrs)

  /** The loop over the groups `keys`, in order. */
  function InitGroups(s: State, rows: seq<Row>, keys: seq<Attrs>): (r: InitOutcome)
    requires forall k | 0 <= k < |keys| :: keys[k] in AttrsOf(rows)
    decreases |keys|
  {
    if |keys| == 0 then Initialized(s)
    else
      var clfs := Seqs.Unique(ClfsOf(rows, keys[0]));
      if |clfs| > 1 then MultipleClf(s, keys[0])
      else InitGroups(CreateClass(s, keys[0], clfs[0]), rows, keys[1..])
  }

  function InitializeFromCatalog(s: State, rows: seq<Row>): (r: InitOutcome)
    requires Valid(s)
    ensures Valid(r.state)
  {
    var keys := GroupKeys(rows);
    assert forall k | 0 <= k < |keys| :: keys[k] in AttrsOf(rows) by {
      forall k | 0 <= k < |keys| ensures keys[k] in AttrsOf(rows) {
        assert keys[k] in Sorting.Elems(keys);
      }
    }
    InitGroupsValid(s, rows, keys);
    InitGroups(s, rows, keys)
  }

  lemma {:induction false} InitGroupsValid(s: State, rows: seq<Row>, keys: seq<Attrs>)
    requires Valid(s)
    requires forall k | 0 <= k < |keys| :: keys[k] in AttrsOf(rows)
    ensures Valid(InitGroups(s, rows, keys).state)
    decreases |keys|
  {
    if |keys| > 0 {
      var clfs := Seqs.Unique(ClfsOf(rows, keys[0]));
      if |clfs| <= 1 {
        CreateClassValid(s, keys[0], clfs[0]);
        assert forall k | 1 <= k < |keys| :: keys[k] == keys[1..][k - 1];
        InitGroupsValid(CreateClass(s, keys[0], clfs[0]), rows, keys[1..]);
      }
    }
  }

  lemma SliceShift<T>(s: seq<T>, n: nat)
    requires n < |s|
    ensures s[..n + 1][1..] == s[1..][..n]
  {
  }

  /** No group among `keys` has a conflict. */
  ghost predicate ConflictFree(rows: seq<Row>, keys: seq<Attrs>) {
    forall k | 0 <= k < |keys| :: !Conflict(rows, keys[k])
  }

  lemma {:induction false} ConflictFreeCons(rows: seq<Row>, keys: seq<Attrs>)
    requires |keys| > 0 && !Conflict(rows, keys[0])
    ensures ConflictFree(rows, keys) <==> ConflictFree(rows, keys[1..])
  {
    if ConflictFree(rows, keys[1..]) {
      forall k | 0 <= k < |keys| ensures !Conflict(rows, keys[k]) {
        if k > 0 {
          assert keys[k] == keys[1..][k - 1];
        }
      }
    }
  }

  /** The loop stops with the error exactly when some group has a
      conflict. */
  lemma {:induction false} InitGroupsError(s: State, rows: seq<Row>, keys: seq<Attrs>)
    requires forall k | 0 <= k < |keys| :: keys[k] in AttrsOf(rows)
    ensures InitGroups(s, rows, keys).MultipleClf? <==> !ConflictFree(rows, keys)
    decreases |keys|
  {
    if |keys| > 0 {
      var a := keys[0];
      ConflictIffMultipleClfs(rows, a);
      var clfs := Seqs.Unique(ClfsOf(rows, a));
      if |clfs| <= 1 {
        var s1 := CreateClass(s, a, clfs[0]);
        assert forall k | 1 <= k < |keys| :: keys[k] == keys[1..][k - 1];
        InitGroupsError(s1, rows, keys[1..]);
        ConflictFreeCons(rows, keys);
      }
    }
  }

  /** ... and it stops at the first such group, keeping the state the
      earlier groups built. */
  lemma {:induction false} InitGroupsErrorAt(s: State, rows: seq<Row>, keys: seq<Attrs>)
    requires forall k | 0 <= k < |keys| :: keys[k] in AttrsOf(rows)
    requires InitGroups(s, rows, keys).MultipleClf?
    ensures exists n | 0 <= n < |keys| :: StopsAt(s, rows, keys, n)
    decreases |keys|
  {
    var a := keys[0];
    ConflictIffMultipleClfs(rows, a);
    var clfs := Seqs.Unique(ClfsOf(rows, a));
    var r := InitGroups(s, rows, keys);
    if |clfs| > 1 {
      assert InitGroups(s, rows, keys[..0]) == Initialized(s);
      assert ConflictFree(rows, keys[..0]);
      assert keys[0] == r.attrs && Conflict(rows, keys[0]);
      assert StopsAt(s, rows, keys, 0);
    } else {
      var s1 := CreateClass(s, a, clfs[0]);
      var tail := keys[1..];
      assert forall k | 1 <= k < |keys| :: keys[k] == tail[k - 1];
      InitGroupsErrorAt(s1, rows, tail);
      var n :| 0 <= n < |tail| && StopsAt(s1, rows, tail, n);
      ErrorAtShift(s, rows, keys, n);
    }
  }

  /** Group `n` is the conflict the loop over `keys` stops at. */
  ghost predicate StopsAt(s: State, rows: seq<Row>, keys: seq<Attrs>, n: int)
    requires forall k | 0 <= k < |keys| :: keys[k] in AttrsOf(rows)
    requires InitGroups(s, rows, keys).MultipleClf?
  {
    && 0 <= n < |keys|
    && keys[n] == InitGroups(s, rows, keys).attrs
    && Conflict(rows, keys[n])
    && ConflictFree(rows, keys[..n])
    && InitGroups(s, rows, keys[..n]) == Initialized(InitGroups(s, rows, keys).state)
  }

  /** The inductive step of `InitGroupsErrorAt`: a stop at `n` in the groups
      after a conflict-free first group is a stop at `n + 1`. */
  lemma {:induction false} ErrorAtShift(s: State, rows: seq<Row>, keys: seq<Attrs>, n: int)
    requires forall k | 0 <= k < |keys| :: keys[k] in AttrsOf(rows)
    requires |keys| > 0 && |Seqs.Unique(ClfsOf(rows, keys[0]))| <= 1
    requires !Conflict(rows, keys[0])
    requires var s1 := CreateClass(s, keys[0], Seqs.Unique(ClfsOf(rows, keys[0]))[0]);
             InitGroups(s1, rows, keys[1..]).MultipleClf? && StopsAt(s1, rows, keys[1..], n)
    ensures InitGroups(s, rows, keys).MultipleClf? && StopsAt(s, rows, keys, n + 1)
  {
    var pre := keys[..n + 1];
    SliceShift(keys, n);
    assert pre[0] == keys[0];
    ConflictFreeCons(rows, pre);
  }

  /** Initialising issues one id per group. */
  lemma {:induction false} InitGroupsNext(s: State, rows: seq<Row>, keys: seq<Attrs>)
    requires forall k | 0 <= k < |keys| :: keys[k] in AttrsOf(rows)
    requires InitGroups(s, rows, keys).Initialized?
    ensures InitGroups(s, rows, keys).state.nextMetaId == s.nextMetaId + |keys|
    decreases |keys|
  {
    if |keys| > 0 {
      var clfs := Seqs.Unique(ClfsOf(rows, keys[0]));
      var s1 := CreateClass(s, keys[0], clfs[0]);
      assert forall k | 1 <= k < |keys| :: keys[k] == keys[1..][k - 1];
      InitGroupsNext(s1, rows, keys[1..]);
    }
  }

  /** Initialising keeps every class the state already held, and the
      mapping of every tuple outside `keys`. */
  lemma {:induction false} InitGroupsFrame(s: State, rows: seq<Row>, keys: seq<Attrs>)
    requires IdsBelow(s)
    requires forall k | 0 <= k < |keys| :: keys[k] in AttrsOf(rows)
    ensures var st := InitGroups(s, rows, keys).state;
      && (forall id | id in s.metaClasses :: id in st.metaClasses && st.metaClasses[id] == s.metaClasses[id])
      && (forall a | a in s.currentMapping && a !in keys ::
            a in st.currentMapping && st.currentMapping[a] == s.currentMapping[a])
    decreases |keys|
  {
    if |keys| > 0 {
      var clfs := Seqs.Unique(ClfsOf(rows, keys[0]));
      if |clfs| <= 1 {
        var s1 := CreateClass(s, keys[0], clfs[0]);
        assert forall k | 1 <= k < |keys| :: keys[k] == keys[1..][k - 1];
        var tail := keys[1..];
        InitGroupsFrame(s1, rows, tail);
        assert InitGroups(s, rows, keys) == InitGroups(s1, rows, tail);
        forall a | a in s.currentMapping && a !in keys
          ensures a in s1.currentMapping && s1.currentMapping[a] == s.currentMapping[a] && a !in tail
        {
          assert a != keys[0];
        }
        forall id | id in s.metaClasses
          ensures id in s1.metaClasses && s1.metaClasses[id] == s.metaClasses[id]
        {
          assert id != s.nextMetaId;
        }
      }
    }
  }

  /** The tail of a list of distinct group keys is again one. */
  lemma TailFacts(rows: seq<Row>, keys: seq<Attrs>)
    requires |keys| > 0
    requires forall k | 0 <= k < |keys| :: keys[k] in AttrsOf(rows)
    requires forall k, j | 0 <= k < j < |keys| :: keys[k] != keys[j]
    ensures forall k | 0 <= k < |keys[1..]| :: keys[1..][k] in AttrsOf(rows)
    ensures forall k, j | 0 <= k < j < |keys[1..]| :: keys[1..][k] != keys[1..][j]
    ensures keys[0] !in keys[1..]
  {
  }

  /** Without a conflict, the `i`-th group gets the id `nextMetaId + i`, a
      class holding its first classifier, and the mapping to it. */
  lemma {:induction false} InitGroupsAssigns(s: State, rows: seq<Row>, keys: seq<Attrs>, i: nat)
    requires IdsBelow(s)
    requires forall k | 0 <= k < |keys| :: keys[k] in AttrsOf(rows)
    requires forall k, j | 0 <= k < j < |keys| :: keys[k] != keys[j]
    requires InitGroups(s, rows, keys).Initialized?
    requires i < |keys|
    ensures var st := InitGroups(s, rows, keys).state;
      && keys[i] in st.currentMapping
      && st.currentMapping[keys[i]] == s.nextMetaId + i
      && s.nextMetaId + i in st.metaClasses
      && st.metaClasses[s.nextMetaId + i] ==
           MetaClass(s.nextMetaId + i, Some(FirstClf(rows, keys[i])), [FirstClf(rows, keys[i])], keys[i])
    decreases |keys|
  {
    if i == 0 {
      InitGroupsAssignsFirst(s, rows, keys);
    } else {
      var clfs := Seqs.Unique(ClfsOf(rows, keys[0]));
      var s1 := CreateClass(s, keys[0], clfs[0]);
      var tail := keys[1..];
      TailFacts(rows, keys);
      assert InitGroups(s, rows, keys) == InitGroups(s1, rows, tail);
      InitGroupsAssigns(s1, rows, tail, i - 1);
      assert keys[i] == tail[i - 1];
      assert s1.nextMetaId + (i - 1) == s.nextMetaId + i;
    }
  }

  lemma {:induction false} InitGroupsAssignsFirst(s: State, rows: seq<Row>, keys: seq<Attrs>)
    requires IdsBelow(s)
    requires forall k | 0 <= k < |keys| :: keys[k] in AttrsOf(rows)
    requires forall k, j | 0 <= k < j < |keys| :: keys[k] != keys[j]
    requires |keys| > 0 && InitGroups(s, rows, keys).Initialized?
    ensures var st := InitGroups(s, rows, keys).state;
      && keys[0] in st.currentMapping
      && st.currentMapping[keys[0]] == s.nextMetaId
      && s.nextMetaId in st.metaClasses
      && st.metaClasses[s.nextMetaId] ==
           MetaClass(s.nextMetaId, Some(FirstClf(rows, keys[0])), [FirstClf(rows, keys[0])], keys[0])
  {
    var a := keys[0];
    var clfs := Seqs.Unique(ClfsOf(rows, a));
    var s1 := CreateClass(s, a, clfs[0]);
    var tail := keys[1..];
    TailFacts(rows, keys);
    assert InitGroups(s, rows, keys) == InitGroups(s1, rows, tail);
    var st := InitGroups(s1, rows, tail).state;
    var id := s.nextMetaId;
    InitGroupsFrame(s1, rows, tail);
    assert clfs[0] == FirstClf(rows, a);
    var m := MetaClass(id, Some(clfs[0]), [clfs[0]], a);
    assert id in s1.metaClasses && s1.metaClasses[id] == m;
    assert id in st.metaClasses && st.metaClasses[id] == m;
  }

  // ---------------------------------------------------------------------------
  // update_from_new_catalog
  // ---------------------------------------------------------------------------

  datatype ChangeType = Replaced | Created

  /** One row of the returned change table. */
  datatype Change = Change(changeType: ChangeType, metaId: nat, attrs: Attrs)

  /** The manager after an update and the changes it reports. */
  datatype Updated = Updated(state: State, changes: seq<Change>)

  /** `new_attributes_map`: each group of the new catalogue with the
      classifier of its first row. */
  function NewAttributesMap(rows: seq<Row>): (m: map<Attrs, int>)
    ensures m.Keys == AttrsOf(rows)
    ensures forall a | a in m :: m[a] == FirstClf(rows, a)
  {
    map a | a in AttrsOf(rows) :: FirstClf(rows, a)
  }

  /** The first loop: the classes of tuples missing from `keep` lose their
      current classifier. */
  function ClearMissing(s: State, keep: set<Attrs>): (r: State)
    requires Faithful(s)
    ensures r.nextMetaId == s.nextMetaId && r.currentMapping == s.currentMapping && r.clfToMeta == s.clfToMeta
    ensures r.metaClasses.Keys == s.metaClasses.Keys
    ensures forall id | id in s.metaClasses ::
      r.metaClasses[id] == s.metaClasses[id] || r.metaClasses[id] == s.metaClasses[id].(currentClf := None)
    ensures forall a | a in s.currentMapping && a !in keep ::
      r.metaClasses[s.currentMapping[a]] == s.metaClasses[s.currentMapping[a]].(currentClf := None)
    ensures forall a | a in s.currentMapping && a in keep ::
      r.metaClasses[s.currentMapping[a]] == s.metaClasses[s.currentMapping[a]]
  {
    var gone := set a | a in s.currentMapping && a !in keep :: s.currentMapping[a];
    s.(metaClasses := map id | id in s.metaClasses ::
      if id in gone then s.metaClasses[id].(currentClf := None) else s.metaClasses[id])
  }

  lemma {:induction false} ClearMissingValid(s: State, keep: set<Attrs>)
    requires Valid(s)
    ensures Valid(ClearMissing(s, keep))
  {
    var r := ClearMissing(s, keep);
    forall id | id in r.metaClasses ensures r.metaClasses[id].history == s.metaClasses[id].history {
    }
  }

  /** One pass of the second loop, for tuple `a` with new classifier `clf`. */
  function Step(s: State, a: Attrs, clf: int): (r: Updated)
    requires Faithful(s) && IdsBelow(s)
    ensures Faithful(r.state) && IdsBelow(r.state)
    ensures r.state.nextMetaId >= s.nextMetaId
    ensures s.metaClasses.Keys <= r.state.metaClasses.Keys
    ensures |r.changes| <= 1 && forall i | 0 <= i < |r.changes| :: r.changes[i].attrs == a
  {
    if a in s.currentMapping then
      var id := s.currentMapping[a];
      var m := s.metaClasses[id];
      if m.currentClf != Some(clf) then
        var m' := m.(currentClf := Some(clf), history := m.history + [clf]);
        Updated(s.(metaClasses := s.metaClasses[id := m'], clfToMeta := s.clfToMeta[clf := id]),
                [Change(Replaced, id, a)])
      else Updated(s, [])
    else
      var id := s.nextMetaId;
      Updated(CreateClass(s, a, clf), [Change(Created, id, a)])
  }

  lemma {:induction false} StepValid(s: State, a: Attrs, clf: int)
    requires Valid(s)
    ensures Valid(Step(s, a, clf).state)
  {
    if a in s.currentMapping {
      var id := s.currentMapping[a];
      var m := s.metaClasses[id];
      if m.currentClf != Some(clf) {
        var m' := m.(currentClf := Some(clf), history := m.history + [clf]);
        var r := Step(s, a, clf).state;
        assert r.metaClasses == s.metaClasses[id := m'];
        forall id', k | id' in r.metaClasses && 0 <= k < |r.metaClasses[id'].history|
          ensures r.metaClasses[id'].history[k] in r.clfToMeta
        {
          if id' != id {
            assert r.metaClasses[id'] == s.metaClasses[id'];
          } else if k < |m.history| {
            assert m'.history[k] == m.history[k];
          }
        }
        forall c | c in r.clfToMeta
          ensures r.clfToMeta[c] in r.metaClasses && c in r.metaClasses[r.clfToMeta[c]].history
        {
          if c != clf {
            var owner := s.clfToMeta[c];
            assert c in s.metaClasses[owner].history;
            if owner == id {
              var k :| 0 <= k < |m.history| && m.history[k] == c;
              assert m'.history[k] == c;
            }
          } else {
            assert m'.history[|m.history|] == clf;
          }
        }
      }
    } else {
      CreateClassValid(s, a, clf);
    }
  }

  /** One pass leaves every other tuple's mapping and class alone. */
  lemma {:induction false} StepFrame(s: State, a: Attrs, clf: int, b: Attrs)
    requires Faithful(s) && IdsBelow(s)
    requires b != a
    ensures var r := Step(s, a, clf).state;
      && (b in r.currentMapping <==> b in s.currentMapping)
      && (b in s.currentMapping ==>
            r.currentMapping[b] == s.currentMapping[b]
            && r.metaClasses[s.currentMapping[b]] == s.metaClasses[s.currentMapping[b]])
  {
    if b in s.currentMapping && a in s.currentMapping {
      assert s.metaClasses[s.currentMapping[b]].attrs == b;
      assert s.metaClasses[s.currentMapping[a]].attrs == a;
    }
  }

  /** The second loop, over the new tuples in the order `order`. */
  function ApplyAll(s: State, newMap: map<Attrs, int>, order: seq<Attrs>): (r: Updated)
    requires Faithful(s) && IdsBelow(s)
    requires forall k | 0 <= k < |order| :: order[k] in newMap
    ensures Faithful(r.state) && IdsBelow(r.state)
    ensures r.state.nextMetaId >= s.nextMetaId
    ensures s.metaClasses.Keys <= r.state.metaClasses.Keys
    decreases |order|
  {
    if |order| == 0 then Updated(s, [])
    else
      var first := Step(s, order[0], newMap[order[0]]);
      var rest := ApplyAll(first.state, newMap, order[1..]);
      Updated(rest.state, first.changes + rest.changes)
  }

  lemma {:induction false} ApplyAllValid(s: State, newMap: map<Attrs, int>, order: seq<Attrs>)
    requires Valid(s)
    requires forall k | 0 <= k < |order| :: order[k] in newMap
    ensures Valid(ApplyAll(s, newMap, order).state)
    decreases |order|
  {
    if |order| > 0 {
      StepValid(s, order[0], newMap[order[0]]);
      ApplyAllValid(Step(s, order[0], newMap[order[0]]).state, newMap, order[1..]);
    }
  }

  /** Tuples the loop does not visit keep their mapping and class. */
  lemma {:induction false} ApplyAllFrame(s: State, newMap: map<Attrs, int>, order: seq<Attrs>, b: Attrs)
    requires Faithful(s) && IdsBelow(s)
    requires forall k | 0 <= k < |order| :: order[k] in newMap
    requires b !in order
    ensures var r := ApplyAll(s, newMap, order).state;
      && (b in r.currentMapping <==> b in s.currentMapping)
      && (b in s.currentMapping ==>
            r.currentMapping[b] == s.currentMapping[b]
            && r.metaClasses[s.currentMapping[b]] == s.metaClasses[s.currentMapping[b]])
    decreases |order|
  {
    if |order| > 0 {
      StepFrame(s, order[0], newMap[order[0]], b);
      ApplyAllFrame(Step(s, order[0], newMap[order[0]]).state, newMap, order[1..], b);
    }
  }

  /** Each change names one of `order`'s tuples. */
  ghost predicate ChangesWithin(ch: seq<Change>, order: seq<Attrs>) {
    forall i | 0 <= i < |ch| :: ch[i].attrs in order
  }

  /** No tuple is reported twice. */
  ghost predicate ChangesDistinct(ch: seq<Change>) {
    forall i, j | 0 <= i < j < |ch| :: ch[i].attrs != ch[j].attrs
  }

  lemma {:induction false} ChangesCons(c1: seq<Change>, c2: seq<Change>, order: seq<Attrs>)
    requires |order| > 0 && order[0] !in order[1..]
    requires |c1| <= 1 && forall i | 0 <= i < |c1| :: c1[i].attrs == order[0]
    requires ChangesWithin(c2, order[1..]) && ChangesDistinct(c2)
    ensures ChangesWithin(c1 + c2, order) && ChangesDistinct(c1 + c2)
  {
    var ch := c1 + c2;
    var tail := order[1..];
    forall i | 0 <= i < |ch| ensures ch[i].attrs in order {
      if i >= |c1| {
        assert ch[i] == c2[i - |c1|];
        var k :| 0 <= k < |tail| && tail[k] == ch[i].attrs;
        assert order[k + 1] == tail[k];
      } else {
        assert ch[i] == c1[i];
      }
    }
    forall i, j | 0 <= i < j < |ch| ensures ch[i].attrs != ch[j].attrs {
      assert ch[j] == c2[j - |c1|];
      if i >= |c1| {
        assert ch[i] == c2[i - |c1|];
      } else {
        assert ch[i] == c1[i];
        assert ch[j].attrs in tail;
      }
    }
  }

  /** Each reported change names a visited tuple, and no tuple twice. */
  lemma {:induction false} ApplyAllChanges(s: State, newMap: map<Attrs, int>, order: seq<Attrs>)
    requires Faithful(s) && IdsBelow(s)
    requires forall k | 0 <= k < |order| :: order[k] in newMap
    requires forall i, j | 0 <= i < j < |order| :: order[i] != order[j]
    ensures ChangesWithin(ApplyAll(s, newMap, order).changes, order)
    ensures ChangesDistinct(ApplyAll(s, newMap, order).changes)
    decreases |order|
  {
    if |order| > 0 {
      var first := Step(s, order[0], newMap[order[0]]);
      var tail := order[1..];
      assert forall i, j | 0 <= i < j < |tail| :: tail[i] != tail[j] by {
        forall i, j | 0 <= i < j < |tail| ensures tail[i] != tail[j] {
          assert tail[i] == order[i + 1] && tail[j] == order[j + 1];
        }
      }
      assert forall k | 0 <= k < |tail| :: tail[k] in newMap by {
        forall k | 0 <= k < |tail| ensures tail[k] in newMap {
          assert tail[k] == order[k + 1];
        }
      }
      ApplyAllChanges(first.state, newMap, tail);
      var rest := ApplyAll(first.state, newMap, tail);
      forall k | 0 <= k < |tail| ensures tail[k] != order[0] {
        assert tail[k] == order[k + 1];
      }
      ChangesCons(first.changes, rest.changes, order);
    }
  }

  /** What the loop does to a visited tuple `a`: an existing class whose
      classifier changed gets it appended and reports one replacement; an
      unchanged one is left alone and reported nowhere; a new tuple gets a
      fresh class and reports one creation. */
  ghost predicate VisitEffect(s: State, r: Updated, a: Attrs, clf: int)
    requires Faithful(s)
  {
    if a in s.currentMapping then
      var id := s.currentMapping[a];
      var m := s.metaClasses[id];
      && a in r.state.currentMapping && r.state.currentMapping[a] == id
      && id in r.state.metaClasses
      && (if m.currentClf != Some(clf) then
            && r.state.metaClasses[id] == m.(currentClf := Some(clf), history := m.history + [clf])
            && Change(Replaced, id, a) in r.changes
          else
            && r.state.metaClasses[id] == m
            && forall i | 0 <= i < |r.changes| :: r.changes[i].attrs != a)
    else
      && a in r.state.currentMapping
      && var id := r.state.currentMapping[a];
      && id >= s.nextMetaId
      && id in r.state.metaClasses
      && r.state.metaClasses[id] == MetaClass(id, Some(clf), [clf], a)
      && Change(Created, id, a) in r.changes
  }

  lemma {:induction false} StepEffect(s: State, a: Attrs, clf: int)
    requires Faithful(s) && IdsBelow(s)
    ensures VisitEffect(s, Step(s, a, clf), a, clf)
  {
  }

  /** A visit is not undone by the visits of the other tuples after it. */
  lemma {:induction false} VisitEffectKept(s: State, mid: Updated, newMap: map<Attrs, int>, tail: seq<Attrs>, a: Attrs, clf: int)
    requires Faithful(s) && IdsBelow(s) && Faithful(mid.state) && IdsBelow(mid.state)
    requires forall k | 0 <= k < |tail| :: tail[k] in newMap
    requires forall i, j | 0 <= i < j < |tail| :: tail[i] != tail[j]
    requires a !in tail
    requires VisitEffect(s, mid, a, clf)
    requires mid.state.nextMetaId >= s.nextMetaId
    ensures VisitEffect(s, Updated(ApplyAll(mid.state, newMap, tail).state, mid.changes + ApplyAll(mid.state, newMap, tail).changes), a, clf)
  {
    var rest := ApplyAll(mid.state, newMap, tail);
    ApplyAllFrame(mid.state, newMap, tail, a);
    ApplyAllChanges(mid.state, newMap, tail);
    var ch := mid.changes + rest.changes;
    var id := mid.state.currentMapping[a];
    assert mid.state.metaClasses[id].attrs == a;
    forall i | 0 <= i < |ch| && i >= |mid.changes| ensures ch[i].attrs != a {
      assert ch[i] == rest.changes[i - |mid.changes|];
    }
    forall c | c in mid.changes ensures c in ch {
      var i :| 0 <= i < |mid.changes| && mid.changes[i] == c;
      assert ch[i] == c;
    }
  }

  /** The effect of the whole loop on each visited tuple. */
  lemma {:induction false} ApplyAllEffect(s: State, newMap: map<Attrs, int>, order: seq<Attrs>, a: Attrs)
    requires Faithful(s) && IdsBelow(s)
    requires forall k | 0 <= k < |order| :: order[k] in newMap
    requires forall i, j | 0 <= i < j < |order| :: order[i] != order[j]
    requires a in order
    ensures VisitEffect(s, ApplyAll(s, newMap, order), a, newMap[a])
    decreases |order|
  {
    var first := Step(s, order[0], newMap[order[0]]);
    var tail := order[1..];
    var rest := ApplyAll(first.state, newMap, tail);
    assert ApplyAll(s, newMap, order) == Updated(rest.state, first.changes + rest.changes);
    if a == order[0] {
      StepEffect(s, a, newMap[a]);
      VisitEffectKept(s, first, newMap, tail, a, newMap[a]);
    } else {
      assert a in tail;
      ApplyAllEffect(first.state, newMap, tail, a);
      StepFrame(s, order[0], newMap[order[0]], a);
      ShiftEffect(s, first, rest, a, newMap[a]);
    }
  }

  /** An earlier visit of another tuple does not change what a later visit
      of `a` amounts to, seen from the state before both. */
  lemma {:induction false} ShiftEffect(s: State, first: Updated, rest: Updated, a: Attrs, clf: int)
    requires Faithful(s) && IdsBelow(s)
    requires first.state.nextMetaId >= s.nextMetaId
    requires forall i | 0 <= i < |first.changes| :: first.changes[i].attrs != a
    requires Faithful(first.state)
    requires s.metaClasses.Keys <= first.state.metaClasses.Keys
    requires a in first.state.currentMapping <==> a in s.currentMapping
    requires a in s.currentMapping ==>
      first.state.currentMapping[a] == s.currentMapping[a]
      && first.state.metaClasses[s.currentMapping[a]] == s.metaClasses[s.currentMapping[a]]
    requires VisitEffect(first.state, rest, a, clf)
    ensures VisitEffect(s, Updated(rest.state, first.changes + rest.changes), a, clf)
  {
    var ch := first.changes + rest.changes;
    forall c | c in rest.changes ensures c in ch {
      var i :| 0 <= i < |rest.changes| && rest.changes[i] == c;
      assert ch[|first.changes| + i] == c;
    }
    forall i | 0 <= i < |ch| && i >= |first.changes| ensures ch[i] == rest.changes[i - |first.changes|] {
    }
  }

  /** `update_from_new_catalog`. `order` is the order in which the Python
      set of new tuples happens to be iterated. */
  function UpdateFromNewCatalog(s: State, rows: seq<Row>, order: seq<Attrs>): (r: Updated)
    requires Valid(s)
    requires Sorting.Elems(order) == AttrsOf(rows)
    requires forall i, j | 0 <= i < j < |order| :: order[i] != order[j]
    ensures Valid(r.state)
  {
    var newMap := NewAttributesMap(rows);
    assert forall k | 0 <= k < |order| :: order[k] in newMap by {
      forall k | 0 <= k < |order| ensures order[k] in newMap {
        assert order[k] in Sorting.Elems(order);
      }
    }
    ClearMissingValid(s, newMap.Keys);
    ApplyAllValid(ClearMissing(s, newMap.Keys), newMap, order);
    ApplyAll(ClearMissing(s, newMap.Keys), newMap, order)
  }

  /** A tuple missing from the new catalogue keeps its mapping and class,
      which loses its current classifier. */
  lemma {:induction false} UpdateMissing(s: State, rows: seq<Row>, order: seq<Attrs>, a: Attrs)
    requires Valid(s)
    requires Sorting.Elems(order) == AttrsOf(rows)
    requires forall i, j | 0 <= i < j < |order| :: order[i] != order[j]
    requires a in s.currentMapping && a !in AttrsOf(rows)
    ensures var r := UpdateFromNewCatalog(s, rows, order);
      var id := s.currentMapping[a];
      && a in r.state.currentMapping && r.state.currentMapping[a] == id
      && r.state.metaClasses[id] == s.metaClasses[id].(currentClf := None)
      && ChangesWithin(r.changes, order) && a !in order
  {
    var newMap := NewAttributesMap(rows);
    var c := ClearMissing(s, newMap.Keys);
    assert forall k | 0 <= k < |order| :: order[k] in newMap by {
      forall k | 0 <= k < |order| ensures order[k] in newMap {
        assert order[k] in Sorting.Elems(order);
      }
    }
    assert a !in order;
    ApplyAllFrame(c, newMap, order, a);
    ApplyAllChanges(c, newMap, order);
  }

  /** A tuple still present gets, from the whole update, exactly what one
      visit gives it: see `VisitEffect`. No tuple is reported twice. */
  lemma {:induction false} UpdatePresent(s: State, rows: seq<Row>, order: seq<Attrs>, a: Attrs)
    requires Valid(s)
    requires Sorting.Elems(order) == AttrsOf(rows)
    requires forall i, j | 0 <= i < j < |order| :: order[i] != order[j]
    requires a in AttrsOf(rows)
    ensures VisitEffect(s, UpdateFromNewCatalog(s, rows, order), a, FirstClf(rows, a))
    ensures ChangesDistinct(UpdateFromNewCatalog(s, rows, order).changes)
  {
    var newMap := NewAttributesMap(rows);
    var c := ClearMissing(s, newMap.Keys);
    assert forall k | 0 <= k < |order| :: order[k] in newMap by {
      forall k | 0 <= k < |order| ensures order[k] in newMap {
        assert order[k] in Sorting.Elems(order);
      }
    }
    assert a in Sorting.Elems(order);
    ClearMissingValid(s, newMap.Keys);
    ValidFacts(c);
    ApplyAllEffect(c, newMap, order, a);
    ApplyAllChanges(c, newMap, order);
    if a in s.currentMapping {
      assert c.currentMapping[a] == s.currentMapping[a];
      assert c.metaClasses[s.currentMapping[a]] == s.metaClasses[s.currentMapping[a]];
    }
  }

  /** After a visit the tuple's class has `clf` as its current classifier,
      so in a valid state `clf` is registered in `clfToMeta`. */
  lemma {:induction false} VisitRegisters(s: State, r: Updated, a: Attrs, clf: int)
    requires Valid(s) && Valid(r.state)
    requires VisitEffect(s, r, a, clf)
    ensures clf in r.state.clfToMeta
  {
    var id := r.state.currentMapping[a];
    var m := r.state.metaClasses[id];
    assert m.currentClf == Some(clf);
    assert ClassOk(id, m);
    assert m.history[|m.history| - 1] == clf;
  }

  /** The present tuple's new classifier is registered after the update. */
  lemma {:induction false} UpdateRegisters(s: State, rows: seq<Row>, order: seq<Attrs>, a: Attrs)
    requires Valid(s)
    requires Sorting.Elems(order) == AttrsOf(rows)
    requires forall i, j | 0 <= i < j < |order| :: order[i] != order[j]
    requires a in AttrsOf(rows)
    ensures FirstClf(rows, a) in UpdateFromNewCatalog(s, rows, order).state.clfToMeta
  {
    UpdatePresent(s, rows, order, a);
    VisitRegisters(s, UpdateFromNewCatalog(s, rows, order), a, FirstClf(rows, a));
  }

  // ---------------------------------------------------------------------------
  // get_meta_class_by_clf
  // ---------------------------------------------------------------------------

  function GetMetaClassByClf(s: State, clf: int): (r: Option<nat>)
    requires Valid(s)
    ensures r.Some? ==> r.value in s.metaClasses && clf in s.metaClasses[r.value].history
    ensures r.None? <==> forall id | id in s.metaClasses :: clf !in s.metaClasses[id].history
  {
    if clf in s.clfToMeta then Some(s.clfToMeta[clf])
    else
      None
  }
}

=== FILE: meta_titles.dfy ===
/** The last `MetaClassManager` of meta.py: meta classes keyed by title.
    `init_active` groups the available catalogue rows by their title
    (`service|comp|view` titles) and lists each group's class keys
    (`service|comp|view` ids); `handle_inactive` then merges the unavailable
    rows into that table. The table is a sequence of rows, the catalogue a
    set of column names and a sequence of rows, and `uuid5` a parameter. */
module MetaTitles {
  import opened Wrappers
  import Sorting
  import Text

  datatype CatalogRow = CatalogRow(
    serviceTitle: string, compTitle: string, viewTitle: string,
    serviceId: int, compId: int, viewId: int,
    available: bool)

  datatype Catalog = Catalog(columns: set<string>, rows: seq<CatalogRow>)

  /** One row of `meta_df`: uuid, title, nested_classes, available. */
  datatype MetaRow = MetaRow(uuid: string, title: string, nested: seq<string>, available: bool)

  /** The columns `init_active` insists on, in the order it lists them. */
  const RequiredColumns: seq<string> :=
    ["service_title", "comp_title", "view_title", "service_id", "comp_id", "view_id", "available"]

  // ---------------------------------------------------------------------------
  // _class_key and _title
  // ---------------------------------------------------------------------------

  function Bar3(a: string, b: string, c: string): string {
    a + "|" + b + "|" + c
  }

  /** `_class_key`: the three ids joined by bars. */
  function ClassKey(r: CatalogRow): string {
    Bar3(Text.IntToString(r.serviceId), Text.IntToString(r.compId), Text.IntToString(r.viewId))
  }

  /** `_title`: the three titles joined by bars. */
  function Title(r: CatalogRow): string {
    Bar3(r.serviceTitle, r.compTitle, r.viewTitle)
  }

  /** A bar after a bar-free prefix pins down where the prefix ends. */
  lemma {:induction false} SplitAtBar(x: string, y: string, x': string, y': string)
    requires '|' !in x && '|' !in x'
    requires x + "|" + y == x' + "|" + y'
    ensures x == x' && y == y'
  {
    var w := x + "|" + y;
    // Both prefixes end at the first bar of `w`.
    assert w[|x|] == '|' && w[|x'|] == '|';
    assert forall k | 0 <= k < |x| :: w[k] == x[k];
    assert forall k | 0 <= k < |x'| :: w[k] == x'[k];
    assert |x| == |x'|;
    assert x == w[..|x|];
    assert x' == w[..|x'|];
    assert y == w[|x| + 1..];
    assert y' == w[|x'| + 1..];
  }

  /** Joining bar-free parts by bars can be undone. */
  lemma {:induction false} Bar3Injective(a: string, b: string, c: string, a': string, b': string, c': string)
    requires '|' !in a && '|' !in b && '|' !in a' && '|' !in b'
    requires Bar3(a, b, c) == Bar3(a', b', c')
    ensures a == a' && b == b' && c == c'
  {
    assert Bar3(a, b, c) == a + "|" + (b + "|" + c);
    assert Bar3(a', b', c') == a' + "|" + (b' + "|" + c');
    SplitAtBar(a, b + "|" + c, a', b' + "|" + c');
    SplitAtBar(b, c, b', c');
  }

  lemma NoBarInInt(n: int)
    ensures '|' !in Text.IntToString(n)
  {
  }

  /** Different id triples give different class keys. */
  lemma {:induction false} ClassKeyInjective(r: CatalogRow, r': CatalogRow)
    requires ClassKey(r) == ClassKey(r')
    ensures r.serviceId == r'.serviceId && r.compId == r'.compId && r.viewId == r'.viewId
  {
    NoBarInInt(r.serviceId);
    NoBarInInt(r.compId);
    NoBarInInt(r'.serviceId);
    NoBarInInt(r'.compId);
    Bar3Injective(
      Text.IntToString(r.serviceId), Text.IntToString(r.compId), Text.IntToString(r.viewId),
      Text.IntToString(r'.serviceId), Text.IntToString(r'.compId), Text.IntToString(r'.viewId));
    Text.IntToStringInjective(r.serviceId, r'.serviceId);
    Text.IntToStringInjective(r.compId, r'.compId);
    Text.IntToStringInjective(r.viewId, r'.viewId);
  }

  /** Titles without bars in their first two parts identify the triple... */
  lemma {:induction false} TitleInjective(r: CatalogRow, r': CatalogRow)
    requires '|' !in r.serviceTitle && '|' !in r.compTitle
    requires '|' !in r'.serviceTitle && '|' !in r'.compTitle
    requires Title(r) == Title(r')
    ensures r.serviceTitle == r'.serviceTitle && r.compTitle == r'.compTitle && r.viewTitle == r'.viewTitle
  {
    Bar3Injective(r.serviceTitle, r.compTitle, r.viewTitle, r'.serviceTitle, r'.compTitle, r'.viewTitle);
  }

  /** ... but a bar inside a title lets two different triples share a title,
      and so a group. */
  lemma TitlesCanCollide()
    ensures var r := CatalogRow("a|b", "c", "d", 1, 1, 1, true);
      var r' := CatalogRow("a", "b|c", "d", 2, 2, 2, true);
      && Title(r) == Title(r')
      && r.serviceTitle != r'.serviceTitle
      && ClassKey(r) != ClassKey(r')
  {
    var r := CatalogRow("a|b", "c", "d", 1, 1, 1, true);
    var r' := CatalogRow("a", "b|c", "d", 2, 2, 2, true);
    assert Title(r) == "a|b|c|d";
    assert Title(r') == "a|b|c|d";
    if ClassKey(r) == ClassKey(r') {
      ClassKeyInjective(r, r');
    }
  }

  // ---------------------------------------------------------------------------
  // init_active
  // ---------------------------------------------------------------------------

  /** The `ValueError` of a catalogue lacking columns, with their sorted names. */
  datatype InitError = MissingColumns(names: seq<string>)

  function Missing(columns: set<string>): seq<string> {
    Text.SortedStrings(Filter(RequiredColumns, columns))
  }

  function Filter(names: seq<string>, present: set<string>): (r: seq<string>)
    ensures Sorting.Elems(r) == Sorting.Elems(names) - present
    ensures |r| == 0 <==> forall i | 0 <= i < |names| :: names[i] in present
  {
    if |names| == 0 then []
    else
      var rest := Filter(names[1..], present);
      assert Sorting.Elems(names) == {names[0]} + Sorting.Elems(names[1..]);
      assert forall i | 1 <= i < |names| :: names[i] == names[1..][i - 1];
      if names[0] in present then rest
      else
        assert Sorting.Elems([names[0]] + rest) == {names[0]} + Sorting.Elems(rest);
        [names[0]] + rest
  }

  /** The message of the error: the names as a Python list. */
  function Message(e: InitError): string {
    "Отсутствуют колонки в catalog: "
      + "[" + Text.Join(", ", Quoted(e.names)) + "]"
  }

  function Quoted(names: seq<string>): (r: seq<string>)
    ensures |r| == |names|
    ensures forall i | 0 <= i < |r| :: r[i] == "'" + names[i] + "'"
  {
    if |names| == 0 then [] else ["'" + names[0] + "'"] + Quoted(names[1..])
  }

  /** The class keys of the available rows titled `t`, in row order. */
  function KeysWithTitle(rows: seq<CatalogRow>, t: string): (r: seq<string>)
    ensures forall x :: x in r <==> exists j | 0 <= j < |rows| ::
      rows[j].available && Title(rows[j]) == t && ClassKey(rows[j]) == x
    ensures |r| <= |rows|
  {
    if |rows| == 0 then []
    else
      var rest := KeysWithTitle(rows[1..], t);
      assert forall j | 1 <= j < |rows| :: rows[j] == rows[1..][j - 1];
      assert forall x :: x in rest <==> exists j | 1 <= j < |rows| ::
        rows[j].available && Title(rows[j]) == t && ClassKey(rows[j]) == x by {
        forall x ensures x in rest <==> exists j | 1 <= j < |rows| ::
          rows[j].available && Title(rows[j]) == t && ClassKey(rows[j]) == x {
          if x in rest {
            var j :| 0 <= j < |rows[1..]| && rows[1..][j].available && Title(rows[1..][j]) == t
              && ClassKey(rows[1..][j]) == x;
            assert rows[j + 1] == rows[1..][j];
          }
        }
      }
      if rows[0].available && Title(rows[0]) == t then [ClassKey(rows[0])] + rest else rest
  }

  /** The keys are collected row by row: those of a concatenation are the
      keys of the first part followed by those of the second. With the
      membership and length clauses of `KeysWithTitle` this fixes the result
      completely: one key per matching row, in row order, repeats kept. */
  lemma {:induction false} KeysWithTitleConcat(a: seq<CatalogRow>, b: seq<CatalogRow>, t: string)
    ensures KeysWithTitle(a + b, t) == KeysWithTitle(a, t) + KeysWithTitle(b, t)
    decreases |a|
  {
    if |a| == 0 {
      assert a + b == b;
    } else {
      assert (a + b)[1..] == a[1..] + b;
      KeysWithTitleConcat(a[1..], b, t);
    }
  }

  /** The titles of a table. */
  function TitlesOf(table: seq<MetaRow>): set<string> {
    set i | 0 <= i < |table| :: table[i].title
  }

  /** The titles of the available rows. */
  function ActiveTitleSet(rows: seq<CatalogRow>): set<string> {
    set j | 0 <= j < |rows| && rows[j].available :: Title(rows[j])
  }

  /** The titles of the available rows, as a list. */
  function ActiveTitles(rows: seq<CatalogRow>): (r: seq<string>)
    ensures Sorting.Elems(r) == ActiveTitleSet(rows)
    ensures (forall j | 0 <= j < |rows| :: !rows[j].available) ==> r == []
  {
    if |rows| == 0 then []
    else
      var rest := ActiveTitles(rows[1..]);
      assert forall j | 1 <= j < |rows| :: rows[j] == rows[1..][j - 1];
      assert ActiveTitleSet(rows[1..]) == set j | 1 <= j < |rows| && rows[j].available :: Title(rows[j]) by {
        forall t | t in ActiveTitleSet(rows[1..])
          ensures t in set j | 1 <= j < |rows| && rows[j].available :: Title(rows[j])
        {
          var j :| 0 <= j < |rows[1..]| && rows[1..][j].available && Title(rows[1..][j]) == t;
          assert rows[j + 1] == rows[1..][j];
        }
      }
      if rows[0].available then
        assert Sorting.Elems([Title(rows[0])] + rest) == {Title(rows[0])} + Sorting.Elems(rest);
        [Title(rows[0])] + rest
      else rest
  }

  /** The meta classes of the given titles, in their order. */
  function Group(titles: seq<string>, rows: seq<CatalogRow>, uuidFor: string -> string): (table: seq<MetaRow>)
    ensures |table| == |titles|
    ensures forall i | 0 <= i < |table| ::
      table[i] == MetaRow(uuidFor(titles[i]), titles[i], KeysWithTitle(rows, titles[i]), true)
    ensures TitlesOf(table) == Sorting.Elems(titles)
  {
    var table := seq(|titles|, i requires 0 <= i < |titles| =>
      MetaRow(uuidFor(titles[i]), titles[i], KeysWithTitle(rows, titles[i]), true));
    assert forall i | 0 <= i < |titles| :: titles[i] in Sorting.Elems(titles);
    assert TitlesOf(table) == Sorting.Elems(titles) by {
      forall t | t in Sorting.Elems(titles) ensures t in TitlesOf(table) {
        var i :| 0 <= i < |titles| && titles[i] == t;
        assert table[i].title == t;
      }
    }
    table
  }

  /** No missing column is listed exactly when all required ones are there. */
  lemma {:induction false} MissingEmpty(columns: set<string>)
    ensures |Missing(columns)| == 0 <==> Sorting.Elems(RequiredColumns) <= columns
  {
    var listed := Filter(RequiredColumns, columns);
    var missing := Missing(columns);
    assert |listed| > 0 ==> listed[0] in Sorting.Elems(missing);
    assert |missing| > 0 ==> missing[0] in Sorting.Elems(listed);
  }

  /** The sorted titles of the available rows: each has an available row,
      which gives it at least one class key. */
  lemma {:induction false} SortedTitles(rows: seq<CatalogRow>)
    ensures var titles := Text.SortedStrings(ActiveTitles(rows));
      && Sorting.Elems(titles) == ActiveTitleSet(rows)
      && (|titles| == 0 <==> forall j | 0 <= j < |rows| :: !rows[j].available)
      && forall i | 0 <= i < |titles| :: |KeysWithTitle(rows, titles[i])| > 0
  {
    var all := ActiveTitles(rows);
    var titles := Text.SortedStrings(all);
    assert |all| > 0 ==> all[0] in Sorting.Elems(titles);
    assert |titles| > 0 ==> titles[0] in ActiveTitleSet(rows);
    assert forall j | 0 <= j < |rows| && rows[j].available :: Title(rows[j]) in ActiveTitleSet(rows);
    forall i | 0 <= i < |titles| ensures |KeysWithTitle(rows, titles[i])| > 0 {
      assert titles[i] in Sorting.Elems(titles);
      var j :| 0 <= j < |rows| && rows[j].available && Title(rows[j]) == titles[i];
      assert ClassKey(rows[j]) in KeysWithTitle(rows, titles[i]);
    }
  }

  /** `init_active`: an error naming the missing columns, or one available
      meta class per title of the available rows, in sorted title order
      (the order of `groupby`). */
  function InitActive(cat: Catalog, uuidFor: string -> string): (r: Result<seq<MetaRow>, InitError>)
    ensures r.Failure? <==> !(Sorting.Elems(RequiredColumns) <= cat.columns)
    ensures r.Failure? ==>
      && Sorting.StrictlySorted(r.error.names, Text.StrLess)
      && Sorting.Elems(r.error.names) == Sorting.Elems(RequiredColumns) - cat.columns
    ensures r.Success? ==>
      && (forall i, j | 0 <= i < j < |r.value| :: Text.StrLess(r.value[i].title, r.value[j].title))
      && TitlesOf(r.value) == ActiveTitleSet(cat.rows)
      && (|r.value| == 0 <==> forall j | 0 <= j < |cat.rows| :: !cat.rows[j].available)
      && (forall i | 0 <= i < |r.value| ::
            && r.value[i].uuid == uuidFor(r.value[i].title)
            && r.value[i].available
            && r.value[i].nested == KeysWithTitle(cat.rows, r.value[i].title)
            && |r.value[i].nested| > 0)
  {
    var missing := Missing(cat.columns);
    MissingEmpty(cat.columns);
    if |missing| > 0 then Failure(MissingColumns(missing))
    else
      var titles := Text.SortedStrings(ActiveTitles(cat.rows));
      SortedTitles(cat.rows);
      Success(Group(titles, cat.rows, uuidFor))
  }

  /** Every available row is listed, under its own title's meta class. */
  lemma {:induction false} InitActiveListsEveryRow(cat: Catalog, uuidFor: string -> string, j: nat)
    requires Sorting.Elems(RequiredColumns) <= cat.columns
    requires j < |cat.rows| && cat.rows[j].available
    ensures var table := InitActive(cat, uuidFor).value;
      exists i | 0 <= i < |table| :: table[i].title == Title(cat.rows[j]) && ClassKey(cat.rows[j]) in table[i].nested
  {
    var table := InitActive(cat, uuidFor).value;
    var t := Title(cat.rows[j]);
    assert t in ActiveTitleSet(cat.rows);
    var i :| 0 <= i < |table| && table[i].title == t;
    assert ClassKey(cat.rows[j]) in table[i].nested;
  }

  /** The uuid depends on nothing but the title. */
  lemma {:induction false} InitActiveUuidByTitle(cat: Catalog, cat': Catalog, uuidFor: string -> string, i: nat, i': nat)
    requires InitActive(cat, uuidFor).Success? && InitActive(cat', uuidFor).Success?
    requires i < |InitActive(cat, uuidFor).value| && i' < |InitActive(cat', uuidFor).value|
    requires InitActive(cat, uuidFor).value[i].title == InitActive(cat', uuidFor).value[i'].title
    ensures InitActive(cat, uuidFor).value[i].uuid == InitActive(cat', uuidFor).value[i'].uuid
  {
  }

  // ---------------------------------------------------------------------------
  // handle_inactive
  // ---------------------------------------------------------------------------

  /** The first row with title `t`: where `mask.any()` and `.iloc[0]` look. */
  function FindTitle(table: seq<MetaRow>, t: string): (r: Option<nat>)
    ensures r.Some? ==>
      && r.value < |table| && table[r.value].title == t
      && forall i | 0 <= i < r.value :: table[i].title != t
    ensures r.None? <==> forall i | 0 <= i < |table| :: table[i].title != t
  {
    if |table| == 0 then None
    else if table[0].title == t then Some(0)
    else
      match FindTitle(table[1..], t)
      case None =>
        assert forall i | 1 <= i < |table| :: table[i] == table[1..][i - 1];
        None
      case Some(i) =>
        assert forall k | 1 <= k < i + 1 :: table[k] == table[1..][k - 1];
        Some(i + 1)
  }

  /** Only the nested lists changed, and every added row is an unavailable
      one with the uuid of its title. */
  ghost predicate Extends(table: seq<MetaRow>, r: seq<MetaRow>, uuidFor: string -> string) {
    && |table| <= |r|
    && (forall i | 0 <= i < |table| ::
          && r[i].uuid == table[i].uuid
          && r[i].title == table[i].title
          && r[i].available == table[i].available)
    && (forall i | |table| <= i < |r| :: !r[i].available && r[i].uuid == uuidFor(r[i].title))
  }

  /** Each old row's list only grew at its end. */
  ghost predicate Grows(table: seq<MetaRow>, r: seq<MetaRow>) {
    && |table| <= |r|
    && forall i | 0 <= i < |table| :: table[i].nested <= r[i].nested
  }

  lemma ExtendsTransitive(a: seq<MetaRow>, b: seq<MetaRow>, c: seq<MetaRow>, uuidFor: string -> string)
    requires Extends(a, b, uuidFor) && Extends(b, c, uuidFor)
    ensures Extends(a, c, uuidFor)
  {
  }

  lemma {:induction false} GrowsTransitive(a: seq<MetaRow>, b: seq<MetaRow>, c: seq<MetaRow>)
    requires Grows(a, b) && Grows(b, c)
    ensures Grows(a, c)
  {
    forall i | 0 <= i < |a| ensures a[i].nested <= c[i].nested {
      assert a[i].nested <= b[i].nested <= c[i].nested;
    }
  }

  /** No two rows share a title. */
  predicate UniqueTitles(table: seq<MetaRow>) {
    forall i, j | 0 <= i < j < |table| :: table[i].title != table[j].title
  }

  /** One pass of the loop, for an unavailable row with title `t` and class
      key `key`, as the module-level fragment at the end of meta.py writes
      it: a key missing from the title's list is appended to the first row
      with the title (`.at[idx, ...]`), an unknown title gets a new
      unavailable row. This is the merge the docstring of `handle_inactive`
      describes; `VisitAsWritten` is what the class's own line does. */
  function Visit(table: seq<MetaRow>, t: string, key: string, uuidFor: string -> string): (r: seq<MetaRow>)
    ensures Extends(table, r, uuidFor)
  {
    match FindTitle(table, t)
    case Some(i) =>
      if key in table[i].nested then table
      else
        Relist(table, i, table[i].nested + [key])
    case None =>
      table + [MetaRow(uuidFor(t), t, [key], false)]
  }

  /** Row `i` gets the list `grown`; `.at[idx, 'nested_classes']` writes
      that one cell and nothing else. */
  function Relist(table: seq<MetaRow>, i: nat, grown: seq<string>): (r: seq<MetaRow>)
    requires i < |table|
    ensures |r| == |table|
    ensures r[i] == MetaRow(table[i].uuid, table[i].title, grown, table[i].available)
    ensures forall j | 0 <= j < |table| && j != i :: r[j] == table[j]
  {
    table[i := table[i].(nested := grown)]
  }

  /** On a table with unique titles a visit keeps them unique and only lets
      lists grow. */
  lemma {:induction false} VisitKeepsUnique(table: seq<MetaRow>, t: string, key: string, uuidFor: string -> string)
    requires UniqueTitles(table)
    ensures UniqueTitles(Visit(table, t, key, uuidFor)) && Grows(table, Visit(table, t, key, uuidFor))
  {
  }

  /** `t` has a row, and the first such row lists `key`. */
  ghost predicate Covered(table: seq<MetaRow>, t: string, key: string) {
    var found := FindTitle(table, t);
    found.Some? && key in table[found.value].nested
  }

  /** A title's first row does not move when rows only grow. */
  lemma {:induction false} FindTitleStable(table: seq<MetaRow>, r: seq<MetaRow>, t: string, uuidFor: string -> string)
    requires Extends(table, r, uuidFor)
    requires FindTitle(table, t).Some?
    ensures FindTitle(r, t) == FindTitle(table, t)
  {
    var i := FindTitle(table, t).value;
    assert r[i].title == t;
    assert forall k | 0 <= k < i :: r[k].title == table[k].title;
  }

  /** The visit covers its own pair. */
  lemma {:induction false} VisitCovers(table: seq<MetaRow>, t: string, key: string, uuidFor: string -> string)
    ensures Covered(Visit(table, t, key, uuidFor), t, key)
  {
    var r := Visit(table, t, key, uuidFor);
    match FindTitle(table, t)
    case Some(i) =>
      FindTitleStable(table, r, t, uuidFor);
      if key !in table[i].nested {
        assert r[i].nested == table[i].nested + [key];
      }
    case None =>
      assert r[|table|].title == t;
      var k := FindTitle(r, t).value;
      assert k == |table|;
  }

  /** A visit keeps every pair that was covered covered. */
  lemma {:induction false} VisitKeepsCovered(table: seq<MetaRow>, t: string, key: string, uuidFor: string -> string, t': string, key': string)
    requires Covered(table, t', key')
    ensures Covered(Visit(table, t, key, uuidFor), t', key')
  {
    var r := Visit(table, t, key, uuidFor);
    FindTitleStable(table, r, t', uuidFor);
    var i' := FindTitle(table, t').value;
    if FindTitle(table, t).Some? && key !in table[FindTitle(table, t).value].nested && table[i'].title == t {
      // `t'` is `t`, so its first row is the one that received the key.
      assert r[i'].nested == table[i'].nested + [key];
    }
  }

  /** Visiting a covered pair changes nothing. */
  lemma {:induction false} VisitCoveredIsIdentity(table: seq<MetaRow>, t: string, key: string, uuidFor: string -> string)
    requires Covered(table, t, key)
    ensures Visit(table, t, key, uuidFor) == table
  {
  }

  /** The (title, class key) pairs of the unavailable rows, in row order. */
  function InactivePairs(rows: seq<CatalogRow>): (r: seq<(string, string)>)
    ensures forall p :: p in r <==> exists j | 0 <= j < |rows| ::
      !rows[j].available && p == (Title(rows[j]), ClassKey(rows[j]))
    ensures |r| <= |rows|
  {
    if |rows| == 0 then []
    else
      var rest := InactivePairs(rows[1..]);
      assert forall j | 1 <= j < |rows| :: rows[j] == rows[1..][j - 1];
      assert forall p :: p in rest <==> exists j | 1 <= j < |rows| ::
        !rows[j].available && p == (Title(rows[j]), ClassKey(rows[j])) by {
        forall p ensures p in rest <==> exists j | 1 <= j < |rows| ::
          !rows[j].available && p == (Title(rows[j]), ClassKey(rows[j])) {
          if p in rest {
            var j :| 0 <= j < |rows[1..]| && !rows[1..][j].available
              && p == (Title(rows[1..][j]), ClassKey(rows[1..][j]));
            assert rows[j + 1] == rows[1..][j];
          }
        }
      }
      if !rows[0].available then [(Title(rows[0]), ClassKey(rows[0]))] + rest else rest
  }

  /** The pairs of two runs of rows are the pairs of the first run followed
      by those of the second. With the membership and length clauses of
      `InactivePairs` this fixes the result: one pair per unavailable row,
      in row order, repeats kept. */
  lemma {:induction false} InactivePairsConcat(a: seq<CatalogRow>, b: seq<CatalogRow>)
    ensures InactivePairs(a + b) == InactivePairs(a) + InactivePairs(b)
    decreases |a|
  {
    if |a| == 0 {
      assert a + b == b;
    } else {
      assert (a + b)[1..] == a[1..] + b;
      InactivePairsConcat(a[1..], b);
    }
  }

  /** The loop over the pairs, in order. */
  function VisitAll(table: seq<MetaRow>, pairs: seq<(string, string)>, uuidFor: string -> string): (r: seq<MetaRow>)
    ensures Extends(table, r, uuidFor)
    ensures UniqueTitles(table) ==> UniqueTitles(r) && Grows(table, r)
    decreases |pairs|
  {
    if |pairs| == 0 then table
    else
      var mid := Visit(table, pairs[0].0, pairs[0].1, uuidFor);
      var r := VisitAll(mid, pairs[1..], uuidFor);
      ExtendsTransitive(table, mid, r, uuidFor);
      if UniqueTitles(table) then
        VisitKeepsUnique(table, pairs[0].0, pairs[0].1, uuidFor);
        GrowsTransitive(table, mid, r);
        r
      else r
  }

  /** `handle_inactive`. */
  function HandleInactive(table: seq<MetaRow>, cat: Catalog, uuidFor: string -> string): (r: seq<MetaRow>)
    ensures Extends(table, r, uuidFor)
    ensures UniqueTitles(table) ==> UniqueTitles(r) && Grows(table, r)
  {
    VisitAll(table, InactivePairs(cat.rows), uuidFor)
  }

  /** The loop keeps covered pairs covered. */
  lemma {:induction false} VisitAllKeepsCovered(table: seq<MetaRow>, pairs: seq<(string, string)>, uuidFor: string -> string, t: string, key: string)
    requires Covered(table, t, key)
    ensures Covered(VisitAll(table, pairs, uuidFor), t, key)
    decreases |pairs|
  {
    if |pairs| > 0 {
      var mid := Visit(table, pairs[0].0, pairs[0].1, uuidFor);
      VisitKeepsCovered(table, pairs[0].0, pairs[0].1, uuidFor, t, key);
      VisitAllKeepsCovered(mid, pairs[1..], uuidFor, t, key);
    }
  }

  /** After the loop every pair is covered. */
  lemma {:induction false} VisitAllCovers(table: seq<MetaRow>, pairs: seq<(string, string)>, uuidFor: string -> string, k: nat)
    requires k < |pairs|
    ensures Covered(VisitAll(table, pairs, uuidFor), pairs[k].0, pairs[k].1)
    decreases |pairs|
  {
    var mid := Visit(table, pairs[0].0, pairs[0].1, uuidFor);
    if k == 0 {
      VisitCovers(table, pairs[0].0, pairs[0].1, uuidFor);
      VisitAllKeepsCovered(mid, pairs[1..], uuidFor, pairs[0].0, pairs[0].1);
    } else {
      assert pairs[k] == pairs[1..][k - 1];
      VisitAllCovers(mid, pairs[1..], uuidFor, k - 1);
    }
  }

  /** A loop over pairs that are all covered already changes nothing. */
  lemma {:induction false} VisitAllCoveredIsIdentity(table: seq<MetaRow>, pairs: seq<(string, string)>, uuidFor: string -> string)
    requires forall k | 0 <= k < |pairs| :: Covered(table, pairs[k].0, pairs[k].1)
    ensures VisitAll(table, pairs, uuidFor) == table
    decreases |pairs|
  {
    if |pairs| > 0 {
      VisitCoveredIsIdentity(table, pairs[0].0, pairs[0].1, uuidFor);
      assert forall k | 1 <= k < |pairs| :: pairs[k] == pairs[1..][k - 1];
      VisitAllCoveredIsIdentity(table, pairs[1..], uuidFor);
    }
  }

  /** Under the intended merge every unavailable row ends up listed under
      the first row of its title. */
  lemma {:induction false} HandleInactiveCovers(table: seq<MetaRow>, cat: Catalog, uuidFor: string -> string, j: nat)
    requires j < |cat.rows| && !cat.rows[j].available
    ensures Covered(HandleInactive(table, cat, uuidFor), Title(cat.rows[j]), ClassKey(cat.rows[j]))
  {
    var pairs := InactivePairs(cat.rows);
    var p := (Title(cat.rows[j]), ClassKey(cat.rows[j]));
    assert p in pairs;
    var k :| 0 <= k < |pairs| && pairs[k] == p;
    VisitAllCovers(table, pairs, uuidFor, k);
  }

  /** Under the intended merge, running `handle_inactive` twice gives what
      running it once does. */
  lemma {:induction false} HandleInactiveIdempotent(table: seq<MetaRow>, cat: Catalog, uuidFor: string -> string)
    ensures HandleInactive(HandleInactive(table, cat, uuidFor), cat, uuidFor) == HandleInactive(table, cat, uuidFor)
  {
    var pairs := InactivePairs(cat.rows);
    var once := HandleInactive(table, cat, uuidFor);
    forall k | 0 <= k < |pairs| ensures Covered(once, pairs[k].0, pairs[k].1) {
      VisitAllCovers(table, pairs, uuidFor, k);
    }
    VisitAllCoveredIsIdentity(once, pairs, uuidFor);
  }

  /** Every class key the loop adds comes from a pair with that row's title. */
  ghost predicate AddedFrom(table: seq<MetaRow>, r: seq<MetaRow>, pairs: seq<(string, string)>) {
    forall i, x | 0 <= i < |r| && x in r[i].nested ::
      (i < |table| && x in table[i].nested) || (r[i].title, x) in pairs
  }

  lemma {:induction false} VisitAddedFrom(table: seq<MetaRow>, t: string, key: string, uuidFor: string -> string)
    requires UniqueTitles(table)
    ensures AddedFrom(table, Visit(table, t, key, uuidFor), [(t, key)])
  {
  }

  /** Every class key `handle_inactive` adds is the key of an unavailable
      row with that title. */
  lemma {:induction false} VisitAllAddedFrom(table: seq<MetaRow>, pairs: seq<(string, string)>, uuidFor: string -> string)
    requires UniqueTitles(table)
    ensures AddedFrom(table, VisitAll(table, pairs, uuidFor), pairs)
    decreases |pairs|
  {
    if |pairs| > 0 {
      var mid := Visit(table, pairs[0].0, pairs[0].1, uuidFor);
      VisitAddedFrom(table, pairs[0].0, pairs[0].1, uuidFor);
      VisitKeepsUnique(table, pairs[0].0, pairs[0].1, uuidFor);
      VisitAllAddedFrom(mid, pairs[1..], uuidFor);
      AddedFromCompose(table, mid, VisitAll(mid, pairs[1..], uuidFor), uuidFor, pairs[0], pairs[1..]);
      assert [pairs[0]] + pairs[1..] == pairs;
    }
  }

  /** A key added by one pass and then by the rest of the loop comes from
      the pass's pair or from the rest. */
  lemma {:induction false} AddedFromCompose(table: seq<MetaRow>, mid: seq<MetaRow>, r: seq<MetaRow>, uuidFor: string -> string,
                                            p: (string, string), rest: seq<(string, string)>)
    requires Extends(mid, r, uuidFor)
    requires AddedFrom(table, mid, [p]) && AddedFrom(mid, r, rest)
    ensures AddedFrom(table, r, [p] + rest)
  {
    forall i, x | 0 <= i < |r| && x in r[i].nested
      ensures (i < |table| && x in table[i].nested) || (r[i].title, x) in [p] + rest
    {
      if i < |mid| && x in mid[i].nested {
        assert mid[i].title == r[i].title;
      } else {
        assert (r[i].title, x) in rest;
      }
    }
  }

  /** The table `init_active` builds has unique titles, and so has the one
      `handle_inactive` makes of it. */
  lemma {:induction false} InitThenHandleUnique(cat: Catalog, uuidFor: string -> string)
    requires InitActive(cat, uuidFor).Success?
    ensures UniqueTitles(InitActive(cat, uuidFor).value)
    ensures UniqueTitles(HandleInactive(InitActive(cat, uuidFor).value, cat, uuidFor))
  {
    var table := InitActive(cat, uuidFor).value;
    forall i, j | 0 <= i < j < |table| ensures table[i].title != table[j].title {
      Text.StrLessIrreflexive(table[i].title);
    }
  }

  // ---------------------------------------------------------------------------
  // handle_inactive as meta.py:387-420 writes it
  // ---------------------------------------------------------------------------

  /** The `ValueError` pandas raises at meta.py:410, with the table as it
      stood then: rows appended by earlier passes stay in `self.meta_df`. */
  datatype SetItemError = ListLengthMismatch(table: seq<MetaRow>)

  /** The pass for `(t, key)` would write a new list: the title has a row and
      its first row lacks the key. */
  predicate NeedsMerge(table: seq<MetaRow>, t: string, key: string) {
    var found := FindTitle(table, t);
    found.Some? && key !in table[found.value].nested
  }

  /** One pass of the loop as the class writes it. The assignment
      `loc[mask, 'nested_classes'] = [new_nested]` hands pandas a nested list
      one row high and `len(new_nested)` wide for a single column; pandas
      rejects that width with a `ValueError`. So the pass raises exactly where
      a merge is needed, and does the intended pass everywhere else. */
  function VisitAsWritten(table: seq<MetaRow>, t: string, key: string, uuidFor: string -> string): (r: Result<seq<MetaRow>, SetItemError>)
    ensures r.Failure? <==> NeedsMerge(table, t, key)
    ensures r.Failure? ==> r.error.table == table
    ensures r.Success? ==> r.value == Visit(table, t, key, uuidFor) && table <= r.value
  {
    match FindTitle(table, t)
    case Some(i) =>
      if key in table[i].nested then Success(table) else Failure(ListLengthMismatch(table))
    case None =>
      Success(table + [MetaRow(uuidFor(t), t, [key], false)])
  }

  /** The loop as the class writes it: it stops at the first pass that
      raises. No existing row is ever rewritten; the table only grows by
      appended rows, whether the loop returns or raises. */
  function VisitAllAsWritten(table: seq<MetaRow>, pairs: seq<(string, string)>, uuidFor: string -> string): (r: Result<seq<MetaRow>, SetItemError>)
    ensures r.Success? ==> r.value == VisitAll(table, pairs, uuidFor) && table <= r.value
    ensures r.Failure? ==> table <= r.error.table
    decreases |pairs|
  {
    if |pairs| == 0 then Success(table)
    else
      var mid :- VisitAsWritten(table, pairs[0].0, pairs[0].1, uuidFor);
      VisitAllAsWritten(mid, pairs[1..], uuidFor)
  }

  /** The k-th pass of the intended loop has to merge a new key. */
  ghost predicate MergesAt(table: seq<MetaRow>, pairs: seq<(string, string)>, uuidFor: string -> string, k: nat)
    requires k < |pairs|
  {
    NeedsMerge(VisitAll(table, pairs[..k], uuidFor), pairs[k].0, pairs[k].1)
  }

  /** The intended loop over the first k + 1 pairs is the first pass followed
      by the loop over the next k. */
  lemma {:induction false} VisitAllPrefix(table: seq<MetaRow>, pairs: seq<(string, string)>, uuidFor: string -> string, k: nat)
    requires k < |pairs|
    ensures VisitAll(table, pairs[..k + 1], uuidFor)
         == VisitAll(Visit(table, pairs[0].0, pairs[0].1, uuidFor), pairs[1..][..k], uuidFor)
  {
    assert pairs[..k + 1][0] == pairs[0];
    assert pairs[..k + 1][1..] == pairs[1..][..k];
  }

  /** A pass after the first one merges exactly when the same pass of the
      loop started after the first one does. */
  lemma {:induction false} MergesAtShift(table: seq<MetaRow>, pairs: seq<(string, string)>, uuidFor: string -> string, k: nat)
    requires k + 1 < |pairs|
    ensures MergesAt(table, pairs, uuidFor, k + 1)
        == MergesAt(Visit(table, pairs[0].0, pairs[0].1, uuidFor), pairs[1..], uuidFor, k)
  {
    VisitAllPrefix(table, pairs, uuidFor, k);
    assert pairs[k + 1] == pairs[1..][k];
  }

  /** The class's loop returns exactly when no pass of the intended loop has
      to merge a new key. */
  lemma {:induction false} VisitAllAsWrittenSucceeds(table: seq<MetaRow>, pairs: seq<(string, string)>, uuidFor: string -> string)
    ensures VisitAllAsWritten(table, pairs, uuidFor).Success?
        <==> forall k | 0 <= k < |pairs| :: !MergesAt(table, pairs, uuidFor, k)
    decreases |pairs|
  {
    if |pairs| > 0 {
      var mid := Visit(table, pairs[0].0, pairs[0].1, uuidFor);
      assert pairs[..0] == [];
      assert MergesAt(table, pairs, uuidFor, 0) == NeedsMerge(table, pairs[0].0, pairs[0].1);
      if !NeedsMerge(table, pairs[0].0, pairs[0].1) {
        assert VisitAllAsWritten(table, pairs, uuidFor) == VisitAllAsWritten(mid, pairs[1..], uuidFor);
        VisitAllAsWrittenSucceeds(mid, pairs[1..], uuidFor);
        MergesAfterFirst(table, pairs, uuidFor);
      }
    }
  }

  /** The passes after the first merge exactly when the passes of the loop
      started after the first one do. */
  lemma {:induction false} MergesAfterFirst(table: seq<MetaRow>, pairs: seq<(string, string)>, uuidFor: string -> string)
    requires |pairs| > 0
    ensures (forall k | 1 <= k < |pairs| :: !MergesAt(table, pairs, uuidFor, k))
        <==> (forall k | 0 <= k < |pairs[1..]| ::
                !MergesAt(Visit(table, pairs[0].0, pairs[0].1, uuidFor), pairs[1..], uuidFor, k))
  {
    forall k | 0 <= k < |pairs[1..]|
      ensures MergesAt(table, pairs, uuidFor, k + 1)
           == MergesAt(Visit(table, pairs[0].0, pairs[0].1, uuidFor), pairs[1..], uuidFor, k)
    {
      MergesAtShift(table, pairs, uuidFor, k);
    }
    forall k | 1 <= k < |pairs|
      ensures MergesAt(table, pairs, uuidFor, k)
           == MergesAt(Visit(table, pairs[0].0, pairs[0].1, uuidFor), pairs[1..], uuidFor, k - 1)
    {
      MergesAtShift(table, pairs, uuidFor, k - 1);
    }
  }

  /** When the class's loop raises, the table it leaves is the intended loop's
      table just before the first pass that has to merge. */
  lemma {:induction false} VisitAllAsWrittenRaisesAt(table: seq<MetaRow>, pairs: seq<(string, string)>, uuidFor: string -> string, k: nat)
    requires k < |pairs| && MergesAt(table, pairs, uuidFor, k)
    requires forall j | 0 <= j < k :: !MergesAt(table, pairs, uuidFor, j)
    ensures VisitAllAsWritten(table, pairs, uuidFor)
         == Failure(ListLengthMismatch(VisitAll(table, pairs[..k], uuidFor)))
    decreases |pairs|
  {
    assert pairs[..0] == [];
    if k > 0 {
      var mid := Visit(table, pairs[0].0, pairs[0].1, uuidFor);
      assert !MergesAt(table, pairs, uuidFor, 0);
      forall j | 0 <= j < k - 1 ensures !MergesAt(mid, pairs[1..], uuidFor, j) {
        MergesAtShift(table, pairs, uuidFor, j);
      }
      MergesAtShift(table, pairs, uuidFor, k - 1);
      VisitAllPrefix(table, pairs, uuidFor, k - 1);
      VisitAllAsWrittenRaisesAt(mid, pairs[1..], uuidFor, k - 1);
    }
  }

  /** `handle_inactive` as the class writes it. It returns the intended
      table exactly when no inactive row has to join an existing title with
      a new key, and otherwise raises with the table as the intended loop
      had it before that row. */
  function HandleInactiveAsWritten(table: seq<MetaRow>, cat: Catalog, uuidFor: string -> string): (r: Result<seq<MetaRow>, SetItemError>)
    ensures r.Success? <==> forall k | 0 <= k < |InactivePairs(cat.rows)| ::
      !MergesAt(table, InactivePairs(cat.rows), uuidFor, k)
    ensures r.Success? ==> r.value == HandleInactive(table, cat, uuidFor) && table <= r.value
    ensures r.Failure? ==> table <= r.error.table
  {
    VisitAllAsWrittenSucceeds(table, InactivePairs(cat.rows), uuidFor);
    VisitAllAsWritten(table, InactivePairs(cat.rows), uuidFor)
  }

  /** The catalogue of the demo at the end of meta.py. */
  const DemoCatalog: Catalog := Catalog(
    {"group_title", "service_title", "service_id", "comp_title", "comp_id",
     "view_title", "view_id", "type_title", "creation_date", "last_modified_date", "available"},
    [CatalogRow("Skype", "Base", "Default", 1, 10, 100, true),
     CatalogRow("Skype", "Base", "Default", 13, 10, 100, false),
     CatalogRow("Skype для конференций", "Base", "Default", 14, 10, 100, false)])

  /** The demo reaches the raising branch: its second row is inactive, has
      the title of the active first row and a class key of its own. The class
      raises on it before appending anything, while the intended merge lists
      the key under the title. */
  lemma DemoRaises(uuidFor: string -> string)
    ensures InitActive(DemoCatalog, uuidFor).Success?
    ensures var table := InitActive(DemoCatalog, uuidFor).value;
      var row := DemoCatalog.rows[1];
      && HandleInactiveAsWritten(table, DemoCatalog, uuidFor) == Failure(ListLengthMismatch(table))
      && Covered(HandleInactive(table, DemoCatalog, uuidFor), Title(row), ClassKey(row))
  {
    DemoNeedsMerge(uuidFor);
    DemoFirstPair();
    var table := InitActive(DemoCatalog, uuidFor).value;
    VisitAllAsWrittenRaisesFirst(table, InactivePairs(DemoCatalog.rows), uuidFor);
    HandleInactiveCovers(table, DemoCatalog, uuidFor, 1);
  }

  /** A loop whose first pass has to merge raises before changing anything. */
  lemma {:induction false} VisitAllAsWrittenRaisesFirst(table: seq<MetaRow>, pairs: seq<(string, string)>, uuidFor: string -> string)
    requires |pairs| > 0 && NeedsMerge(table, pairs[0].0, pairs[0].1)
    ensures VisitAllAsWritten(table, pairs, uuidFor) == Failure(ListLengthMismatch(table))
  {
  }

  /** On the table `init_active` builds, a pass has to merge exactly when
      its title is that of an available row and no available row with the
      title has its class key. */
  lemma {:induction false} InitActiveNeedsMerge(cat: Catalog, uuidFor: string -> string, t: string, key: string)
    requires InitActive(cat, uuidFor).Success?
    ensures NeedsMerge(InitActive(cat, uuidFor).value, t, key)
        <==> t in ActiveTitleSet(cat.rows) && key !in KeysWithTitle(cat.rows, t)
  {
  }

  /** The demo's table lists the title of its second row, without that
      row's class key. */
  lemma DemoNeedsMerge(uuidFor: string -> string)
    ensures InitActive(DemoCatalog, uuidFor).Success?
    ensures var row := DemoCatalog.rows[1];
      NeedsMerge(InitActive(DemoCatalog, uuidFor).value, Title(row), ClassKey(row))
  {
    var rows := DemoCatalog.rows;
    var t, key := Title(rows[1]), ClassKey(rows[1]);
    assert Title(rows[0]) == t;
    assert t in ActiveTitleSet(rows);
    if ClassKey(rows[0]) == key {
      ClassKeyInjective(rows[0], rows[1]);
    }
    assert key !in KeysWithTitle(rows, t);
    InitActiveNeedsMerge(DemoCatalog, uuidFor, t, key);
  }

  /** The loop of the demo visits its second row first. */
  lemma DemoFirstPair()
    ensures var rows := DemoCatalog.rows;
      |InactivePairs(rows)| > 0 && InactivePairs(rows)[0] == (Title(rows[1]), ClassKey(rows[1]))
  {
    var rows := DemoCatalog.rows;
    assert InactivePairs(rows) == InactivePairs(rows[1..]);
    assert rows[1..][0] == rows[1];
  }

  /** The demo's second row in the source's own spelling. */
  lemma DemoSecondRow()
    ensures Title(DemoCatalog.rows[1]) == "Skype|Base|Default"
    ensures ClassKey(DemoCatalog.rows[1]) == "13|10|100"
  {
  }
}

=== FILE: route_store.dfy ===
/** The route table of the API gateway in gate.py: a map from service name
    to base URL, kept in step with a YAML document of the shape
    `{"routes": {name: {"url": url}}}`, and the lookup that either forwards
    a request to `url + "/" + path` or answers 404. */
module RouteStore {
  import opened Wrappers

  /** The part of a YAML document `yaml.safe_load` can give that matters
      here. */
  datatype Yaml =
    | Null
    | Str(text: string)
    | Mapping(entries: map<string, Yaml>)
    | List(items: seq<Yaml>)

  /** Python truthiness of a loaded document. */
  predicate Falsy(y: Yaml) {
    match y
    case Null => true
    case Str(t) => t == ""
    case Mapping(m) => |m| == 0
    case List(xs) => |xs| == 0
  }

  /** Why reading the document raises. */
  datatype LoadError =
    | DocumentNotMapping   // `data.get` on a non-dict
    | RoutesNotMapping     // `.items()` on a non-dict
    | EntryWithoutUrl      // `v["url"]` on a non-dict or a dict without "url"
    | UrlNotText           // a url that is not a string

  /** One entry is usable when it is a mapping with a textual "url". */
  predicate HasUrl(v: Yaml) {
    v.Mapping? && "url" in v.entries
  }

  predicate HasTextUrl(v: Yaml) {
    HasUrl(v) && v.entries["url"].Str?
  }

  /** `load_from_yaml`: the routes of the configuration file, if there is
      one (`None` when it does not exist). An empty document, or one without
      "routes", gives no routes. */
  function Load(file: Option<Yaml>): (r: Result<map<string, string>, LoadError>)
    ensures file.None? ==> r == Success(map[])
    ensures file.Some? && Falsy(file.value) ==> r == Success(map[])
    ensures file.Some? && file.value.Mapping? && "routes" !in file.value.entries ==> r == Success(map[])
    ensures file.Some? && !Falsy(file.value) && !file.value.Mapping? ==> r == Failure(DocumentNotMapping)
    ensures (file.Some? && file.value.Mapping? && "routes" in file.value.entries
             && !file.value.entries["routes"].Mapping?) ==> r == Failure(RoutesNotMapping)
    ensures r.Success? && file.Some? && !Falsy(file.value) ==>
              && file.value.Mapping?
              && (forall name | name in r.value ::
                    && "routes" in file.value.entries
                    && file.value.entries["routes"].Mapping?
                    && name in file.value.entries["routes"].entries
                    && HasTextUrl(file.value.entries["routes"].entries[name])
                    && r.value[name] == file.value.entries["routes"].entries[name].entries["url"].text)
    ensures (file.Some? && file.value.Mapping? && "routes" in file.value.entries
             && file.value.entries["routes"].Mapping?) ==>
              (r.Success? <==> forall k | k in file.value.entries["routes"].entries ::
                                 HasTextUrl(file.value.entries["routes"].entries[k]))
    ensures r.Success? && file.Some? && file.value.Mapping? && "routes" in file.value.entries ==>
              r.value.Keys == file.value.entries["routes"].entries.Keys
  {
    match file
    case None => Success(map[])
    case Some(y) =>
      var data := if Falsy(y) then Mapping(map[]) else y;
      if !data.Mapping? then Failure(DocumentNotMapping)
      else
        var routes := if "routes" in data.entries then data.entries["routes"] else Mapping(map[]);
        if !routes.Mapping? then Failure(RoutesNotMapping)
        else
          var m := routes.entries;
          if exists k | k in m :: !HasUrl(m[k]) then Failure(EntryWithoutUrl)
          else if exists k | k in m :: !m[k].entries["url"].Str? then Failure(UrlNotText)
          else Success(map k | k in m :: m[k].entries["url"].text)
  }

  /** `save_to_yaml`: the document written for a route table. */
  function Save(routes: map<string, string>): (y: Yaml)
    ensures y.Mapping? && y.entries.Keys == {"routes"}
    ensures y.entries["routes"].Mapping? && y.entries["routes"].entries.Keys == routes.Keys
  {
    Mapping(map["routes" := Mapping(map k | k in routes :: Mapping(map["url" := Str(routes[k])]))])
  }

  /** Writing a table and reading it back gives the same table. */
  lemma {:induction false} LoadSave(routes: map<string, string>)
    ensures Load(Some(Save(routes))) == Success(routes)
  {
    var y := Save(routes);
    var m := y.entries["routes"].entries;
    assert !Falsy(y) by {
      assert "routes" in y.entries;
    }
    forall k | k in m ensures HasTextUrl(m[k]) && m[k].entries["url"].text == routes[k] {
    }
    assert (map k | k in m :: m[k].entries["url"].text) == routes;
  }

  /** Reading a well-formed document and writing it again gives the document
      back, up to documents that are empty. */
  lemma {:induction false} SaveLoad(y: Yaml)
    requires Load(Some(y)).Success?
    requires y.Mapping? && y.entries.Keys == {"routes"}
    requires forall k | k in y.entries["routes"].entries ::
               y.entries["routes"].entries[k].entries.Keys == {"url"}
    ensures Save(Load(Some(y)).value) == y
  {
    var r := Load(Some(y)).value;
    assert !Falsy(y) by {
      assert "routes" in y.entries;
    }
    var m := y.entries["routes"].entries;
    assert forall k | k in m :: Mapping(map["url" := Str(r[k])]) == m[k] by {
      forall k | k in m ensures Mapping(map["url" := Str(r[k])]) == m[k] {
        assert m[k].entries == map["url" := Str(r[k])];
      }
    }
    assert (map k | k in r :: Mapping(map["url" := Str(r[k])])) == m;
    assert Save(r).entries == y.entries;
  }

  // ---------------------------------------------------------------------
  // The store

  /** The routes in memory and the configuration file on disk (`None` when
      it does not exist). */
  datatype Store = Store(routes: map<string, string>, file: Option<Yaml>)

  /** The file holds exactly the routes in memory. */
  predicate Synced(s: Store) {
    Load(s.file) == Success(s.routes)
  }

  /** `RouteStore(config_path)`: start empty and load the file. */
  function Open(file: Option<Yaml>): (r: Result<Store, LoadError>)
    ensures r.Success? <==> Load(file).Success?
    ensures r.Success? ==> r.value.file == file && Synced(r.value)
  {
    var routes :- Load(file);
    Success(Store(routes, file))
  }

  /** `get`: the URL registered under `service`, if any. */
  function Get(s: Store, service: string): (r: Option<string>)
    ensures r.Some? <==> service in s.routes
    ensures r.Some? ==> r.value == s.routes[service]
  {
    if service in s.routes then Some(s.routes[service]) else None
  }

  /** `all`: every registered service. */
  function All(s: Store): (r: map<string, string>)
    ensures forall name :: name in r <==> Get(s, name).Some?
    ensures forall name | name in r :: Get(s, name) == Some(r[name])
  {
    s.routes
  }

  /** `set`: register or overwrite, then save. */
  function Set(s: Store, name: string, url: string): (r: Store)
    ensures r.routes.Keys == s.routes.Keys + {name}
    ensures r.file == Some(Save(r.routes))
  {
    var routes := s.routes[name := url];
    Store(routes, Some(Save(routes)))
  }

  /** `delete`: remove and save when present; otherwise nothing happens,
      and in particular nothing is written. */
  function Delete(s: Store, name: string): (r: Store)
    ensures r.routes.Keys == s.routes.Keys - {name}
    ensures name !in s.routes ==> r == s
    ensures name in s.routes ==> r.file == Some(Save(r.routes))
  {
    if name in s.routes then
      var routes := s.routes - {name};
      Store(routes, Some(Save(routes)))
    else s
  }

  /** After `set(name, url)`, `get(name)` is `url` and every other lookup is
      as before. */
  lemma {:induction false} GetAfterSet(s: Store, name: string, url: string, other: string)
    ensures Get(Set(s, name, url), name) == Some(url)
    ensures other != name ==> Get(Set(s, name, url), other) == Get(s, other)
  {
  }

  /** After `delete(name)`, `get(name)` is `None` and every other lookup is
      as before. */
  lemma {:induction false} GetAfterDelete(s: Store, name: string, other: string)
    ensures Get(Delete(s, name), name).None?
    ensures other != name ==> Get(Delete(s, name), other) == Get(s, other)
  {
  }

  /** Opening, setting and deleting keep the file in step with memory. */
  lemma {:induction false} SetKeepsSynced(s: Store, name: string, url: string)
    ensures Synced(Set(s, name, url))
  {
    LoadSave(s.routes[name := url]);
  }

  lemma {:induction false} DeleteKeepsSynced(s: Store, name: string)
    requires Synced(s)
    ensures Synced(Delete(s, name))
  {
    if name in s.routes {
      LoadSave(s.routes - {name});
    }
  }

  // ---------------------------------------------------------------------
  // Forwarding

  /** What `proxy` answers: a 404 with a message, or a request forwarded to
      a target URL (whose sending is outside the model). */
  datatype Response = NotFound(body: string) | Forward(targetUrl: string)

  /** `proxy` before the request is sent: a missing or empty route gives 404
      "Unknown service: <service>"; otherwise the target is the route, a
      slash and the path. */
  function Proxy(s: Store, service: string, path: string): (r: Response)
    ensures r.NotFound? <==> Get(s, service) == None || Get(s, service) == Some("")
    ensures r.NotFound? ==> r.body == "Unknown service: " + service
    ensures r.Forward? ==> r.targetUrl == Get(s, service).value + "/" + path
  {
    var target := Get(s, service);
    if target.None? || target.value == "" then NotFound("Unknown service: " + service)
    else Forward(target.value + "/" + path)
  }

  /** A route just registered with a non-empty URL is forwarded to; a route
      just deleted answers 404. */
  lemma {:induction false} ProxyAfterUpdate(s: Store, name: string, url: string, path: string)
    ensures url != "" ==> Proxy(Set(s, name, url), name, path) == Forward(url + "/" + path)
    ensures Proxy(Delete(s, name), name, path) == NotFound("Unknown service: " + name)
  {
    GetAfterSet(s, name, url, name);
    GetAfterDelete(s, name, name);
  }

  /** The target URL determines the path: the route of a service is fixed,
      so two paths forwarded for the same service never collide. */
  lemma {:induction false} ForwardInjective(s: Store, service: string, p: string, q: string)
    requires Proxy(s, service, p).Forward? && Proxy(s, service, q).Forward?
    requires Proxy(s, service, p) == Proxy(s, service, q)
    ensures p == q
  {
    var t := Get(s, service).value + "/";
    assert Proxy(s, service, p).targetUrl == t + p;
    assert (t + p)[|t|..] == p;
    assert (t + q)[|t|..] == q;
  }
}

=== FILE: score_mean.dfy ===
/** `aggregate_scores` in q.py: the mean score of every title, over the
    pairs `zip(titles, scores)` forms. Scores are real numbers; the result
    is a dictionary whose keys come in the order their titles first
    appear, so it is modelled as that key sequence and a map. */
module ScoreMean {
  import Sorting
  import Seqs

  /** Python's `zip`: pairs up to the shorter of the two sequences. */
  function Zip<A, B>(xs: seq<A>, ys: seq<B>): (z: seq<(A, B)>)
    ensures |z| == if |xs| <= |ys| then |xs| else |ys|
    ensures forall i | 0 <= i < |z| :: z[i].0 == xs[i] && z[i].1 == ys[i]
  {
    if |xs| == 0 || |ys| == 0 then []
    else [(xs[0], ys[0])] + Zip(xs[1..], ys[1..])
  }

  /** The titles of a run of pairs. */
  function Titles<T>(ps: seq<(T, real)>): (ts: seq<T>)
    ensures |ts| == |ps| && forall i | 0 <= i < |ps| :: ts[i] == ps[i].0
  {
    seq(|ps|, i requires 0 <= i < |ps| => ps[i].0)
  }

  /** How many pairs carry title `t`. */
  function Count<T(==)>(ps: seq<(T, real)>, t: T): nat {
    if |ps| == 0 then 0
    else (if ps[0].0 == t then 1 else 0) + Count(ps[1..], t)
  }

  /** The sum of the scores of the pairs with title `t`. */
  function Sum<T(==)>(ps: seq<(T, real)>, t: T): real {
    if |ps| == 0 then 0.0
    else (if ps[0].0 == t then ps[0].1 else 0.0) + Sum(ps[1..], t)
  }

  /** The mean of the scores of title `t`. */
  function Mean<T(==)>(ps: seq<(T, real)>, t: T): real
    requires Count(ps, t) > 0
  {
    Sum(ps, t) / Count(ps, t) as real
  }

  lemma {:induction false} CountSnoc<T>(ps: seq<(T, real)>, p: (T, real), t: T)
    ensures Count(ps + [p], t) == Count(ps, t) + (if p.0 == t then 1 else 0)
  {
    if |ps| > 0 {
      assert (ps + [p])[1..] == ps[1..] + [p];
      CountSnoc(ps[1..], p, t);
    } else {
      assert ps + [p] == [p];
    }
  }

  lemma {:induction false} SumSnoc<T>(ps: seq<(T, real)>, p: (T, real), t: T)
    ensures Sum(ps + [p], t) == Sum(ps, t) + (if p.0 == t then p.1 else 0.0)
  {
    if |ps| > 0 {
      assert (ps + [p])[1..] == ps[1..] + [p];
      SumSnoc(ps[1..], p, t);
    } else {
      assert ps + [p] == [p];
    }
  }

  /** A title is counted exactly when some pair carries it. */
  lemma {:induction false} CountPositive<T>(ps: seq<(T, real)>, t: T)
    ensures Count(ps, t) > 0 <==> t in Titles(ps)
  {
    if |ps| > 0 {
      CountPositive(ps[1..], t);
      assert Titles(ps) == [ps[0].0] + Titles(ps[1..]);
    }
  }

  /** `sums` and `counts` hold the running sum and count of every title
      seen so far, and the titles not yet seen have none. */
  ghost predicate Tallied<T(!new)>(ps: seq<(T, real)>, sums: map<T, real>, counts: map<T, nat>) {
    && sums.Keys == counts.Keys
    && (forall t | t in sums :: sums[t] == Sum(ps, t) && counts[t] == Count(ps, t) > 0)
    && (forall t | t !in sums :: Count(ps, t) == 0)
  }

  /** Adding one pair to the running tallies keeps them right. */
  lemma {:induction false} TallyStep<T(!new)>(ps: seq<(T, real)>, i: nat, sums: map<T, real>, counts: map<T, nat>)
    requires i < |ps| && Tallied(ps[..i], sums, counts)
    ensures var p := ps[i];
            Tallied(ps[..i + 1],
                    sums[p.0 := (if p.0 in sums then sums[p.0] else 0.0) + p.1],
                    counts[p.0 := (if p.0 in counts then counts[p.0] else 0) + 1])
  {
    var p := ps[i];
    assert ps[..i + 1] == ps[..i] + [p];
    if p.0 !in sums {
      SumOfAbsent(ps[..i], p.0);
    }
    forall t ensures Sum(ps[..i] + [p], t) == Sum(ps[..i], t) + (if p.0 == t then p.1 else 0.0)
               && Count(ps[..i] + [p], t) == Count(ps[..i], t) + (if p.0 == t then 1 else 0) {
      SumSnoc(ps[..i], p, t);
      CountSnoc(ps[..i], p, t);
    }
  }

  /** The next title is appended to the keys when it is new. */
  lemma {:induction false} KeysStep<T>(ts: seq<T>, i: nat, keys: seq<T>, seen: set<T>)
    requires i < |ts| && keys == Seqs.Unique(ts[..i]) && seen == Sorting.Elems(keys)
    ensures ts[i] in seen ==> keys == Seqs.Unique(ts[..i + 1])
    ensures ts[i] !in seen ==>
              && keys + [ts[i]] == Seqs.Unique(ts[..i + 1])
              && Sorting.Elems(keys + [ts[i]]) == seen + {ts[i]}
  {
    assert ts[..i + 1][..i] == ts[..i];
    assert Sorting.Elems(keys + [ts[i]]) == Sorting.Elems(keys) + {ts[i]};
  }

  /** The running state of the loop of `aggregate_scores`: the titles in
      order of first appearance and the sum and count per title (the
      `defaultdict`s of sums and counts). */
  datatype Tallies<T> = Tallies(keys: seq<T>, sums: map<T, real>, counts: map<T, nat>)

  /** One turn of the loop: add a pair's score and one to its title's sum
      and count, and remember the title if it is new. */
  function Add<T(==)>(st: Tallies<T>, p: (T, real)): Tallies<T> {
    Tallies(if p.0 in st.sums then st.keys else st.keys + [p.0],
            st.sums[p.0 := (if p.0 in st.sums then st.sums[p.0] else 0.0) + p.1],
            st.counts[p.0 := (if p.0 in st.counts then st.counts[p.0] else 0) + 1])
  }

  /** What the loop knows after `i` pairs. */
  ghost predicate TallyInvariant<T(!new)>(titles: seq<T>, ps: seq<(T, real)>, i: nat, st: Tallies<T>) {
    && i <= |ps| <= |titles|
    && st.keys == Seqs.Unique(titles[..i])
    && st.sums.Keys == Sorting.Elems(st.keys)
    && Tallied(ps[..i], st.sums, st.counts)
  }

  /** One turn of the loop keeps its invariant. */
  lemma {:induction false} TallyTurn<T(!new)>(titles: seq<T>, ps: seq<(T, real)>, i: nat, st: Tallies<T>)
    requires TallyInvariant(titles, ps, i, st)
    requires i < |ps| && ps[i].0 == titles[i]
    ensures TallyInvariant(titles, ps, i + 1, Add(st, ps[i]))
  {
    TurnKeys(titles, i, st, ps[i].1);
    TurnTallied(ps, i, st);
  }

  lemma {:induction false} TurnKeys<T>(titles: seq<T>, i: nat, st: Tallies<T>, score: real)
    requires i < |titles|
    requires st.keys == Seqs.Unique(titles[..i]) && st.sums.Keys == Sorting.Elems(st.keys)
    ensures var r := Add(st, (titles[i], score));
            r.keys == Seqs.Unique(titles[..i + 1]) && r.sums.Keys == Sorting.Elems(r.keys)
  {
    KeysStep(titles, i, st.keys, st.sums.Keys);
  }

  lemma {:induction false} TurnTallied<T(!new)>(ps: seq<(T, real)>, i: nat, st: Tallies<T>)
    requires i < |ps| && Tallied(ps[..i], st.sums, st.counts)
    ensures Tallied(ps[..i + 1], Add(st, ps[i]).sums, Add(st, ps[i]).counts)
  {
    TallyStep(ps, i, st.sums, st.counts);
  }

  /** Before the loop nothing is tallied. */
  lemma {:induction false} TallyStart<T(!new)>(titles: seq<T>, ps: seq<(T, real)>)
    requires |ps| <= |titles|
    ensures TallyInvariant(titles, ps, 0, Tallies([], map[], map[]))
  {
    assert ps[..0] == [];
    assert titles[..0] == [];
  }

  /** After the loop every pair is tallied. */
  lemma {:induction false} TallyEnd<T(!new)>(titles: seq<T>, ps: seq<(T, real)>, st: Tallies<T>)
    requires TallyInvariant(titles, ps, |ps|, st)
    ensures st.keys == Seqs.Unique(titles[..|ps|])
    ensures st.sums.Keys == Sorting.Elems(st.keys)
    ensures Tallied(ps, st.sums, st.counts)
  {
    assert ps[..|ps|] == ps;
  }

  /** The loop of `aggregate_scores`: one pass over the pairs. */
  method Tally<T(==, !new)>(titles: seq<T>, ps: seq<(T, real)>) returns (st: Tallies<T>)
    requires |ps| <= |titles| && forall i | 0 <= i < |ps| :: ps[i].0 == titles[i]
    ensures TallyInvariant(titles, ps, |ps|, st)
  {
    st := Tallies([], map[], map[]);
    TallyStart(titles, ps);
    for i := 0 to |ps|
      invariant TallyInvariant(titles, ps, i, st)
    {
      TallyTurn(titles, ps, i, st);
      st := Add(st, ps[i]);
    }
  }

  /** `aggregate_scores(titles, scores)`: every title of the pairs `zip`
      forms maps to the sum of its scores divided by their count. The keys
      are the distinct titles in order of first appearance. */
  method AggregateScores<T(==, !new)>(titles: seq<T>, scores: seq<real>)
    returns (keys: seq<T>, means: map<T, real>)
    ensures keys == Seqs.Unique(titles[..|Zip(titles, scores)|])
    ensures means.Keys == Sorting.Elems(keys)
    ensures forall t | t in means ::
              Count(Zip(titles, scores), t) > 0 && means[t] == Mean(Zip(titles, scores), t)
  {
    var ps := Zip(titles, scores);
    var st := Tally(titles, ps);
    TallyEnd(titles, ps, st);
    keys := st.keys;
    means := map t | t in st.sums :: st.sums[t] / st.counts[t] as real;
  }

  /** The keys of the result are exactly the titles of the zipped pairs,
      and an empty input gives an empty result. */
  lemma {:induction false} AggregateKeys<T>(titles: seq<T>, scores: seq<real>, t: T)
    ensures Count(Zip(titles, scores), t) > 0 <==>
              exists i | 0 <= i < |titles| && i < |scores| :: titles[i] == t
    ensures |titles| == 0 || |scores| == 0 ==> Seqs.Unique(titles[..|Zip(titles, scores)|]) == []
  {
    var ps := Zip(titles, scores);
    CountPositive(ps, t);
    if t in Titles(ps) {
      var i :| 0 <= i < |ps| && Titles(ps)[i] == t;
      assert titles[i] == t;
    }
    if exists i | 0 <= i < |titles| && i < |scores| :: titles[i] == t {
      var i :| 0 <= i < |titles| && i < |scores| && titles[i] == t;
      assert Titles(ps)[i] == t;
    }
  }

  /** A title that occurs once keeps its own score. */
  lemma {:induction false} MeanOfSingle<T>(ps: seq<(T, real)>, t: T, k: nat)
    requires k < |ps| && ps[k].0 == t && Count(ps, t) == 1
    ensures Mean(ps, t) == ps[k].1
  {
    SumOfSingle(ps, t, k);
  }

  lemma {:induction false} SumOfSingle<T>(ps: seq<(T, real)>, t: T, k: nat)
    requires k < |ps| && ps[k].0 == t && Count(ps, t) == 1
    ensures Sum(ps, t) == ps[k].1
  {
    if k == 0 {
      SumOfAbsent(ps[1..], t);
    } else {
      assert ps[1..][k - 1] == ps[k];
      // The pair at `k` is the only one, so the first is another title.
      assert Count(ps[1..], t) > 0 by {
        CountPositive(ps[1..], t);
        assert Titles(ps[1..])[k - 1] == t;
      }
      SumOfSingle(ps[1..], t, k - 1);
    }
  }

  lemma {:induction false} SumOfAbsent<T>(ps: seq<(T, real)>, t: T)
    requires Count(ps, t) == 0
    ensures Sum(ps, t) == 0.0
  {
    if |ps| > 0 {
      SumOfAbsent(ps[1..], t);
    }
  }

  /** The smallest score of title `t`. */
  function MinScore<T(==)>(ps: seq<(T, real)>, t: T): (m: real)
    requires Count(ps, t) > 0
    ensures exists k | 0 <= k < |ps| :: ps[k].0 == t && ps[k].1 == m
    ensures forall k | 0 <= k < |ps| && ps[k].0 == t :: m <= ps[k].1
  {
    if Count(ps[1..], t) == 0 then
      assert forall k | 1 <= k < |ps| :: ps[k].0 != t by {
        CountPositive(ps[1..], t);
        assert forall k | 1 <= k < |ps| :: Titles(ps[1..])[k - 1] == ps[k].0;
      }
      ps[0].1
    else
      var rest := MinScore(ps[1..], t);
      assert forall k | 1 <= k < |ps| :: ps[1..][k - 1] == ps[k];
      if ps[0].0 == t && ps[0].1 < rest then ps[0].1 else rest
  }

  /** The largest score of title `t`. */
  function MaxScore<T(==)>(ps: seq<(T, real)>, t: T): (m: real)
    requires Count(ps, t) > 0
    ensures exists k | 0 <= k < |ps| :: ps[k].0 == t && ps[k].1 == m
    ensures forall k | 0 <= k < |ps| && ps[k].0 == t :: ps[k].1 <= m
  {
    if Count(ps[1..], t) == 0 then
      assert forall k | 1 <= k < |ps| :: ps[k].0 != t by {
        CountPositive(ps[1..], t);
        assert forall k | 1 <= k < |ps| :: Titles(ps[1..])[k - 1] == ps[k].0;
      }
      ps[0].1
    else
      var rest := MaxScore(ps[1..], t);
      assert forall k | 1 <= k < |ps| :: ps[1..][k - 1] == ps[k];
      if ps[0].0 == t && ps[0].1 > rest then ps[0].1 else rest
  }

  /** A sum of `c` scores each between `lo` and `hi` lies between `c * lo`
      and `c * hi`. */
  lemma {:induction false} SumBounds<T>(ps: seq<(T, real)>, t: T, lo: real, hi: real)
    requires forall k | 0 <= k < |ps| && ps[k].0 == t :: lo <= ps[k].1 <= hi
    ensures Count(ps, t) as real * lo <= Sum(ps, t) <= Count(ps, t) as real * hi
  {
    if |ps| > 0 {
      assert forall k | 1 <= k < |ps| :: ps[1..][k - 1] == ps[k];
      SumBounds(ps[1..], t, lo, hi);
      var c := Count(ps[1..], t) as real;
      if ps[0].0 == t {
        assert Count(ps, t) as real == c + 1.0;
        assert (c + 1.0) * lo == c * lo + lo && (c + 1.0) * hi == c * hi + hi;
      }
    }
  }

  /** Every mean lies between the smallest and the largest score of its
      title. */
  lemma {:induction false} MeanBetween<T>(ps: seq<(T, real)>, t: T)
    requires Count(ps, t) > 0
    ensures MinScore(ps, t) <= Mean(ps, t) <= MaxScore(ps, t)
  {
    var lo, hi := MinScore(ps, t), MaxScore(ps, t);
    var c := Count(ps, t) as real;
    SumBounds(ps, t, lo, hi);
    DivideBounds(Sum(ps, t), c, lo, hi);
  }

  lemma {:induction false} DivideBounds(a: real, c: real, lo: real, hi: real)
    requires c > 0.0 && c * lo <= a <= c * hi
    ensures lo <= a / c <= hi
  {
    var q := a / c;
    assert a == c * q;
    assert c * lo <= c * q && c * q <= c * hi;
  }
}

=== FILE: script_labels.dfy ===
/** The per-character script classifier of the tokenizer vocabulary filter
    (`get_char_language` in log.py): an ordered list of code-point range
    checks where the first match wins. */
module ScriptLabels {

  /** The labels a character (or, for `Empty`, an empty token) can get. */
  datatype Label =
    | Ascii | Cyrillic | LatinExtended | Punctuation | Symbols | Emoji
    | Chinese | Japanese | Korean | Arabic | Hebrew | Thai | Greek
    | Armenian | Georgian | Devanagari | Fullwidth | PrivateUse | Other
    | Empty

  /** The string the source uses for each label. */
  function Name(l: Label): string {
    match l
    case Ascii => "ascii"
    case Cyrillic => "cyrillic"
    case LatinExtended => "latin_extended"
    case Punctuation => "punctuation"
    case Symbols => "symbols"
    case Emoji => "emoji"
    case Chinese => "chinese"
    case Japanese => "japanese"
    case Korean => "korean"
    case Arabic => "arabic"
    case Hebrew => "hebrew"
    case Thai => "thai"
    case Greek => "greek"
    case Armenian => "armenian"
    case Georgian => "georgian"
    case Devanagari => "devanagari"
    case Fullwidth => "fullwidth"
    case PrivateUse => "private_use"
    case Other => "other"
    case Empty => "empty"
  }

  /** Distinct labels have distinct names. */
  lemma NameInjective(a: Label, b: Label)
    requires Name(a) == Name(b)
    ensures a == b
  {
  }

  predicate Within(code: int, lo: int, hi: int) {
    lo <= code <= hi
  }

  /** The label of one code point, checked in the source's order. */
  function CharLabel(code: nat): Label {
    if code < 128 then Ascii
    else if Within(code, 0x0400, 0x04FF) then Cyrillic
    else if Within(code, 0x0500, 0x052F) then Cyrillic
    else if Within(code, 0x2DE0, 0x2DFF) then Cyrillic
    else if Within(code, 0xA640, 0xA69F) then Cyrillic
    else if Within(code, 0x1C80, 0x1C8F) then Cyrillic
    else if Within(code, 0x0080, 0x00FF) then LatinExtended
    else if Within(code, 0x0100, 0x017F) then LatinExtended
    else if Within(code, 0x0180, 0x024F) then LatinExtended
    else if Within(code, 0x1E00, 0x1EFF) then LatinExtended
    else if Within(code, 0x2000, 0x206F) then Punctuation
    else if Within(code, 0x2070, 0x209F) then Symbols
    else if Within(code, 0x20A0, 0x20CF) then Symbols
    else if Within(code, 0x2100, 0x214F) then Symbols
    else if Within(code, 0x2150, 0x218F) then Symbols
    else if Within(code, 0x2190, 0x21FF) then Symbols
    else if Within(code, 0x2200, 0x22FF) then Symbols
    else if Within(code, 0x2300, 0x23FF) then Symbols
    else if Within(code, 0x2500, 0x257F) then Symbols
    else if Within(code, 0x2580, 0x259F) then Symbols
    else if Within(code, 0x25A0, 0x25FF) then Symbols
    else if Within(code, 0x2600, 0x26FF) then Symbols
    else if Within(code, 0x2700, 0x27BF) then Symbols
    else if Within(code, 0x1F300, 0x1F9FF) then Emoji
    else if Within(code, 0x1FA00, 0x1FAFF) then Emoji
    else if Within(code, 0x4E00, 0x9FFF) then Chinese
    else if Within(code, 0x3400, 0x4DBF) then Chinese
    else if Within(code, 0x20000, 0x2A6DF) then Chinese
    else if Within(code, 0x2A700, 0x2B73F) then Chinese
    else if Within(code, 0x2B740, 0x2B81F) then Chinese
    else if Within(code, 0x2B820, 0x2CEAF) then Chinese
    else if Within(code, 0x2CEB0, 0x2EBEF) then Chinese
    else if Within(code, 0x30000, 0x3134F) then Chinese
    else if Within(code, 0xF900, 0xFAFF) then Chinese
    else if Within(code, 0x3000, 0x303F) then Chinese
    else if Within(code, 0x31C0, 0x31EF) then Chinese
    else if Within(code, 0x2F00, 0x2FDF) then Chinese
    else if Within(code, 0x2E80, 0x2EFF) then Chinese
    else if Within(code, 0x3100, 0x312F) then Chinese
    else if Within(code, 0x31A0, 0x31BF) then Chinese
    else if Within(code, 0x3040, 0x309F) then Japanese
    else if Within(code, 0x30A0, 0x30FF) then Japanese
    else if Within(code, 0x31F0, 0x31FF) then Japanese
    else if Within(code, 0xFF65, 0xFF9F) then Japanese
    else if Within(code, 0xAC00, 0xD7AF) then Korean
    else if Within(code, 0x1100, 0x11FF) then Korean
    else if Within(code, 0x3130, 0x318F) then Korean
    else if Within(code, 0xA960, 0xA97F) then Korean
    else if Within(code, 0xD7B0, 0xD7FF) then Korean
    else if Within(code, 0x0600, 0x06FF) then Arabic
    else if Within(code, 0x0750, 0x077F) then Arabic
    else if Within(code, 0x08A0, 0x08FF) then Arabic
    else if Within(code, 0xFB50, 0xFDFF) then Arabic
    else if Within(code, 0xFE70, 0xFEFF) then Arabic
    else if Within(code, 0x0590, 0x05FF) then Hebrew
    else if Within(code, 0xFB00, 0xFB4F) then Hebrew
    else if Within(code, 0x0E00, 0x0E7F) then Thai
    else if Within(code, 0x0370, 0x03FF) then Greek
    else if Within(code, 0x1F00, 0x1FFF) then Greek
    else if Within(code, 0x0530, 0x058F) then Armenian
    else if Within(code, 0x10A0, 0x10FF) then Georgian
    else if Within(code, 0x0900, 0x097F) then Devanagari
    else if Within(code, 0xFF00, 0xFFEF) then Fullwidth
    else if Within(code, 0xE000, 0xF8FF) then PrivateUse
    else Other
  }

  /** The Unicode blocks the source assigns to each label, stated without
      reference to the order in which they are checked. The Fullwidth
      block is the one place where two checks overlap: its Halfwidth
      Katakana part is claimed by the earlier Japanese check. */
  predicate InBlocks(l: Label, code: int) {
    match l
    case Ascii => 0 <= code < 128
    case Cyrillic =>
      Within(code, 0x0400, 0x052F) || Within(code, 0x2DE0, 0x2DFF)
      || Within(code, 0xA640, 0xA69F) || Within(code, 0x1C80, 0x1C8F)
    case LatinExtended => Within(code, 0x0080, 0x024F) || Within(code, 0x1E00, 0x1EFF)
    case Punctuation => Within(code, 0x2000, 0x206F)
    case Symbols =>
      Within(code, 0x2070, 0x20CF) || Within(code, 0x2100, 0x23FF)
      || Within(code, 0x2500, 0x27BF)
    case Emoji => Within(code, 0x1F300, 0x1F9FF) || Within(code, 0x1FA00, 0x1FAFF)
    case Chinese =>
      Within(code, 0x3400, 0x4DBF) || Within(code, 0x4E00, 0x9FFF)
      || Within(code, 0x20000, 0x2A6DF) || Within(code, 0x2A700, 0x2EBEF)
      || Within(code, 0x30000, 0x3134F) || Within(code, 0xF900, 0xFAFF)
      || Within(code, 0x3000, 0x303F) || Within(code, 0x31C0, 0x31EF)
      || Within(code, 0x2E80, 0x2EFF) || Within(code, 0x2F00, 0x2FDF)
      || Within(code, 0x3100, 0x312F) || Within(code, 0x31A0, 0x31BF)
    case Japanese =>
      Within(code, 0x3040, 0x30FF) || Within(code, 0x31F0, 0x31FF)
      || Within(code, 0xFF65, 0xFF9F)
    case Korean =>
      Within(code, 0xAC00, 0xD7FF) || Within(code, 0x1100, 0x11FF)
      || Within(code, 0x3130, 0x318F) || Within(code, 0xA960, 0xA97F)
    case Arabic =>
      Within(code, 0x0600, 0x06FF) || Within(code, 0x0750, 0x077F)
      || Within(code, 0x08A0, 0x08FF) || Within(code, 0xFB50, 0xFDFF)
      || Within(code, 0xFE70, 0xFEFF)
    case Hebrew => Within(code, 0x0590, 0x05FF) || Within(code, 0xFB00, 0xFB4F)
    case Thai => Within(code, 0x0E00, 0x0E7F)
    case Greek => Within(code, 0x0370, 0x03FF) || Within(code, 0x1F00, 0x1FFF)
    case Armenian => Within(code, 0x0530, 0x058F)
    case Georgian => Within(code, 0x10A0, 0x10FF)
    case Devanagari => Within(code, 0x0900, 0x097F)
    case Fullwidth => Within(code, 0xFF00, 0xFF64) || Within(code, 0xFFA0, 0xFFEF)
    case PrivateUse => Within(code, 0xE000, 0xF8FF)
    case Other => false
    case Empty => false
  }

  /** The blocks of distinct labels never overlap. */
  lemma BlocksDisjoint(code: int, a: Label, b: Label)
    requires InBlocks(a, code) && InBlocks(b, code)
    ensures a == b
  {
  }

  /** The ordered checks agree with the order-free block table: a code point
      gets label `l` exactly when it lies in one of `l`'s blocks, and
      `Other` exactly when it lies in none. */
  lemma CharLabelByBlocks(code: nat, l: Label)
    ensures l != Other ==> (CharLabel(code) == l <==> InBlocks(l, code))
    ensures CharLabel(code) == Other <==> forall m: Label :: !InBlocks(m, code)
  {
    if CharLabel(code) != Other {
      assert InBlocks(CharLabel(code), code);
    }
  }

  /** No character is ever labelled `Empty`. */
  lemma CharLabelNeverEmpty(code: nat)
    ensures CharLabel(code) != Empty
  {
  }

  /** Halfwidth Katakana U+FF65..U+FF9F lies inside the Fullwidth Forms range
      U+FF00..U+FFEF, yet it is labelled Japanese, because the Japanese check
      comes first. */
  lemma HalfwidthKatakanaIsJapanese(code: nat)
    requires 0xFF65 <= code <= 0xFF9F
    ensures Within(code, 0xFF00, 0xFFEF)
    ensures CharLabel(code) == Japanese
  {
  }

  /** The label of a character, through its code point (`ord` in Python). */
  function LabelOf(c: char): Label {
    CharLabel(c as int)
  }
}

=== FILE: seqs.dfy ===
/** Keeping the first occurrence of every value, the way pandas' `unique()`
    and `drop_duplicates()` do. */
module Seqs {
  import Sorting

  /** The distinct values of `xs`, each where it first occurs. */
  function Unique<T(==)>(xs: seq<T>): (u: seq<T>)
    ensures Sorting.Elems(u) == Sorting.Elems(xs)
    ensures forall i, j | 0 <= i < j < |u| :: u[i] != u[j]
    ensures |xs| > 0 ==> |u| > 0 && u[0] == xs[0]
    ensures |u| <= |xs|
  {
    if |xs| == 0 then []
    else
      var prefix := xs[..|xs| - 1];
      var last := xs[|xs| - 1];
      assert xs == prefix + [last];
      assert Sorting.Elems(xs) == Sorting.Elems(prefix) + {last};
      var u := Unique(prefix);
      if last in u then u
      else
        assert Sorting.Elems(u + [last]) == Sorting.Elems(u) + {last};
        u + [last]
  }

  /** More than one distinct value exactly when some value differs from the
      first. */
  lemma {:induction false} UniqueMoreThanOne<T>(xs: seq<T>)
    requires |xs| > 0
    ensures |Unique(xs)| > 1 <==> exists k | 0 <= k < |xs| :: xs[k] != xs[0]
  {
    var u := Unique(xs);
    if |u| > 1 {
      assert u[1] in Sorting.Elems(xs);
      var k :| 0 <= k < |xs| && xs[k] == u[1];
    }
    if exists k | 0 <= k < |xs| :: xs[k] != xs[0] {
      var k :| 0 <= k < |xs| && xs[k] != xs[0];
      assert xs[k] in Sorting.Elems(u);
      var j :| 0 <= j < |u| && u[j] == xs[k];
      assert j != 0;
    }
  }

  /** Where `x` first occurs in `xs`. */
  function FirstIndex<T(==)>(xs: seq<T>, x: T): (k: nat)
    requires x in xs
    ensures k < |xs| && xs[k] == x && x !in xs[..k]
  {
    if xs[0] == x then 0
    else
      var k := FirstIndex(xs[1..], x);
      assert xs[..k + 1] == [xs[0]] + xs[1..][..k];
      k + 1
  }

  /** The first occurrence is determined by its defining property. */
  lemma {:induction false} FirstIndexUnique<T>(xs: seq<T>, x: T, k: nat)
    requires k < |xs| && xs[k] == x && x !in xs[..k]
    ensures FirstIndex(xs, x) == k
  {
    var f := FirstIndex(xs, x);
    // Neither occurrence can come before the other.
    assert forall m | 0 <= m < k :: xs[..k][m] == xs[m];
    assert forall m | 0 <= m < f :: xs[..f][m] == xs[m];
  }

  /** `Unique` lists the values in the order of their first occurrences. */
  lemma {:induction false} UniqueFirstOrder<T>(xs: seq<T>, i: nat, j: nat)
    requires i < j < |Unique(xs)|
    ensures Unique(xs)[i] in xs && Unique(xs)[j] in xs
    ensures FirstIndex(xs, Unique(xs)[i]) < FirstIndex(xs, Unique(xs)[j])
    decreases |xs|
  {
    var u := Unique(xs);
    assert u[i] in Sorting.Elems(u) && u[j] in Sorting.Elems(u);
    var prefix := xs[..|xs| - 1];
    var last := xs[|xs| - 1];
    var v := Unique(prefix);
    assert xs == prefix + [last];
    // Every value of `prefix` first occurs in `xs` where it does in `prefix`.
    forall y | y in prefix ensures FirstIndex(xs, y) == FirstIndex(prefix, y) {
      var k := FirstIndex(prefix, y);
      assert xs[..k] == prefix[..k];
      FirstIndexUnique(xs, y, k);
    }
    assert v[i] in Sorting.Elems(v);
    if j < |v| {
      assert u[i] == v[i] && u[j] == v[j];
      assert v[j] in Sorting.Elems(v);
      UniqueFirstOrder(prefix, i, j);
    } else {
      assert u == v + [last] && u[j] == last && last !in v;
      assert last !in Sorting.Elems(prefix);
      assert xs[..|xs| - 1] == prefix;
      FirstIndexUnique(xs, last, |xs| - 1);
      assert u[i] == v[i];
    }
  }

  /** `UniqueFirstOrder` for every pair of positions at once. */
  lemma {:induction false} UniqueOrder<T>(xs: seq<T>)
    ensures forall i, j | 0 <= i < j < |Unique(xs)| ::
      && Unique(xs)[i] in xs && Unique(xs)[j] in xs
      && FirstIndex(xs, Unique(xs)[i]) < FirstIndex(xs, Unique(xs)[j])
  {
    forall i, j | 0 <= i < j < |Unique(xs)|
      ensures Unique(xs)[i] in xs && Unique(xs)[j] in xs
      ensures FirstIndex(xs, Unique(xs)[i]) < FirstIndex(xs, Unique(xs)[j])
    {
      UniqueFirstOrder(xs, i, j);
    }
  }

  /** A sequence without repetitions has as many elements as its set. */
  lemma {:induction false} DistinctCard<T>(xs: seq<T>)
    requires forall i, j | 0 <= i < j < |xs| :: xs[i] != xs[j]
    ensures |Sorting.Elems(xs)| == |xs|
    decreases |xs|
  {
    if |xs| > 0 {
      var init := xs[..|xs| - 1];
      assert forall k | 0 <= k < |init| :: init[k] == xs[k];
      DistinctCard(init);
      assert xs == init + [xs[|xs| - 1]];
      assert Sorting.Elems(xs) == Sorting.Elems(init) + {xs[|xs| - 1]};
      assert xs[|xs| - 1] !in Sorting.Elems(init);
    }
  }

  /** A relation that holds pointwise between two sequences still does after
      one related pair is put in front of them. */
  lemma {:induction false} ConsPointwise<A, B>(rel: (A, B) -> bool, x: A, xs: seq<A>, y: B, ys: seq<B>)
    requires rel(x, y)
    requires |xs| == |ys| && forall k | 0 <= k < |xs| :: rel(xs[k], ys[k])
    ensures forall k | 0 <= k < |xs| + 1 :: rel(([x] + xs)[k], ([y] + ys)[k])
  {
    forall k | 0 <= k < |xs| + 1 ensures rel(([x] + xs)[k], ([y] + ys)[k]) {
      if k > 0 {
        assert ([x] + xs)[k] == xs[k - 1] && ([y] + ys)[k] == ys[k - 1];
      }
    }
  }
}

=== FILE: sorting.dfy ===
/** Sorting a collection into a strictly increasing sequence, the way Python's
    `sorted(set(...))` and pandas' sorted `groupby` keys are built. */
module Sorting {

  /** `less` is a strict total order on `T`. */
  ghost predicate StrictTotalOrder<T(!new)>(less: (T, T) -> bool) {
    && (forall a :: !less(a, a))
    && (forall a, b, c :: less(a, b) && less(b, c) ==> less(a, c))
    && (forall a, b :: a != b ==> less(a, b) || less(b, a))
  }

  /** The set of elements of a sequence. */
  function Elems<T>(s: seq<T>): set<T> {
    set y | y in s
  }

  /** Every element is strictly smaller than every later one. */
  predicate StrictlySorted<T>(s: seq<T>, less: (T, T) -> bool) {
    forall i, j | 0 <= i < j < |s| :: less(s[i], s[j])
  }

  /** Adds `x` to a strictly sorted sequence, keeping it strictly sorted. */
  function Insert<T(!new, ==)>(x: T, s: seq<T>, less: (T, T) -> bool): (r: seq<T>)
    requires StrictTotalOrder(less)
    requires StrictlySorted(s, less)
    ensures StrictlySorted(r, less)
    ensures Elems(r) == Elems(s) + {x}
    ensures |r| <= |s| + 1
  {
    if |s| == 0 then [x]
    else if x == s[0] then s
    else if less(x, s[0]) then [x] + s
    else
      var rest := Insert(x, s[1..], less);
      assert s == [s[0]] + s[1..];
      assert Elems(s) == {s[0]} + Elems(s[1..]);
      forall y | y in rest ensures less(s[0], y) {
        assert y in Elems(rest);
      }
      assert Elems([s[0]] + rest) == {s[0]} + Elems(rest);
      [s[0]] + rest
  }

  /** The distinct elements of `xs` in increasing order. */
  function SortDistinct<T(!new, ==)>(xs: seq<T>, less: (T, T) -> bool): (r: seq<T>)
    requires StrictTotalOrder(less)
    ensures StrictlySorted(r, less)
    ensures Elems(r) == Elems(xs)
    ensures |r| <= |xs|
  {
    if |xs| == 0 then []
    else
      var r := Insert(xs[|xs| - 1], SortDistinct(xs[..|xs| - 1], less), less);
      assert xs == xs[..|xs| - 1] + [xs[|xs| - 1]];
      r
  }

  /** A strictly sorted sequence has no repeated element. */
  lemma {:induction false} StrictlySortedDistinct<T(!new)>(s: seq<T>, less: (T, T) -> bool, i: nat, j: nat)
    requires StrictTotalOrder(less)
    requires StrictlySorted(s, less)
    requires i < |s| && j < |s| && i != j
    ensures s[i] != s[j]
  {
    if i < j {
      assert less(s[i], s[j]);
    } else {
      assert less(s[j], s[i]);
    }
  }

  /** The head of a strictly sorted sequence is below every other element. */
  lemma HeadIsLeast<T(!new)>(s: seq<T>, y: T, less: (T, T) -> bool)
    requires StrictlySorted(s, less)
    requires y in s
    ensures y == s[0] || less(s[0], y)
  {
  }

  /** Two strictly sorted sequences with the same elements are equal, so the
      sorted form of a collection depends only on its set of elements. */
  lemma {:induction false} StrictlySortedUnique<T(!new)>(a: seq<T>, b: seq<T>, less: (T, T) -> bool)
    requires StrictTotalOrder(less)
    requires StrictlySorted(a, less) && StrictlySorted(b, less)
    requires Elems(a) == Elems(b)
    ensures a == b
    decreases |a|
  {
    if |a| == 0 {
      assert forall y | y in b :: y in Elems(a);
    } else {
      assert a[0] in Elems(b);
      assert b != [];
      assert b[0] in Elems(a);
      HeadIsLeast(a, b[0], less);
      HeadIsLeast(b, a[0], less);
      assert a[0] == b[0];
      var a', b' := a[1..], b[1..];
      forall y | y in a' ensures y in b' {
        var k :| 1 <= k < |a| && a[k] == y;
        assert less(a[0], y);
        assert y in Elems(a);
        assert y in b;
      }
      forall y | y in b' ensures y in a' {
        var k :| 1 <= k < |b| && b[k] == y;
        assert less(b[0], y);
        assert y in Elems(b);
        assert y in a;
      }
      assert Elems(a') == Elems(b');
      StrictlySortedUnique(a', b', less);
      assert a == [a[0]] + a' && b == [b[0]] + b';
    }
  }
}

=== FILE: text.dfy ===
/** String helpers with Python's meaning: ordering, joining, decimal
    conversion, `strip`, `lower`, `split`, `startswith` and repetition. */
module Text {
  import opened Wrappers
  import Sorting

  // ---------------------------------------------------------------------------
  // Ordering
  // ---------------------------------------------------------------------------

  /** Python's `<` on `str`: lexicographic by code point, a proper prefix first. */
  predicate StrLess(a: string, b: string)
    decreases |a|
  {
    if |a| == 0 then |b| > 0
    else if |b| == 0 then false
    else if a[0] < b[0] then true
    else if a[0] == b[0] then StrLess(a[1..], b[1..])
    else false
  }

  lemma {:induction false} StrLessIrreflexive(a: string)
    ensures !StrLess(a, a)
    decreases |a|
  {
    if |a| > 0 {
      StrLessIrreflexive(a[1..]);
    }
  }

  lemma {:induction false} StrLessTransitive(a: string, b: string, c: string)
    requires StrLess(a, b) && StrLess(b, c)
    ensures StrLess(a, c)
    decreases |a|
  {
    if |a| > 0 && |b| > 0 && |c| > 0 && a[0] == b[0] && b[0] == c[0] {
      StrLessTransitive(a[1..], b[1..], c[1..]);
    }
  }

  lemma {:induction false} StrLessTotal(a: string, b: string)
    requires a != b
    ensures StrLess(a, b) || StrLess(b, a)
    decreases |a|
  {
    if |a| > 0 && |b| > 0 && a[0] == b[0] {
      assert a == [a[0]] + a[1..] && b == [b[0]] + b[1..];
      StrLessTotal(a[1..], b[1..]);
    }
  }

  /** Python's string order is a strict total order. */
  lemma StrLessIsStrictTotalOrder()
    ensures Sorting.StrictTotalOrder(StrLess)
  {
    forall a: string ensures !StrLess(a, a) {
      StrLessIrreflexive(a);
    }
    forall a: string, b: string, c: string | StrLess(a, b) && StrLess(b, c)
      ensures StrLess(a, c)
    {
      StrLessTransitive(a, b, c);
    }
    forall a: string, b: string | a != b
      ensures StrLess(a, b) || StrLess(b, a)
    {
      StrLessTotal(a, b);
    }
  }

  /** Python's `sorted(set(xs))` for strings. */
  function SortedStrings(xs: seq<string>): (r: seq<string>)
    ensures Sorting.StrictlySorted(r, StrLess)
    ensures Sorting.Elems(r) == Sorting.Elems(xs)
  {
    StrLessIsStrictTotalOrder();
    Sorting.SortDistinct(xs, StrLess)
  }

  // ---------------------------------------------------------------------------
  // Joining and repetition
  // ---------------------------------------------------------------------------

  /** Python's `sep.join(parts)`. */
  function Join(sep: string, parts: seq<string>): string
  {
    if |parts| == 0 then ""
    else if |parts| == 1 then parts[0]
    else parts[0] + sep + Join(sep, parts[1..])
  }

  /** Joining a non-empty list, then another part, puts one separator between. */
  lemma {:induction false} JoinAppend(sep: string, parts: seq<string>, last: string)
    requires |parts| > 0
    ensures Join(sep, parts + [last]) == Join(sep, parts) + sep + last
    decreases |parts|
  {
    if |parts| == 1 {
      assert parts + [last] == [parts[0], last];
    } else {
      assert (parts + [last])[1..] == parts[1..] + [last];
      JoinAppend(sep, parts[1..], last);
    }
  }

  /** Python's `s * n` for a one-character string `s`: no copies when `n <= 0`. */
  function Repeat(c: char, n: int): (r: string)
    ensures |r| == if n <= 0 then 0 else n
    ensures forall i | 0 <= i < |r| :: r[i] == c
    decreases if n <= 0 then 0 else n
  {
    if n <= 0 then "" else [c] + Repeat(c, n - 1)
  }

  // ---------------------------------------------------------------------------
  // Decimal numbers
  // ---------------------------------------------------------------------------

  predicate IsDigit(c: char) {
    '0' <= c <= '9'
  }

  function DigitValue(c: char): nat
    requires IsDigit(c)
  {
    c as int - '0' as int
  }

  function DigitChar(d: nat): (c: char)
    requires d < 10
    ensures IsDigit(c) && DigitValue(c) == d
  {
    ('0' as int + d) as char
  }

  /** Every character is a decimal digit. */
  predicate AllDigits(s: string) {
    forall i | 0 <= i < |s| :: IsDigit(s[i])
  }

  /** The value of a string of decimal digits, read left to right. */
  function DigitsValue(s: string): nat
    requires forall i | 0 <= i < |s| :: IsDigit(s[i])
  {
    if |s| == 0 then 0
    else DigitsValue(s[..|s| - 1]) * 10 + DigitValue(s[|s| - 1])
  }

  /** Python's `str(n)` for a natural number. */
  function NatToString(n: nat): (r: string)
    ensures |r| > 0
    ensures forall i | 0 <= i < |r| :: IsDigit(r[i])
    ensures |r| > 1 ==> r[0] != '0'
  {
    if n < 10 then [DigitChar(n)]
    else NatToString(n / 10) + [DigitChar(n % 10)]
  }

  /** Reading back the digits `str(n)` prints gives `n`. */
  lemma {:induction false} NatToStringRoundTrip(n: nat)
    ensures DigitsValue(NatToString(n)) == n
  {
    var s := NatToString(n);
    if n >= 10 {
      assert s[..|s| - 1] == NatToString(n / 10);
      NatToStringRoundTrip(n / 10);
    }
  }

  /** Different numbers print differently. */
  lemma NatToStringInjective(m: nat, n: nat)
    requires NatToString(m) == NatToString(n)
    ensures m == n
  {
    NatToStringRoundTrip(m);
    NatToStringRoundTrip(n);
  }

  /** Python's `int(word)` on a word with no surrounding whitespace: an
      optional sign followed by at least one decimal digit; anything else
      raises, which is `None` here. */
  function ParseInt(word: string): (r: Option<int>)
    ensures r.Some? ==> |word| > 0
  {
    var signed := |word| > 0 && (word[0] == '+' || word[0] == '-');
    var digits := if signed then word[1..] else word;
    if |digits| == 0 || !AllDigits(digits) then None
    else if signed && word[0] == '-' then Some(0 - DigitsValue(digits))
    else Some(DigitsValue(digits))
  }

  /** `int(str(n)) == n`. */
  lemma ParseIntOfNatToString(n: nat)
    ensures ParseInt(NatToString(n)) == Some(n)
  {
    NatToStringRoundTrip(n);
  }

  /** A word that starts with neither a sign nor a digit is not a number. */
  lemma {:induction false} ParseIntNeedsDigit(word: string)
    requires |word| > 0 && !IsDigit(word[0]) && word[0] != '+' && word[0] != '-'
    ensures ParseInt(word).None?
  {
    assert !AllDigits(word);
  }

  /** Python's `str(n)` for any integer: a minus sign before the digits of
      a negative number. */
  function IntToString(n: int): (r: string)
    ensures |r| > 0
    ensures forall i | 0 <= i < |r| :: IsDigit(r[i]) || (i == 0 && r[i] == '-')
  {
    if n < 0 then "-" + NatToString(-n) else NatToString(n)
  }

  /** `int(str(n)) == n`, for negative numbers too. */
  lemma {:induction false} ParseIntOfIntToString(n: int)
    ensures ParseInt(IntToString(n)) == Some(n)
  {
    if n < 0 {
      var w := IntToString(n);
      assert w[1..] == NatToString(-n);
      NatToStringRoundTrip(-n);
    } else {
      NatToStringRoundTrip(n);
    }
  }

  /** Different integers print differently. */
  lemma IntToStringInjective(m: int, n: int)
    requires IntToString(m) == IntToString(n)
    ensures m == n
  {
    ParseIntOfIntToString(m);
    ParseIntOfIntToString(n);
  }

  // ---------------------------------------------------------------------------
  // Case, whitespace and splitting
  // ---------------------------------------------------------------------------

  /** Python's `str.lower()` on ASCII letters; every other character is kept. */
  function LowerChar(c: char): char {
    if 'A' <= c <= 'Z' then (c as int - 'A' as int + 'a' as int) as char else c
  }

  function Lower(s: string): (r: string)
    ensures |r| == |s|
    ensures forall i | 0 <= i < |s| :: r[i] == LowerChar(s[i])
  {
    seq(|s|, i requires 0 <= i < |s| => LowerChar(s[i]))
  }

  /** Python's `str.isspace()` for one character. */
  predicate IsSpace(c: char) {
    var n := c as int;
    || (0x09 <= n <= 0x0D) || (0x1C <= n <= 0x20)
    || n == 0x85 || n == 0xA0 || n == 0x1680
    || (0x2000 <= n <= 0x200A)
    || n == 0x2028 || n == 0x2029 || n == 0x202F || n == 0x205F || n == 0x3000
  }

  /** Python's `str.strip()`: drops leading and trailing whitespace. */
  function Strip(s: string): (r: string)
    ensures exists i, j | 0 <= i <= j <= |s| ::
      && r == s[i..j]
      && (forall k | 0 <= k < i :: IsSpace(s[k]))
      && (forall k | j <= k < |s| :: IsSpace(s[k]))
    ensures |r| > 0 ==> !IsSpace(r[0]) && !IsSpace(r[|r| - 1])
    ensures |r| == 0 <==> forall k | 0 <= k < |s| :: IsSpace(s[k])
  {
    var i := LeadingSpaces(s);
    if i == |s| then
      assert s[i..i] == "";
      ""
    else
      var j := |s| - TrailingSpaces(s);
      assert i < j;
      s[i..j]
  }

  /** The number of whitespace characters `s` starts with. */
  function LeadingSpaces(s: string): (n: nat)
    ensures n <= |s|
    ensures forall k | 0 <= k < n :: IsSpace(s[k])
    ensures n < |s| ==> !IsSpace(s[n])
  {
    if |s| > 0 && IsSpace(s[0]) then 1 + LeadingSpaces(s[1..]) else 0
  }

  /** The number of whitespace characters `s` ends with. */
  function TrailingSpaces(s: string): (n: nat)
    ensures n <= |s|
    ensures forall k | |s| - n <= k < |s| :: IsSpace(s[k])
    ensures n < |s| ==> !IsSpace(s[|s| - n - 1])
  {
    if |s| > 0 && IsSpace(s[|s| - 1]) then 1 + TrailingSpaces(s[..|s| - 1]) else 0
  }

  /** Python's `s.startswith(prefix)`. */
  predicate StartsWith(s: string, prefix: string) {
    |prefix| <= |s| && s[..|prefix|] == prefix
  }

  /** Python's `s.split(sep)[-1]` for a one-character separator: the text
      after the last `sep`, or all of `s` when there is none. */
  function AfterLast(s: string, sep: char): (r: string)
    ensures sep !in r
    ensures |r| <= |s| && r == s[|s| - |r|..]
    ensures r == s || s[|s| - |r| - 1] == sep
  {
    if |s| == 0 then ""
    else if s[|s| - 1] == sep then ""
    else AfterLast(s[..|s| - 1], sep) + [s[|s| - 1]]
  }

  /** `s.rstrip()`: `s` without its trailing whitespace. */
  function Trimmed(s: string): (t: string)
    ensures |t| <= |s| && t == s[..|t|]
    ensures forall k | |t| <= k < |s| :: IsSpace(s[k])
    ensures |t| > 0 ==> !IsSpace(t[|t| - 1])
  {
    var n := TrailingSpaces(s);
    assert n < |s| ==> s[..|s| - n][|s| - n - 1] == s[|s| - n - 1];
    s[..|s| - n]
  }

  /** Python's `s.split()[-1]`: the last whitespace-separated word, or `None`
      (an `IndexError` in Python) when `s` holds no word at all. The word
      ends `s` once trailing whitespace is removed, and starts at the
      beginning or after a whitespace character. */
  function LastWord(s: string): (r: Option<string>)
    ensures r.Some? ==> |r.value| > 0 && forall k | 0 <= k < |r.value| :: !IsSpace(r.value[k])
    ensures r.None? <==> forall k | 0 <= k < |s| :: IsSpace(s[k])
    ensures r.Some? ==>
      var t := Trimmed(s);
      && |r.value| <= |t|
      && r.value == t[|t| - |r.value|..]
      && (|r.value| == |t| || IsSpace(t[|t| - |r.value| - 1]))
  {
    var t := Trimmed(s);
    if |t| == 0 then None
    else
      assert s[|t| - 1] == t[|t| - 1];
      Some(LastRun(t))
  }

  /** The trailing run of non-whitespace characters of `s`. */
  function LastRun(s: string): (r: string)
    ensures |r| <= |s| && r == s[|s| - |r|..]
    ensures forall k | 0 <= k < |r| :: !IsSpace(r[k])
    ensures |s| > 0 && !IsSpace(s[|s| - 1]) ==> |r| > 0
    ensures |r| < |s| ==> IsSpace(s[|s| - |r| - 1])
  {
    if |s| == 0 || IsSpace(s[|s| - 1]) then ""
    else LastRun(s[..|s| - 1]) + [s[|s| - 1]]
  }
}

=== FILE: token_filter.dfy ===
/** Token classification and the allow-list filter of log.py
    (`classify_token`, `is_token_allowed`). */
module TokenFilter {
  import opened ScriptLabels
  import Sorting
  import Text

  /** The label of every character of a token, in token order. */
  function Labels(token: string): (ls: seq<Label>)
    ensures |ls| == |token|
    ensures forall i | 0 <= i < |token| :: ls[i] == LabelOf(token[i])
  {
    seq(|token|, i requires 0 <= i < |token| => LabelOf(token[i]))
  }

  /** How many characters of `token` carry label `l`. */
  function CountOf(token: string, l: Label): nat {
    multiset(Labels(token))[l]
  }

  /** The set of labels occurring in `token`. */
  function LabelSet(token: string): set<Label> {
    set i | 0 <= i < |token| :: LabelOf(token[i])
  }

  // ---------------------------------------------------------------------------
  // The insertion-ordered counter (`defaultdict(int)` filled in token order)
  // ---------------------------------------------------------------------------

  /** One key of the counter and its count. */
  datatype Tally = Tally(key: Label, count: nat)

  predicate KeysDistinct(t: seq<Tally>) {
    forall i, j | 0 <= i < j < |t| :: t[i].key != t[j].key
  }

  function Keys(t: seq<Tally>): set<Label> {
    set i | 0 <= i < |t| :: t[i].key
  }

  /** `counter[l] += 1`: the count of an existing key grows by one in place;
      a new key is appended with count one. */
  function Bump(t: seq<Tally>, l: Label): (r: seq<Tally>)
    requires KeysDistinct(t)
    ensures KeysDistinct(r)
    ensures l in Keys(t) ==> |r| == |t| && forall i | 0 <= i < |t| ::
      r[i] == if t[i].key == l then Tally(l, t[i].count + 1) else t[i]
    ensures l !in Keys(t) ==> r == t + [Tally(l, 1)]
  {
    if |t| == 0 then [Tally(l, 1)]
    else if t[0].key == l then [Tally(l, t[0].count + 1)] + t[1..]
    else
      assert Keys(t) == {t[0].key} + Keys(t[1..]);
      [t[0]] + Bump(t[1..], l)
  }

  /** The earlier key of the counter was seen before any occurrence of a
      later key: the counter's keys are in order of first occurrence. */
  predicate FirstSeenOrder(t: seq<Tally>, ls: seq<Label>) {
    forall i, k, j | 0 <= i < k < |t| && 0 <= j < |ls| && ls[j] == t[k].key ::
      t[i].key in ls[..j]
  }

  /** Bumping adds exactly the bumped label to the keys. */
  lemma {:induction false} BumpKeys(t: seq<Tally>, l: Label)
    requires KeysDistinct(t)
    ensures Keys(Bump(t, l)) == Keys(t) + {l}
  {
    var r := Bump(t, l);
    if l in Keys(t) {
      forall x | x in Keys(r) ensures x in Keys(t) {
        var i :| 0 <= i < |r| && r[i].key == x;
        assert r[i].key == t[i].key;
      }
      forall x | x in Keys(t) ensures x in Keys(r) {
        var i :| 0 <= i < |t| && t[i].key == x;
        assert r[i].key == t[i].key;
      }
    } else {
      assert r[|t|].key == l;
      forall x | x in Keys(r) ensures x in Keys(t) + {l} {
        var i :| 0 <= i < |r| && r[i].key == x;
        if i < |t| {
          assert r[i] == t[i];
        }
      }
      forall x | x in Keys(t) ensures x in Keys(r) {
        var i :| 0 <= i < |t| && t[i].key == x;
        assert r[i] == t[i];
      }
    }
  }

  /** Bumping keeps the counts equal to the number of occurrences. */
  lemma {:induction false} BumpCounts(t: seq<Tally>, ls: seq<Label>, l: Label)
    requires KeysDistinct(t)
    requires forall i | 0 <= i < |t| :: t[i].count == multiset(ls)[t[i].key]
    requires Keys(t) == Sorting.Elems(ls)
    ensures forall i | 0 <= i < |Bump(t, l)| :: Bump(t, l)[i].count == multiset(ls + [l])[Bump(t, l)[i].key]
  {
    var r := Bump(t, l);
    assert multiset(ls + [l]) == multiset(ls) + multiset{l};
    if l !in Keys(t) {
      assert l !in ls;
      assert multiset(ls)[l] == 0;
    }
  }

  /** Bumping keeps the keys in order of first occurrence. */
  lemma {:induction false} BumpOrder(t: seq<Tally>, ls: seq<Label>, l: Label)
    requires KeysDistinct(t)
    requires Keys(t) == Sorting.Elems(ls)
    requires FirstSeenOrder(t, ls)
    ensures FirstSeenOrder(Bump(t, l), ls + [l])
  {
    var r := Bump(t, l);
    var ls' := ls + [l];
    forall i, k, j | 0 <= i < k < |r| && 0 <= j < |ls'| && ls'[j] == r[k].key
      ensures r[i].key in ls'[..j]
    {
      if j < |ls| {
        assert ls'[j] == ls[j];
        assert ls'[..j] == ls[..j];
        if k < |t| {
          assert r[k].key == t[k].key && r[i].key == t[i].key;
        } else {
          assert false;
        }
      } else {
        assert ls'[..j] == ls;
        if i < |t| {
          assert r[i].key == t[i].key;
          assert t[i].key in Keys(t);
        } else {
          assert false;
        }
      }
    }
  }

  /** The counter after reading the labels `ls` left to right. */
  function Counter(ls: seq<Label>): (t: seq<Tally>)
    ensures KeysDistinct(t)
    ensures Keys(t) == Sorting.Elems(ls)
    ensures forall i | 0 <= i < |t| :: t[i].count == multiset(ls)[t[i].key]
    ensures FirstSeenOrder(t, ls)
  {
    if |ls| == 0 then []
    else
      var prefix := ls[..|ls| - 1];
      var l := ls[|ls| - 1];
      var t0 := Counter(prefix);
      assert ls == prefix + [l];
      assert Sorting.Elems(ls) == Sorting.Elems(prefix) + {l};
      BumpKeys(t0, l);
      BumpCounts(t0, prefix, l);
      BumpOrder(t0, prefix, l);
      Bump(t0, l)
  }

  /** Python's `max(keys, key=count)`: the first key whose count is maximal. */
  function FirstMax(t: seq<Tally>): (k: nat)
    requires |t| > 0
    ensures k < |t|
    ensures forall i | 0 <= i < |t| :: t[i].count <= t[k].count
    ensures forall i | 0 <= i < k :: t[i].count < t[k].count
  {
    if |t| == 1 then 0
    else
      var k := FirstMax(t[..|t| - 1]);
      if t[|t| - 1].count > t[k].count then |t| - 1 else k
  }

  // ---------------------------------------------------------------------------
  // classify_token
  // ---------------------------------------------------------------------------

  /** The primary label of a token and the set of all its labels. */
  datatype Classification = Classification(primary: Label, labels: set<Label>)

  function ClassifyToken(token: string): (r: Classification)
    ensures |token| == 0 ==> r == Classification(Empty, {})
    ensures |token| > 0 ==> r.labels == LabelSet(token)
    ensures |token| > 0 ==> r.primary in r.labels
    ensures forall l | l in r.labels :: CountOf(token, l) <= CountOf(token, r.primary)
    ensures forall j | 0 <= j < |token| && CountOf(token, LabelOf(token[j])) == CountOf(token, r.primary) ::
      r.primary in Labels(token)[..j + 1]
  {
    if |token| == 0 then Classification(Empty, {})
    else
      var t := Counter(Labels(token));
      var k := FirstMax(t);
      PrimaryProperties(token, t, k);
      assert t[k].key in Keys(t);
      Classification(t[k].key, Keys(t))
  }

  /** The set of labels of a token is the set of elements of its label sequence. */
  lemma {:induction false} LabelSetIsElems(token: string)
    ensures Sorting.Elems(Labels(token)) == LabelSet(token)
  {
    var ls := Labels(token);
    forall l | l in LabelSet(token) ensures l in Sorting.Elems(ls) {
      var i :| 0 <= i < |token| && LabelOf(token[i]) == l;
      assert ls[i] == l;
    }
  }

  /** The facts `ClassifyToken` promises, from the counter's invariants. */
  lemma {:induction false} PrimaryProperties(token: string, t: seq<Tally>, k: nat)
    requires |token| > 0
    requires t == Counter(Labels(token))
    requires |t| > 0 && k == FirstMax(t)
    ensures Keys(t) == LabelSet(token)
    ensures forall l | l in Keys(t) :: CountOf(token, l) <= CountOf(token, t[k].key)
    ensures forall j | 0 <= j < |token| && CountOf(token, LabelOf(token[j])) == CountOf(token, t[k].key) ::
      t[k].key in Labels(token)[..j + 1]
  {
    LabelSetIsElems(token);
    forall l | l in Keys(t) ensures CountOf(token, l) <= CountOf(token, t[k].key) {
      var i :| 0 <= i < |t| && t[i].key == l;
    }
    forall j | 0 <= j < |token| && CountOf(token, LabelOf(token[j])) == CountOf(token, t[k].key)
      ensures t[k].key in Labels(token)[..j + 1]
    {
      TieGoesToFirstSeen(Labels(token), t, k, j);
    }
  }

  /** Among keys with equal counts, the first maximal key was seen no later
      than any other. */
  lemma {:induction false} TieGoesToFirstSeen(ls: seq<Label>, t: seq<Tally>, k: nat, j: nat)
    requires KeysDistinct(t) && Keys(t) == Sorting.Elems(ls) && FirstSeenOrder(t, ls)
    requires forall i | 0 <= i < |t| :: t[i].count == multiset(ls)[t[i].key]
    requires |t| > 0 && k == FirstMax(t)
    requires j < |ls| && multiset(ls)[ls[j]] == multiset(ls)[t[k].key]
    ensures t[k].key in ls[..j + 1]
  {
    assert ls[j] in Keys(t);
    var i :| 0 <= i < |t| && t[i].key == ls[j];
    assert t[i].count == t[k].count;
    TiedNotBefore(t, k, i);
    SeenNoLater(t, ls, k, i, j);
  }

  /** A key no later in the counter than the key `ls[j]` occurs in `ls` up
      to position `j`. */
  lemma {:induction false} SeenNoLater(t: seq<Tally>, ls: seq<Label>, k: nat, i: nat, j: nat)
    requires FirstSeenOrder(t, ls)
    requires k <= i < |t| && j < |ls| && ls[j] == t[i].key
    ensures t[k].key in ls[..j + 1]
  {
    if i == k {
      assert ls[..j + 1][j] == t[k].key;
    } else {
      SeenBefore(t, ls, k, i, j);
      assert ls[..j + 1] == ls[..j] + [ls[j]];
    }
  }

  /** A key tied with the first maximum does not come before it. */
  lemma {:induction false} TiedNotBefore(t: seq<Tally>, k: nat, i: nat)
    requires |t| > 0 && k == FirstMax(t)
    requires i < |t| && t[i].count == t[k].count
    ensures k <= i
  {
  }

  /** A key entered into the counter before another was seen before any
      occurrence of that other key. */
  lemma {:induction false} SeenBefore(t: seq<Tally>, ls: seq<Label>, k: nat, i: nat, j: nat)
    requires FirstSeenOrder(t, ls)
    requires k < i < |t| && j < |ls| && ls[j] == t[i].key
    ensures t[k].key in ls[..j]
  {
  }

  // ---------------------------------------------------------------------------
  // is_token_allowed
  // ---------------------------------------------------------------------------

  /** The labels the filter lets through: the European scripts, punctuation,
      symbols, private-use specials, `empty` and Greek, plus emoji when
      `allowEmoji` is set. */
  function AllowedLabels(allowEmoji: bool): set<Label> {
    {Ascii, Cyrillic, LatinExtended, Punctuation, Symbols, PrivateUse, Empty, Greek}
    + (if allowEmoji then {Emoji} else {})
  }

  /** Every label, once. */
  const AllLabels: seq<Label> := [
    Ascii, Cyrillic, LatinExtended, Punctuation, Symbols, Emoji, Chinese,
    Japanese, Korean, Arabic, Hebrew, Thai, Greek, Armenian, Georgian,
    Devanagari, Fullwidth, PrivateUse, Other, Empty]

  lemma {:induction false} AllLabelsComplete(l: Label)
    ensures l in AllLabels
  {
  }

  /** The labels of `ls` that belong to `s`, in the order of `ls`. */
  function Filter(ls: seq<Label>, s: set<Label>): (r: seq<Label>)
    ensures Sorting.Elems(r) == Sorting.Elems(ls) * s
  {
    if |ls| == 0 then []
    else
      assert ls == [ls[0]] + ls[1..];
      assert Sorting.Elems(ls) == {ls[0]} + Sorting.Elems(ls[1..]);
      var rest := Filter(ls[1..], s);
      if ls[0] in s then
        assert Sorting.Elems([ls[0]] + rest) == {ls[0]} + Sorting.Elems(rest);
        [ls[0]] + rest
      else rest
  }

  function Names(ls: seq<Label>): (r: seq<string>)
    ensures |r| == |ls|
    ensures forall i | 0 <= i < |ls| :: r[i] == Name(ls[i])
  {
    seq(|ls|, i requires 0 <= i < |ls| => Name(ls[i]))
  }

  /** `sorted(blocked)`: the names of a set of labels in increasing order. */
  function SortedNames(s: set<Label>): (r: seq<string>)
    ensures Sorting.StrictlySorted(r, Text.StrLess)
    ensures Sorting.Elems(r) == set l | l in s :: Name(l)
  {
    var ls := Filter(AllLabels, s);
    var names := Names(ls);
    assert Sorting.Elems(names) == set l | l in s :: Name(l) by {
      forall l | l in s ensures Name(l) in Sorting.Elems(names) {
        AllLabelsComplete(l);
        assert l in Sorting.Elems(ls);
        var i :| 0 <= i < |ls| && ls[i] == l;
        assert names[i] == Name(l);
      }
      forall n | n in Sorting.Elems(names) ensures n in set l | l in s :: Name(l) {
        var i :| 0 <= i < |names| && names[i] == n;
        assert ls[i] in Sorting.Elems(ls);
      }
    }
    Text.SortedStrings(names)
  }

  /** The verdict of the filter and its reason. */
  datatype Verdict = Verdict(allowed: bool, reason: string)

  function IsTokenAllowed(token: string, allowEmoji: bool): (r: Verdict)
    ensures |token| == 0 ==> r == Verdict(true, "empty")
    ensures |token| > 0 ==> (r.allowed <==> LabelSet(token) <= AllowedLabels(allowEmoji))
    ensures |token| > 0 && r.allowed ==> r.reason == "ok"
    ensures !r.allowed ==>
      r.reason == "contains: " + Text.Join(", ", SortedNames(LabelSet(token) - AllowedLabels(allowEmoji)))
  {
    if |token| == 0 then Verdict(true, "empty")
    else
      var c := ClassifyToken(token);
      var blocked := c.labels - AllowedLabels(allowEmoji);
      if blocked != {} then Verdict(false, "contains: " + Text.Join(", ", SortedNames(blocked)))
      else Verdict(true, "ok")
  }

  /** A blocked token's reason lists each blocked label once, sorted by name,
      and nothing else. */
  lemma {:induction false} BlockedReasonNames(token: string, allowEmoji: bool)
    requires !IsTokenAllowed(token, allowEmoji).allowed
    ensures |token| > 0
    ensures exists names: seq<string> ::
      && IsTokenAllowed(token, allowEmoji).reason == "contains: " + Text.Join(", ", names)
      && Sorting.StrictlySorted(names, Text.StrLess)
      && |names| > 0
      && Sorting.Elems(names) == (set l | l in LabelSet(token) - AllowedLabels(allowEmoji) :: Name(l))
  {
    var blocked := LabelSet(token) - AllowedLabels(allowEmoji);
    var names := SortedNames(blocked);
    var l :| l in blocked;
    assert Name(l) in Sorting.Elems(names);
  }

  /** Turning emoji on never blocks a token that was allowed with it off. */
  lemma {:induction false} AllowEmojiIsMoreLenient(token: string)
    ensures IsTokenAllowed(token, false).allowed ==> IsTokenAllowed(token, true).allowed
  {
  }

  /** A one-character token is allowed exactly when its label is. */
  lemma {:induction false} SingleCharAllowed(c: char, allowEmoji: bool)
    ensures LabelSet([c]) == {LabelOf(c)}
    ensures IsTokenAllowed([c], allowEmoji).allowed <==> LabelOf(c) in AllowedLabels(allowEmoji)
  {
    assert LabelSet([c]) == {LabelOf(c)};
  }

  /** A non-empty token is allowed exactly when each of its characters is
      allowed on its own. */
  lemma {:induction false} AllowedIffEachCharAllowed(token: string, allowEmoji: bool)
    requires |token| > 0
    ensures IsTokenAllowed(token, allowEmoji).allowed <==>
      forall i | 0 <= i < |token| :: IsTokenAllowed([token[i]], allowEmoji).allowed
  {
    var allowed := AllowedLabels(allowEmoji);
    forall i | 0 <= i < |token|
      ensures IsTokenAllowed([token[i]], allowEmoji).allowed <==> LabelOf(token[i]) in allowed
    {
      SingleCharAllowed(token[i], allowEmoji);
    }
    assert LabelSet(token) <= allowed <==> forall i | 0 <= i < |token| :: LabelOf(token[i]) in allowed;
  }
}

=== FILE: vocab_scan.dfy ===
/** The id-partition loop of `analyze_tokenizer` in log.py: every id of a
    tokenizer's vocabulary is sent to the allowed or the blocked list, the
    outcomes are counted, and up to five blocked examples are kept per
    primary label. The tokenizer is abstract: its size, its special ids and
    strings, and a `decode` that may fail. */
module VocabScan {
  import opened Wrappers
  import opened ScriptLabels
  import TokenFilter

  /** The parts of a tokenizer the loop consults. `decode(id)` is `None`
      when decoding that id raises. */
  datatype Tokenizer = Tokenizer(
    vocabSize: nat,
    specialIds: set<nat>,
    specialTokens: set<string>,
    decode: nat -> Option<string>)

  /** What the loop decides for one id. */
  datatype Outcome =
    | Special
    | DecodeError
    | Allowed
    | Blocked(primary: Label, text: string)

  datatype Kind = SpecialKind | DecodeErrorKind | AllowedKind | BlockedKind

  function KindOf(o: Outcome): Kind {
    match o
    case Special => SpecialKind
    case DecodeError => DecodeErrorKind
    case Allowed => AllowedKind
    case Blocked(_, _) => BlockedKind
  }

  /** The decision for one id, stated on its own: special ids first, then a
      failed decode, then a special string, then the token filter. */
  function Judge(tok: Tokenizer, allowEmoji: bool, id: nat): (o: Outcome)
    ensures o == Special <==>
      || id in tok.specialIds
      || (tok.decode(id).Some? && tok.decode(id).value in tok.specialTokens)
    ensures o == Allowed <==>
      && id !in tok.specialIds
      && tok.decode(id).Some?
      && tok.decode(id).value !in tok.specialTokens
      && TokenFilter.IsTokenAllowed(tok.decode(id).value, allowEmoji).allowed
    ensures o == DecodeError <==> id !in tok.specialIds && tok.decode(id) == None
    ensures o.Blocked? <==>
      && id !in tok.specialIds
      && tok.decode(id).Some?
      && tok.decode(id).value !in tok.specialTokens
      && !TokenFilter.IsTokenAllowed(tok.decode(id).value, allowEmoji).allowed
    ensures o.Blocked? ==>
      o.text == tok.decode(id).value && o.primary == TokenFilter.ClassifyToken(o.text).primary
  {
    if id in tok.specialIds then Special
    else
      match tok.decode(id)
      case None => DecodeError
      case Some(s) =>
        if s in tok.specialTokens then Special
        else if TokenFilter.IsTokenAllowed(s, allowEmoji).allowed then Allowed
        else Blocked(TokenFilter.ClassifyToken(s).primary, s)
  }

  /** The outcomes of the ids `0 .. n-1`, in id order. */
  function Outcomes(tok: Tokenizer, allowEmoji: bool, n: nat): (os: seq<Outcome>)
    ensures |os| == n
    ensures forall id | 0 <= id < n :: os[id] == Judge(tok, allowEmoji, id)
  {
    seq(n, id requires 0 <= id < n => Judge(tok, allowEmoji, id))
  }

  function Indicator(k: Kind, want: Kind): nat {
    if k == want then 1 else 0
  }

  /** How many outcomes of `os` have kind `k`. */
  function CountKind(os: seq<Outcome>, k: Kind): nat {
    if |os| == 0 then 0
    else CountKind(os[..|os| - 1], k) + Indicator(KindOf(os[|os| - 1]), k)
  }

  /** How many outcomes of `os` are blocks with primary label `l`. */
  function BlockedWith(os: seq<Outcome>, l: Label): nat {
    if |os| == 0 then 0
    else
      var o := os[|os| - 1];
      BlockedWith(os[..|os| - 1], l) + (if o.Blocked? && o.primary == l then 1 else 0)
  }

  lemma OneKind(k: Kind)
    ensures Indicator(k, SpecialKind) + Indicator(k, DecodeErrorKind)
          + Indicator(k, AllowedKind) + Indicator(k, BlockedKind) == 1
  {
  }

  /** Every outcome has exactly one of the four kinds, so the four counts
      add up to the number of outcomes. */
  lemma {:induction false} KindsPartition(os: seq<Outcome>)
    ensures CountKind(os, SpecialKind) + CountKind(os, DecodeErrorKind)
          + CountKind(os, AllowedKind) + CountKind(os, BlockedKind) == |os|
  {
    if |os| > 0 {
      KindsPartition(os[..|os| - 1]);
      OneKind(KindOf(os[|os| - 1]));
    }
  }

  /** The counters of the report, one per outcome kind. */
  datatype Stats = Stats(special: nat, decodeError: nat, allowed: nat, blocked: nat)

  /** A kept example of a blocked token. */
  datatype Example = Example(id: nat, text: string)

  datatype Report = Report(
    allowedIds: seq<nat>,
    blockedIds: seq<nat>,
    stats: Stats,
    examples: map<Label, seq<Example>>)

  predicate Increasing(s: seq<nat>) {
    forall i, j | 0 <= i < j < |s| :: s[i] < s[j]
  }

  function Min(a: nat, b: nat): nat {
    if a <= b then a else b
  }

  /** The number of examples kept per primary label. */
  const MaxExamples: nat := 5

  /** The outcomes of the first `n + 1` ids extend those of the first `n`. */
  lemma {:induction false} OutcomesSnoc(tok: Tokenizer, allowEmoji: bool, n: nat)
    ensures Outcomes(tok, allowEmoji, n + 1) == Outcomes(tok, allowEmoji, n) + [Judge(tok, allowEmoji, n)]
    ensures Outcomes(tok, allowEmoji, n + 1)[..n] == Outcomes(tok, allowEmoji, n)
  {
    var a, b := Outcomes(tok, allowEmoji, n + 1), Outcomes(tok, allowEmoji, n);
    var c := b + [Judge(tok, allowEmoji, n)];
    forall id | 0 <= id < n + 1 ensures a[id] == c[id] {
      if id < n {
        assert c[id] == b[id];
      }
    }
    assert a == c;
  }

  /** One iteration's bookkeeping: the id goes to the allowed or the blocked
      list, its counter grows by one, and a blocked id becomes an example of
      its primary label while that label has fewer than five. */
  function Record(r: Report, id: nat, o: Outcome): Report {
    match o
    case Special => r.(allowedIds := r.allowedIds + [id], stats := r.stats.(special := r.stats.special + 1))
    case DecodeError => r.(allowedIds := r.allowedIds + [id], stats := r.stats.(decodeError := r.stats.decodeError + 1))
    case Allowed => r.(allowedIds := r.allowedIds + [id], stats := r.stats.(allowed := r.stats.allowed + 1))
    case Blocked(primary, text) =>
      var kept := if primary in r.examples then r.examples[primary] else [];
      r.(blockedIds := r.blockedIds + [id],
         stats := r.stats.(blocked := r.stats.blocked + 1),
         examples := if |kept| < MaxExamples then r.examples[primary := kept + [Example(id, text)]] else r.examples)
  }

  /** The id lists after the outcomes `os` of the first `|os|` ids:
      ascending, and split by whether the id is blocked. */
  ghost predicate IdsSummary(r: Report, os: seq<Outcome>) {
    && Increasing(r.allowedIds) && Increasing(r.blockedIds)
    && (forall k | 0 <= k < |r.allowedIds| :: r.allowedIds[k] < |os|)
    && (forall k | 0 <= k < |r.blockedIds| :: r.blockedIds[k] < |os|)
    && (forall x: nat :: x in r.allowedIds <==> x < |os| && !os[x].Blocked?)
    && (forall x: nat :: x in r.blockedIds <==> x < |os| && os[x].Blocked?)
  }

  /** The counters after the outcomes `os`. */
  ghost predicate StatsSummary(r: Report, os: seq<Outcome>) {
    && r.stats == Stats(CountKind(os, SpecialKind), CountKind(os, DecodeErrorKind),
                        CountKind(os, AllowedKind), CountKind(os, BlockedKind))
    && |r.blockedIds| == r.stats.blocked
  }

  /** The examples after the outcomes `os`: for each label with a blocked
      id, its first (at most five) blocked ids in order. */
  ghost predicate ExamplesSummary(r: Report, os: seq<Outcome>) {
    && (forall l :: l in r.examples <==> BlockedWith(os, l) > 0)
    && (forall l | l in r.examples :: |r.examples[l]| == Min(MaxExamples, BlockedWith(os, l)))
    && (forall l, k | l in r.examples && 0 <= k < |r.examples[l]| ::
          var e := r.examples[l][k];
          && e.id < |os|
          && os[e.id] == Blocked(l, e.text)
          && BlockedWith(os[..e.id], l) == k)
  }

  lemma {:induction false} RecordIds(r: Report, os: seq<Outcome>, o: Outcome)
    requires IdsSummary(r, os)
    ensures IdsSummary(Record(r, |os|, o), os + [o])
  {
  }

  lemma {:induction false} RecordStats(r: Report, os: seq<Outcome>, o: Outcome)
    requires StatsSummary(r, os)
    ensures StatsSummary(Record(r, |os|, o), os + [o])
  {
    assert (os + [o])[..|os|] == os;
  }

  lemma {:induction false} BlockedWithSnoc(os: seq<Outcome>, o: Outcome, l: Label)
    ensures BlockedWith(os + [o], l) == BlockedWith(os, l) + (if o.Blocked? && o.primary == l then 1 else 0)
  {
    assert (os + [o])[..|os|] == os;
  }

  lemma {:induction false} RecordExamples(r: Report, os: seq<Outcome>, o: Outcome)
    requires ExamplesSummary(r, os)
    ensures ExamplesSummary(Record(r, |os|, o), os + [o])
  {
    RecordExampleKeys(r, os, o);
    RecordExampleLengths(r, os, o);
    RecordExampleEntries(r, os, o);
  }

  /** A label has examples once it has a blocked id ... */
  lemma {:induction false} RecordExampleKeys(r: Report, os: seq<Outcome>, o: Outcome)
    requires ExamplesSummary(r, os)
    ensures forall l :: l in Record(r, |os|, o).examples <==> BlockedWith(os + [o], l) > 0
  {
    forall l ensures BlockedWith(os + [o], l) == BlockedWith(os, l) + (if o.Blocked? && o.primary == l then 1 else 0) {
      BlockedWithSnoc(os, o, l);
    }
  }

  /** ... and keeps up to five of them ... */
  lemma {:induction false} RecordExampleLengths(r: Report, os: seq<Outcome>, o: Outcome)
    requires ExamplesSummary(r, os)
    ensures var r' := Record(r, |os|, o);
      forall l | l in r'.examples :: |r'.examples[l]| == Min(MaxExamples, BlockedWith(os + [o], l))
  {
    forall l ensures BlockedWith(os + [o], l) == BlockedWith(os, l) + (if o.Blocked? && o.primary == l then 1 else 0) {
      BlockedWithSnoc(os, o, l);
    }
  }

  /** ... each the `k`-th blocked id of its label. */
  lemma {:induction false} RecordExampleEntries(r: Report, os: seq<Outcome>, o: Outcome)
    requires ExamplesSummary(r, os)
    ensures var r' := Record(r, |os|, o);
      forall l, k | l in r'.examples && 0 <= k < |r'.examples[l]| ::
        var e := r'.examples[l][k];
        && e.id < |os + [o]|
        && (os + [o])[e.id] == Blocked(l, e.text)
        && BlockedWith((os + [o])[..e.id], l) == k
  {
    assert (os + [o])[..|os|] == os;
    forall l, k | l in r.examples && 0 <= k < |r.examples[l]|
      ensures (os + [o])[..r.examples[l][k].id] == os[..r.examples[l][k].id]
    {
    }
  }

  /** The outcomes of the first `m` ids are a prefix of those of the first `n`. */
  lemma {:induction false} OutcomesPrefix(tok: Tokenizer, allowEmoji: bool, n: nat, m: nat)
    requires m <= n
    ensures Outcomes(tok, allowEmoji, n)[..m] == Outcomes(tok, allowEmoji, m)
  {
  }

  /** Everything the loop keeps after the outcomes `os`. */
  ghost predicate Summary(r: Report, os: seq<Outcome>) {
    IdsSummary(r, os) && StatsSummary(r, os) && ExamplesSummary(r, os)
  }

  /** One iteration keeps the summary. */
  lemma {:induction false} RecordTurn(r: Report, os: seq<Outcome>, o: Outcome)
    requires Summary(r, os)
    ensures Summary(Record(r, |os|, o), os + [o])
  {
    RecordIds(r, os, o);
    RecordStats(r, os, o);
    RecordExamples(r, os, o);
  }

  /** The summary of all the outcomes, stated in terms of `Judge`. */
  lemma {:induction false} SummaryIds(tok: Tokenizer, allowEmoji: bool, r: Report)
    requires IdsSummary(r, Outcomes(tok, allowEmoji, tok.vocabSize))
    ensures forall id: nat :: id in r.allowedIds <==>
      id < tok.vocabSize && !Judge(tok, allowEmoji, id).Blocked?
    ensures forall id: nat :: id in r.blockedIds <==>
      id < tok.vocabSize && Judge(tok, allowEmoji, id).Blocked?
    ensures forall id | id in tok.specialIds && id < tok.vocabSize :: id in r.allowedIds
  {
  }

  lemma {:induction false} SummaryExamples(tok: Tokenizer, allowEmoji: bool, r: Report)
    requires ExamplesSummary(r, Outcomes(tok, allowEmoji, tok.vocabSize))
    ensures forall l, k | l in r.examples && 0 <= k < |r.examples[l]| ::
      var e := r.examples[l][k];
      && e.id < tok.vocabSize
      && Judge(tok, allowEmoji, e.id) == Blocked(l, e.text)
      && BlockedWith(Outcomes(tok, allowEmoji, e.id), l) == k
  {
    forall l, k | l in r.examples && 0 <= k < |r.examples[l]|
      ensures BlockedWith(Outcomes(tok, allowEmoji, r.examples[l][k].id), l) == k
    {
      OutcomesPrefix(tok, allowEmoji, tok.vocabSize, r.examples[l][k].id);
    }
  }

  /** The loop of `analyze_tokenizer` over `range(vocab_size)`. */
  method AnalyzeVocab(tok: Tokenizer, allowEmoji: bool) returns (r: Report)
    ensures Increasing(r.allowedIds) && Increasing(r.blockedIds)
    ensures forall id: nat :: id in r.allowedIds <==>
      id < tok.vocabSize && !Judge(tok, allowEmoji, id).Blocked?
    ensures forall id: nat :: id in r.blockedIds <==>
      id < tok.vocabSize && Judge(tok, allowEmoji, id).Blocked?
    ensures forall id | id in tok.specialIds && id < tok.vocabSize :: id in r.allowedIds
    ensures r.stats.special + r.stats.decodeError + r.stats.allowed + r.stats.blocked == tok.vocabSize
    ensures var os := Outcomes(tok, allowEmoji, tok.vocabSize);
      r.stats == Stats(CountKind(os, SpecialKind), CountKind(os, DecodeErrorKind),
                       CountKind(os, AllowedKind), CountKind(os, BlockedKind))
    ensures |r.blockedIds| == r.stats.blocked
    ensures forall l :: l in r.examples <==> BlockedWith(Outcomes(tok, allowEmoji, tok.vocabSize), l) > 0
    ensures forall l | l in r.examples ::
      |r.examples[l]| == Min(MaxExamples, BlockedWith(Outcomes(tok, allowEmoji, tok.vocabSize), l))
    ensures forall l, k | l in r.examples && 0 <= k < |r.examples[l]| ::
      var e := r.examples[l][k];
      && e.id < tok.vocabSize
      && Judge(tok, allowEmoji, e.id) == Blocked(l, e.text)
      && BlockedWith(Outcomes(tok, allowEmoji, e.id), l) == k
  {
    r := Report([], [], Stats(0, 0, 0, 0), map[]);
    for id := 0 to tok.vocabSize
      invariant Summary(r, Outcomes(tok, allowEmoji, id))
    {
      OutcomesSnoc(tok, allowEmoji, id);
      RecordTurn(r, Outcomes(tok, allowEmoji, id), Judge(tok, allowEmoji, id));
      r := Record(r, id, Judge(tok, allowEmoji, id));
    }
    KindsPartition(Outcomes(tok, allowEmoji, tok.vocabSize));
    SummaryIds(tok, allowEmoji, r);
    SummaryExamples(tok, allowEmoji, r);
  }
}

=== FILE: wrappers.dfy ===
/** Failure-compatible wrappers shared by every component of the model. */
module Wrappers {

  /** A value that may be absent: Python's `None` versus a present value. */
  datatype Option<+T> = None | Some(value: T) {
    predicate IsFailure() {
      None?
    }

    function PropagateFailure<U>(): Option<U>
      requires None?
    {
      None
    }

    function Extract(): T
      requires Some?
    {
      value
    }

    function GetOr(default: T): T {
      match this
      case Some(v) => v
      case None => default
    }
  }

  /** The outcome of an operation that may raise: a value or the raised error. */
  datatype Result<+R, +E> = Success(value: R) | Failure(error: E) {
    predicate IsFailure() {
      Failure?
    }

    function PropagateFailure<U>(): Result<U, E>
      requires Failure?
    {
      Failure(error)
    }

    function Extract(): R
      requires Success?
    {
      value
    }
  }
}
